=== FILE: README.md ===
# A Dafny model of the FAQ cache layer

This project models the FAQ application's caching, translation and
invalidation layer, which is written in Django. It also models two small
surrounding pieces: the sign-up and login decisions, and the admin list
columns.

**The FAQ table**
- Rows have an auto-increment id, a question, an answer, and the timestamps
  `created_at` and `updated_at`.
- The table is listed newest first.
- Saving or deleting a row first clears a set of per-field translation keys.

**The cache**
- It is a map from key to entry.
- It has five key namespaces under the root `faq:`:
  - translation memo entries, `faq:translation:{hash(text)}:{lang}`;
  - per-row assembled payloads, `faq:content:{id}:{lang}`;
  - the HTML list payload, `faq:list_data:{lang}`;
  - the API list, `faq:list:{lang}`;
  - the API detail, `faq:detail:{pk}:{lang}`.

**Reads**
- Every read is read-through: it serves a cached value, or fills the cache on a miss.
- A translation goes through an external translator. On failure the translator falls back to the original text.

**Writes** invalidate in one of four ways:
- the API views sweep every `faq:*` key after the view returns;
- the HTML views delete an enumerated key set for each configured language;
- the model hooks clear per-field keys;
- the admin hook deletes three keys of its own.

**How operations are modelled**
- Each operation is a pure function.
- Reads return what they answer, the cache afterwards and the number of translator calls.
- Writes return the ordered list of primitive steps they perform. `Mutations.Run` interprets such a list against a table and a cache, so claims about ordering are facts about positions in the list.

**Coherence**
- `Coherence.Coherent` says that every cached entry in a configured language agrees with the table, key by key. It compares ids, order, timestamps and serializer output.
- `updated_at` changes on every save. A cached payload whose `updated_at` differs from its row's is therefore one the cache kept across an edit.

**Where the save hooks fall short of their own intent.** `FAQ.save` says it
clears the row's translation cache before writing (faqs/models.py:111-114), and
the admin's `save_model` says it clears the cache on save (faqs/admin.py:63-69).
Neither does so for the payloads reads actually serve:
- neither `faq_edit` nor the admin hook ever deletes the `faq:content:{id}:{lang}` payloads;
- the model's own clearing deletes `faq:translation:{id}:{field}:{lang}` keys, which nothing writes.

The model follows the code. The consequences are listed under Findings.

Modules, one per file:
- `Wrappers` (wrappers.dfy), `Text` (text.dfy) and `Settings` (settings.dfy)
- `CacheKeys` (keys.dfy) and `Cache` (cache.dfy)
- `Translation` (translation.dfy) and `ItemContent` (content.dfy)
- `Store` (store.dfy) and `ReadViews` (read_views.dfy)
- `Invalidation` (invalidation.dfy) and `Mutations` (mutations.dfy)
- `Coherence` (coherence.dfy) and `WriteCoherence` (writes.dfy)
- `Findings` (findings.dfy)
- `StrMethods` (str_methods.dfy), `Auth` (auth.dfy) and `AdminDisplay` (admin_display.dfy)

## Model

| member | source | states |
|---|---|---|
| CacheKeys.GetCacheKey | faq_system/faqs/views.py:19-23 | every key built by the views lies under the `faq:` root |
| CacheKeys.GetCacheKeyColons | faq_system/faqs/views.py:19-23 | a truthy identifier adds exactly one colon-separated segment; `None` and `0` add none |
| CacheKeys.GetCacheKeyInjective | faq_system/faqs/views.py:19-23 | over colon-free prefixes and languages, equal keys mean equal truthiness, equal prefix and language, and equal identifier when truthy |
| CacheKeys.ListKey | faq_system/faqs/views.py:19-23 | the list key is `faq:list:{lang}`, in the list namespace |
| CacheKeys.ListDataKey | faq_system/faqs/views.py:19-23 | the list_data key is `faq:list_data:{lang}`, in its own namespace |
| CacheKeys.DetailKey | faq_system/faqs/views.py:19-23 | the detail key is `faq:detail:{pk}:{lang}`, and the pk segment is dropped for the falsy pk 0 |
| CacheKeys.ListDataReaderKey | faq_system/faqs/views.py:144 | the key the list_data reader writes by hand lies in the list_data namespace |
| CacheKeys.ReaderAndInvalidatorsAgree | faq_system/faqs/views.py:144 | the hand-built `faq:list_data:{lang}` equals `get_cache_key("list_data", lang=lang)`, so reader and invalidators name the same key |
| CacheKeys.IdText | faq_system/faqs/models.py:27-29 | the rendered id (a number or `None`) holds no colon |
| CacheKeys.ContentKeyInjective | faq_system/faqs/models.py:93 | a content key determines its row id and language |
| CacheKeys.TranslationKeyInjective | faq_system/faqs/models.py:53 | a memo key determines its fingerprint and language |
| CacheKeys.FieldKeyIsNoTranslationKey | faq_system/faqs/models.py:27-29 | a per-field key `faq:translation:{id}:{field}:{lang}` is never a memo key of a colon-free language |
| CacheKeys.PrefixesClash | faq_system/faqs/views.py:19-23 | a key cannot start with two prefixes that differ at a shared position |
| CacheKeys.ContentKeyNamespace | faq_system/faqs/models.py:93 | content keys fall in the content namespace |
| CacheKeys.TranslationKeyNamespace | faq_system/faqs/models.py:53 | memo keys fall in the translation namespace |
| CacheKeys.FieldKeyNamespace | faq_system/faqs/models.py:27-29 | per-field keys fall in the translation namespace |
| CacheKeys.NamespacedKeysAreRooted | faq_system/faqs/views.py:32-34 | every key of a namespace lies under `faq:`, so the sweep reaches all of them |
| Cache.Get | faq_system/faqs/views.py:61 | a get answers the stored value exactly when the key is present |
| Cache.Set | faq_system/faqs/models.py:108 | a set replaces only its own entry and keeps every value in its namespace's shape |
| Cache.DeleteMany | faq_system/faqs/views.py:235-236 | delete_many removes exactly the listed keys; an absent key is a no-op and other entries are unchanged |
| Cache.Delete | faq_system/faqs/admin.py:69 | delete removes exactly one key and leaves the rest unchanged |
| Cache.Sweep | faq_system/faqs/views.py:32-34 | the sweep removes exactly the keys under `faq:`; every other key stays with its value |
| Translation.MemoKey | faq_system/faqs/models.py:53 | the memo key lies in the translation namespace |
| Translation.TranslateText | faq_system/faqs/models.py:44-73 | the base language passes through with no cache traffic; a hit answers the cached text with no call; a miss makes one call, stores a successful answer for 86400 s, and on failure returns the original text and stores nothing |
| Translation.TranslateTouchesOnlyItsKey | faq_system/faqs/models.py:68 | a translation writes no key other than its own memo key |
| Translation.BasePassesThrough | faq_system/faqs/models.py:50-51 | for `en` the text is the same whatever the cache and the translator, and nothing is read, written or asked |
| Translation.TranslateIsMemoised | faq_system/faqs/models.py:53-70 | asking twice gives the same text; the second call is free unless the first call fell back |
| Translation.FailureIsRetried | faq_system/faqs/models.py:71-73 | a failed translation leaves its key absent, so a later call with a working translator stores and returns the answer |
| Translation.SharedFingerprintSharesEntry | faq_system/faqs/models.py:53 | two texts with equal hashes share one memo entry, so a hit for one serves the other |
| ItemContent.Raw | faq_system/faqs/models.py:85-91 | the untranslated payload carries the row's text and both timestamps |
| ItemContent.ItemKey | faq_system/faqs/models.py:93 | a row's payload key lies in the content namespace |
| ItemContent.GetTranslatedContent | faq_system/faqs/models.py:75-109 | `en` gives the raw row with no cache traffic; a hit gives the stored payload with no call; a miss translates the question and then the answer, keeps the row's timestamps and caches the payload for 3600 s; only the row's own key and memo keys change |
| ItemContent.ContentReadIsIdempotent | faq_system/faqs/models.py:93-109 | a second read with no change in between returns the identical payload, writes nothing and makes no translator call |
| ItemContent.AssembledPayloadKeepsTimestamps | faq_system/faqs/models.py:100-105 | a payload assembled from a row carries that row's `created_at` and `updated_at` |
| ItemContent.FailingTranslatorServesSourceText | faq_system/faqs/models.py:59-73 | with a failing translator and a cold cache, every language reads the row's own text |
| ItemContent.Label | faq_system/faqs/models.py:121-122 | `__str__` is the first 50 characters of the question, or all of it if shorter |
| ReadViews.SerializeAll | faq_system/faqs/views.py:65-67 | one serialized record per row, in order |
| ReadViews.ApiListView | faq_system/faqs/views.py:56-71 | any cached list, even an empty one, is answered as is; a miss serializes every row newest first and caches the list for an hour |
| ReadViews.ApiListHitIgnoresStore | faq_system/faqs/views.py:61-63 | on a hit, two different tables give the same answer |
| ReadViews.ApiListIsIdempotent | faq_system/faqs/views.py:56-71 | a second list read returns the same data and changes nothing |
| ReadViews.ApiRetrieveView | faq_system/faqs/views.py:73-88 | an absent row is a 404 with no cache traffic; a present row is served from the detail key, or serialized and cached on a miss |
| ReadViews.RetrieveChecksStoreFirst | faq_system/faqs/views.py:76-81 | a deleted row is a 404 even while its detail entry is still cached |
| ReadViews.AssembleEntries | faq_system/faqs/views.py:149-151 | one entry per row, in order, with the row's id; at most two translator calls per row; only content and memo keys change; `en` is the raw table with no cache traffic |
| ReadViews.AssembleEntriesContents | faq_system/faqs/views.py:149-151 | entry i carries exactly the payload `get_translated_content` returns for row i against the cache the reads of rows 0 to i-1 left behind: rows are read one at a time, in list order |
| ReadViews.ListDataView | faq_system/faqs/views.py:139-159 | a cached payload, even an empty one, is served as stored; a miss lists every row newest first with its id and, for each, the payload its read returns against the cache the earlier rows' reads left, caches the list for the timeout, and changes nothing else but content and memo keys |
| ReadViews.StoreListData | faq_system/faqs/views.py:147-157 | the miss branch: entries line up with the rows (ids and per-row payloads as read in order), the list is stored under `faq:list_data:{lang}` for the timeout, and besides that key only content and memo keys change |
| ReadViews.ListDataHitIgnoresStore | faq_system/faqs/views.py:144-146 | on a hit, neither the table nor the translator is consulted |
| ReadViews.ListDataIsIdempotent | faq_system/faqs/views.py:139-159 | a second read returns the identical payload, writes nothing and makes no translator call |
| ReadViews.BaseListDataIsTheTable | faq_system/faqs/views.py:148-151 | a fresh `en` payload is the table, newest first, untranslated |
| ReadViews.TranslationsPreview | faq_system/faqs/views.py:243-249 | the preview has a payload for a language exactly when it is listed and is not `en`, and changes only content and memo keys |
| ReadViews.TranslationsPreviewValues | faq_system/faqs/views.py:243-249 | each non-`en` language's payload is what `get_translated_content` returns in that language against the cache the reads for the languages before it left; a language listed twice keeps its later read |
| Store.Find | faq_system/faqs/views.py:76 | a lookup finds a row exactly when one has the id, and the row it returns has that id |
| Store.LookupMember | faq_system/faqs/views.py:76 | with unique ids, looking a row up by its id finds that very row |
| Store.InsertNewest | faq_system/faqs/models.py:127 | inserting into a newest-first list keeps it newest first and adds exactly that row |
| Store.Recent | faq_system/faqs/views.py:46 | the listing is ordered by `created_at` descending and is a permutation of the table |
| Store.RecentIsAPermutation | faq_system/faqs/views.py:148 | the newest-first listing holds exactly the table's rows |
| Store.RecentKeepsIdsUnique | faq_system/faqs/views.py:148 | the listing repeats no id |
| Store.Add | faq_system/faqs/models.py:22-25 | an insert takes the next id with both timestamps set to now and leaves every other row unchanged |
| Store.EditAll | faq_system/faqs/models.py:24-25 | an update changes the text and `updated_at` of the matching row only |
| Store.Update | faq_system/faqs/models.py:24-25 | an update of a present row keeps `created_at` and sets `updated_at` to now; other rows are unchanged; an absent id changes nothing |
| Store.Without | faq_system/faqs/models.py:116-119 | removal keeps exactly the rows with another id |
| Store.Remove | faq_system/faqs/models.py:116-119 | after a delete the id is gone and every other row stays |
| Invalidation.CreateKeys | faq_system/faqs/views.py:184-195 | two keys per configured language |
| Invalidation.CreateKeysMembers | faq_system/faqs/views.py:184-198 | `faq_create` deletes exactly the list and list_data keys of each configured language |
| Invalidation.EditKeys | faq_system/faqs/views.py:221-233 | three keys per configured language |
| Invalidation.EditKeysMembers | faq_system/faqs/views.py:221-236 | `faq_edit` and `faq_delete` delete exactly the list, list_data and `detail:{pk}` keys of each language |
| Invalidation.EditKeysDistinct | faq_system/faqs/views.py:226-233 | over distinct languages, the edit set lists no key twice |
| Invalidation.CreateKeysDistinct | faq_system/faqs/views.py:189-195 | over distinct languages, the create set lists no key twice |
| Invalidation.ConfiguredKeyCounts | faq_system/faqs/views.py:221-236 | for en, hi and bn, edit and delete remove 9 distinct keys and create removes 6, none of them a detail key |
| Invalidation.ViewSetsMissContentKeys | faq_system/faqs/views.py:226-233 | the enumerated sets only touch the list, list_data and detail namespaces, never payloads or memo entries |
| Invalidation.FieldKeysFor | faq_system/faqs/models.py:37-41 | one per-field key per language |
| Invalidation.ClearTranslationsKeys | faq_system/faqs/models.py:31-42 | the clearing lists the question key of every configured language in order, followed by the answer key of every language: 2×\|LANGUAGES\| keys of the form `faq:translation:{id}:{field}:{lang}` |
| Invalidation.ClearTranslationsKeysMembers | faq_system/faqs/models.py:39-42 | a key is cleared exactly when it is the question or the answer key of a configured language |
| Invalidation.ClearingMissesWrittenKeys | faq_system/faqs/models.py:39-42 | no key the clearing deletes is the memo key of a colon-free language (so it never removes such a live translation), and every cleared key is in the translation namespace |
| Invalidation.ClearingCanHitColonLanguageMemo | faq_system/faqs/models.py:27-53 | the colon-free condition is needed: the memo key of a text hashing to 5 in the language `question:hi` is row 5's per-field key for `hi`, which the clearing deletes |
| Invalidation.AdminKeys | faq_system/faqs/admin.py:66-68 | the admin hook names `_get_cache_key("content", lang)` for en, hi and bn |
| Invalidation.AdminKeysMissContentKeys | faq_system/faqs/admin.py:68 | those keys are neither a `faq:content:` key nor a memo key |
| Invalidation.ContentKeysFor | faq_system/faqs/models.py:93 | one content key of the row per language |
| Mutations.Apply | faq_system/faqs/models.py:111-119 | a table step leaves the cache alone and a cache step leaves the table alone |
| Mutations.RunConcat | faq_system/faqs/views.py:26-37 | running two step lists one after the other is running their concatenation |
| Mutations.ModelSave | faq_system/faqs/models.py:111-114 | `save` clears the per-field keys first, then inserts (no id yet) or updates |
| Mutations.ModelSaveEffect | faq_system/faqs/models.py:111-114 | after a save, the cache is the old cache minus the per-field keys, and the table is the insert or update |
| Mutations.ModelDelete | faq_system/faqs/models.py:116-119 | `delete` clears the per-field keys, then drops the row |
| Mutations.ModelDeleteEffect | faq_system/faqs/models.py:116-119 | after a delete, the row is gone and the cache lost exactly the per-field keys |
| Mutations.DeleteIfAny | faq_system/faqs/views.py:197-198 | delete_many is issued only for a non-empty key list |
| Mutations.FaqCreate | faq_system/faqs/views.py:175-205 | a valid POST saves a new row and then deletes the create set; anything else renders the form with no effect |
| Mutations.EditWith | faq_system/faqs/views.py:208-265 | a missing row is a 404; a valid POST saves and then deletes the chosen set; otherwise the form and its preview are rendered |
| Mutations.FaqEdit | faq_system/faqs/views.py:208-265 | `faq_edit` as written: a missing row is a 404; a valid POST saves and then makes one `delete_many` of exactly `EditKeys(LANGUAGES, pk)`, the list, list_data and detail keys of each configured language; otherwise the preview is rendered |
| Mutations.FaqDelete | faq_system/faqs/views.py:268-317 | a confirmed delete issues delete_many of the edit set before the row is dropped; a GET only previews; a missing row is a 404 |
| Mutations.DeleteEach | faq_system/faqs/admin.py:67-69 | one `cache.delete` per key, in order |
| Mutations.AdminSaveWith | faq_system/faqs/admin.py:63-69 | the admin hook saves the row first and only then deletes its keys one by one |
| Mutations.AdminSaveModel | faq_system/faqs/admin.py:63-69 | `save_model` as written: the model save, then one `cache.delete` per admin language (en, hi, bn) of `faq:translation:{id}:content:{lang}` (the `AdminKeys` set) for the id the row was saved under |
| Mutations.ClearFaqCache | faq_system/faqs/views.py:26-37 | the decorator returns the view's result and appends the sweep only if the view returned |
| Mutations.ApiCreate | faq_system/faqs/views.py:90-101 | invalid data gives 400 with no effect; otherwise one model save of a new row, then 201 |
| Mutations.ApiUpdate | faq_system/faqs/views.py:103-114 | a missing row raises 404 before any write; a partial update keeps the absent fields; invalid data gives 400 |
| Mutations.ApiDestroy | faq_system/faqs/views.py:116-122 | a missing row raises 404; otherwise a model delete, then 204 |
| Mutations.SaveAll | faq_system/faqs/views.py:126-136 | item i becomes steps 2i and 2i+1: the clearing under the unsaved id, then the insert of that item's texts at the clock reading of its own save, in submission order |
| Mutations.SaveAllEffect | faq_system/faqs/views.py:126-136 | a bulk create adds one row per item with the item's texts and both timestamps set to that item's own clock reading, under consecutive ids from the counter up in submission order, and leaves every existing row as it was |
| Mutations.ApiBulkCreate | faq_system/faqs/views.py:124-136 | invalid data gives 400 with no effect; otherwise every item is saved, each at its own clock reading, then 201 |
| Coherence.UnconstrainedKeys | faq_system/faqs/models.py:53 | memo entries and foreign keys cannot disagree with the table |
| Coherence.RootlessKeys | faq_system/faqs/views.py:32-34 | a key outside `faq:` cannot disagree with the table |
| Coherence.AssembledIsFresh | faq_system/faqs/models.py:100-108 | a payload assembled from a table row agrees with the table |
| Coherence.ContentReadKeepsCoherent | faq_system/faqs/models.py:75-109 | reading a payload keeps a coherent cache coherent and answers the row's timestamps |
| Coherence.AssembleKeepsCoherent | faq_system/faqs/views.py:149-151 | assembling the list keeps coherence and lists the rows with their ids and timestamps |
| Coherence.RecentRowsAreFound | faq_system/faqs/views.py:148 | every listed row is found by its id |
| Coherence.ListDataReadKeepsCoherent | faq_system/faqs/views.py:139-159 | a list_data read from a coherent cache keeps it coherent and answers the table as it is |
| Coherence.ListDataPayloadFresh | faq_system/faqs/views.py:156 | a payload that lists the table as it is can be stored under list_data |
| Coherence.WriteKeepsCoherent | faq_system/faqs/views.py:70 | storing a fresh entry keeps coherence |
| Coherence.ApiListReadKeepsCoherent | faq_system/faqs/views.py:56-71 | an API list read keeps coherence and answers the current table, serialized |
| Coherence.ApiRetrieveKeepsCoherent | faq_system/faqs/views.py:73-88 | an API detail read keeps coherence and answers the current row, serialized |
| Coherence.DetailWriteIsFresh | faq_system/faqs/views.py:84-87 | the detail entry a miss writes for a stored row is fresh for its key |
| Coherence.DetailKeyInjectiveInBoth | faq_system/faqs/views.py:19-23 | a detail key of a non-zero pk names one pk and one language |
| WriteCoherence.AddKeepsFresh | faq_system/faqs/models.py:111-114 | an insert only invalidates the list entries |
| WriteCoherence.UpdateKeepsFresh | faq_system/faqs/models.py:111-114 | an update only invalidates the lists and the row's own payload and detail entries |
| WriteCoherence.RemoveKeepsFresh | faq_system/faqs/models.py:116-119 | a delete only invalidates the list entries |
| WriteCoherence.DeleteKeepsCoherent | faq_system/faqs/views.py:235-236 | deleting keys never breaks coherence |
| WriteCoherence.PreviewKeepsCoherent | faq_system/faqs/views.py:243-249 | the translation preview keeps coherence |
| WriteCoherence.ShowPreviewKeepsCoherent | faq_system/faqs/views.py:297-303 | rendering the edit or delete page keeps coherence |
| WriteCoherence.PreviewStepKeepsCoherent | faq_system/faqs/views.py:243-249 | the preview step keeps coherence whether or not the row exists |
| WriteCoherence.FaqCreateKeepsCoherent | faq_system/faqs/views.py:175-205 | `faq_create` keeps the cache coherent |
| WriteCoherence.CreateSetCoversLists | faq_system/faqs/views.py:189-195 | the create set holds the list and list_data key of every configured language |
| WriteCoherence.InsertStepsKeepCoherent | faq_system/faqs/views.py:182-198 | clearing any keys, inserting a row, then deleting a set that covers every list and list_data key keeps coherence |
| WriteCoherence.FaqDeleteKeepsCoherent | faq_system/faqs/views.py:268-317 | `faq_delete` keeps the cache coherent |
| WriteCoherence.DeleteStepsKeepCoherent | faq_system/faqs/views.py:289-292 | deleting the edit set and then the row keeps coherence |
| WriteCoherence.FaqDeleteEffect | faq_system/faqs/views.py:275-292 | after `faq_delete` the row is gone and the cache lost exactly the edit set and the per-field keys |
| WriteCoherence.DeleteThenDrop | faq_system/faqs/views.py:289-292 | invalidating and then dropping is the composition of the two effects |
| WriteCoherence.DeletionKeepsCoherent | faq_system/faqs/models.py:116-119 | dropping a row after its list entries are gone keeps coherence |
| WriteCoherence.FixedEditKeys | faq_system/faqs/views.py:221-236 | the corrected edit set holds the list, list_data, detail and content keys of every language |
| WriteCoherence.FaqEditFixed | faq_system/faqs/views.py:208-265 | the edit view with the corrected key set: a missing row is a 404; a valid POST saves and then makes one `delete_many` of `FixedEditKeys(pk)`, the list, list_data, detail and content keys of each configured language; otherwise the preview is rendered |
| WriteCoherence.FaqEditFixedKeepsCoherent | faq_system/faqs/views.py:208-265 | with the row's payload keys added, an edit keeps the cache coherent |
| WriteCoherence.SaveStepsKeepCoherent | faq_system/faqs/views.py:216-236 | clearing any keys, updating a row, then deleting a set that covers every list, list_data, detail and payload key of the row keeps coherence |
| WriteCoherence.SweepMakesCoherent | faq_system/faqs/views.py:26-37 | after the `faq:*` sweep, whatever came before, the cache is coherent |
| WriteCoherence.ClearFaqCacheSweeps | faq_system/faqs/views.py:26-37 | the decorator returns the view's response unchanged; afterwards no `faq:` key remains, every other key is untouched, and the table is as the view left it |
| WriteCoherence.RejectedCreateStillSweeps | faq_system/faqs/views.py:90-101 | a create that answers 400 still sweeps the cache |
| WriteCoherence.ApiWritesKeepCoherent | faq_system/faqs/views.py:26-37 | every API write under the decorator keeps the cache coherent |
| WriteCoherence.ApiCallsRaiseBeforeWriting | faq_system/faqs/views.py:103-122 | create and bulk_create always return; update and destroy write nothing when they raise 404 |
| Findings.PreviewCachesPayload | faq_system/faqs/views.py:243-249 | rendering the edit page leaves the row's payload cached in every previewed non-`en` language |
| Findings.AssembleServesCached | faq_system/faqs/views.py:149-151 | the list page shows a row's cached payload, whatever the row now says |
| Findings.EditKeepsPayload | faq_system/faqs/views.py:221-236 | after an edit the row's payload entry survives unchanged, while every list_data key is gone |
| Findings.EditSetsMissPayload | faq_system/faqs/views.py:221-236 | the row's payload key is in neither deleted set |
| Findings.EditSteps | faq_system/faqs/views.py:215-236 | an edit POST updates the row, clears the per-field keys and then deletes the chosen set |
| Findings.EditBreaksCoherence | faq_system/faqs/views.py:208-236 | an edit of a row with a cached payload leaves the cache disagreeing with the table |
| Findings.EditServesStaleListPage | faq_system/faqs/views.py:208-265 | opening the edit page, saving, then listing in a translated language shows the row with its old `updated_at` |
| Findings.StaleEntryOnPage | faq_system/faqs/views.py:139-159 | a payload with an old stamp is shown on a rebuilt list page |
| Findings.PreviewThenEditKeepsStale | faq_system/faqs/views.py:208-265 | after preview and save, the row's payload keeps the old stamp while the list page is gone |
| Findings.ShowPreviewCachesFreshPayload | faq_system/faqs/views.py:243-249 | the preview caches the payload with the row's stamps |
| Findings.PreviewLeavesFreshPayload | faq_system/faqs/views.py:243-249 | the previewed payload in a language carries the row's `updated_at` |
| Findings.CachedPayloadHasStamps | faq_system/faqs/models.py:93-97 | in a coherent cache, a row's cached payload carries the row's stamps |
| Findings.ListPageShowsCachedPayload | faq_system/faqs/views.py:144-157 | a rebuilt list page shows the row's cached payload verbatim |
| Findings.FixedEditServesFreshListPage | faq_system/faqs/views.py:221-236 | with the corrected set, the list page after an edit lists the table as it is |
| Findings.RunDeleteEach | faq_system/faqs/admin.py:67-69 | deleting keys one by one is deleting them as a batch |
| Findings.AdminChangeSteps | faq_system/faqs/admin.py:63-69 | an admin change updates the row, clears the per-field keys and then deletes the hook's keys |
| Findings.AdminChangeKeepsPayload | faq_system/faqs/admin.py:63-69 | after an admin change the row's payload survives unchanged |
| Findings.AdminSetsMissPayload | faq_system/faqs/admin.py:68 | the row's payload key is in neither set the admin path deletes |
| Findings.AdminChangeBreaksCoherence | faq_system/faqs/admin.py:63-69 | an admin change of a row with a cached payload leaves the cache disagreeing with the table |
| Findings.AdminSaveFixed | faq_system/faqs/admin.py:63-69 | the corrected hook deletes the row's `faq:content:` key in en, hi and bn after saving |
| Findings.AdminSaveFixedServesSavedRow | faq_system/faqs/admin.py:63-69 | after the corrected hook, the next read of the payload is assembled from the saved row |
| StrMethods.StripLeft | faq_system/authentication/views.py:36 | removes exactly the leading whitespace |
| StrMethods.StripRight | faq_system/authentication/views.py:36 | removes exactly the trailing whitespace |
| StrMethods.Strip | faq_system/authentication/views.py:36 | `strip()` is a middle slice with only whitespace cut on either side, with no whitespace at its ends, and empty exactly for all-whitespace input |
| StrMethods.StripSlice | faq_system/authentication/views.py:36 | the stripped text sits in the input right after the leading whitespace, with only whitespace after it |
| StrMethods.StripEmpty | faq_system/authentication/views.py:36 | stripping gives "" exactly for all-whitespace input |
| StrMethods.AllSpaceJoin | faq_system/authentication/views.py:36 | two all-whitespace halves make an all-whitespace string |
| StrMethods.StripLeftSpaces | faq_system/authentication/views.py:36 | leading whitespace before a non-space is removed exactly |
| StrMethods.StripRightSpaces | faq_system/authentication/views.py:36 | trailing whitespace after a non-space is removed exactly |
| StrMethods.StripRemovesPadding | faq_system/authentication/views.py:36 | stripping whitespace-padded text recovers the text |
| StrMethods.StripIsIdempotent | faq_system/authentication/views.py:95 | stripping twice is stripping once |
| StrMethods.Lower | faq_system/authentication/views.py:36 | `lower()` maps each character to its lower-case form and keeps the length |
| StrMethods.LowerProperties | faq_system/authentication/views.py:36 | lower-casing leaves no upper-case letter, changes nothing else, and is idempotent |
| Auth.UsernameCheck | faq_system/authentication/views.py:139-148 | no username error exactly when the name is non-empty, at least 3 long, matches the pattern and is not taken; otherwise the first failing test of the chain (required, too short, bad characters, taken) names the error, each error exactly under its condition |
| Auth.EmailCheck | faq_system/authentication/views.py:151-159 | no email error exactly when the email is non-empty, valid and not registered; otherwise required, invalid and taken are reported in that order of precedence, each exactly under its condition |
| Auth.PasswordCheck | faq_system/authentication/views.py:162-173 | no password error exactly when the password is strong and matches; otherwise required, too short, no upper, no lower, no digit and mismatch are reported in that order of precedence, each exactly under its condition |
| Auth.Listed | faq_system/authentication/views.py:136-175 | at most one error per field is listed |
| Auth.SignupQueries | faq_system/authentication/views.py:138-159 | the username uniqueness query is issued exactly when the username is non-empty, at least 3 characters long and matches the pattern; the email query exactly when the email is non-empty and validates; no other query |
| Auth.ValidateSignup | faq_system/authentication/views.py:121-175 | at most three errors, in field order; none exactly when every rule holds; the uniqueness query for a field is issued exactly when its earlier checks pass |
| Auth.ErrorsInFieldOrder | faq_system/authentication/views.py:136-175 | username, email and password errors appear in that order |
| Auth.FieldsAreIndependent | faq_system/authentication/views.py:136-175 | a field's error depends on that field alone |
| Auth.ErrorsByField | faq_system/authentication/views.py:136-175 | the errors are exactly the three fields' chain results |
| Auth.StrippedUsernamePattern | faq_system/authentication/views.py:143 | on a stripped name, the pattern means letters, digits and underscores only |
| Auth.PatternAcceptsTrailingNewline | faq_system/authentication/views.py:143 | the pattern as written accepts `alice\n` |
| Auth.NormaliseEmail | faq_system/authentication/views.py:36 | the normalised email is lower-case, no longer than the input, and empty exactly for an all-whitespace input |
| Auth.SignupMessages | faq_system/authentication/views.py:101-103 | one message per error, with the view's text |
| Auth.SignupPost | faq_system/authentication/views.py:93-119 | the form is rejected exactly when the stripped and normalised input fails a rule, and then flashes the validator's messages in field order (1 to 3 of them); a failing create reports the generic error; otherwise the account is created with those values and the welcome text |
| Auth.SignupWith | faq_system/authentication/views.py:101-119 | the same decision on already normalised input: rejection with the validator's messages exactly when a rule fails, the generic error exactly when the rules pass but the create fails, sign-up with the given values otherwise |
| Auth.LoginWith | faq_system/authentication/views.py:34-74 | a blank email or password is rejected before any lookup; the user table is consulted exactly for a valid email; login succeeds exactly for an active account that authenticates, and lands on the guard's target |
| Auth.NextTarget | faq_system/authentication/views.py:70-74 | the target is `next` when it is non-empty and starts with `/`, and `/` otherwise |
| Auth.LoginPost | faq_system/authentication/views.py:70-74 | a successful login redirects to the guard's target |
| Auth.NextTargetLeavesSite | faq_system/authentication/views.py:71-72 | `//evil.example/` passes the guard as written and is not a local path |
| Auth.SafeNextTarget | faq_system/authentication/views.py:70-74 | the corrected guard always yields a local path and keeps every local `next` |
| Auth.SafeNextAgrees | faq_system/authentication/views.py:71-72 | the two guards differ exactly on the other-host forms |
| Auth.LoginPostFixed | faq_system/authentication/views.py:70-74 | with the corrected guard, a successful login always lands on this site |
| AdminDisplay.Truncate | faq_system/faqs/admin.py:27 | text that fits is kept whole; longer text is cut to the width and ends in `...`; the result always starts with the input's first min(len, width) characters |
| AdminDisplay.TruncateFixesExactly | faq_system/faqs/admin.py:27 | a text is its own display exactly when it fits, or is already width characters plus `...` |
| AdminDisplay.TruncateIsIdempotent | faq_system/faqs/admin.py:44 | truncating a display again changes nothing |
| AdminDisplay.TruncatedQuestion | faq_system/faqs/admin.py:25-27 | a question of at most 100 characters is kept; otherwise it becomes its first 100 characters plus `...`, 103 in all |
| AdminDisplay.PreviewText | faq_system/faqs/admin.py:44 | the 150-character formula is the shared truncation rule |
| AdminDisplay.PreviewAnswer | faq_system/faqs/admin.py:31-46 | an empty answer gives ""; otherwise the escaped, stripped text cut to 150 characters, with `...` only when longer |

## Left out

- The Redis backend, connection pooling and TTL expiry are not modelled. Timeouts are carried on entries as plain numbers, because expiry cannot be observed in a sequential model.
- The translator client is a parameter that answers or fails (`Translation.Oracle`). Network behaviour and the translator's output are not modelled.
- Python's `hash()` is an arbitrary fingerprint function and is not assumed injective. `Translation.SharedFingerprintSharesEntry` states the consequence.
- The serializers module is not part of this model. The serializer is an opaque function from row and language to a record, taken to leave the cache alone.
- Form validation, DRF request parsing and status objects are abstracted: a submission either validated to data or did not.
- An edit POST that fails validation is modelled as rendering the form with the translation preview, exactly like a GET: the table is unchanged, and the preview writes the row's content payloads and translation memo entries for the stored texts.
- Mutations.EditWith: the preview after an invalid edit POST is computed from the stored row. In Django, `is_valid()` first copies the fields that did validate onto the instance, so faqs/views.py:243-249 translates, and caches for an hour under `faq:content:{pk}:{lang}`, a payload mixing submitted and stored texts with the row's unchanged timestamps. The model does not represent that unsaved instance, and `Coherence.Coherent`, which compares timestamps, could not tell such a payload from a fresh one.
- Access control is not modelled: `@login_required` on `faq_create`, `faq_edit` and `faq_delete` (faqs/views.py:175, 208, 268) and `IsAuthenticatedOrReadOnly` on the API viewset (faqs/views.py:48). A refused request stops before the view body, so it makes no write, caches no preview and triggers no sweep; the model's views describe only requests that get through.
- The `logger.error` call on a translator failure (faqs/models.py:72) is not modelled; it has no effect on the table or the cache.
- Concurrency between requests is not modelled: read/invalidate races, translation stampedes and `transaction.atomic`.
- Cache backend failures are not modelled: every `get`, `set`, `delete` and `delete_many` succeeds. In the source a failing call behaves differently by site. Inside `_translate_text` (faqs/models.py:59-73) one `try` wraps the translator call and the memo `set`, so a failing `set` after a successful translation returns the untranslated text and stores nothing. Elsewhere, including the memo `get` just before that `try`, the exception propagates out of the view.
- Reads in languages outside the configured list are not constrained by `Coherence.Coherent`, because no path ever invalidates them.
- `StrMethods.Lower` lower-cases ASCII letters only; Python's `lower()` also maps other Unicode letters.
- `Auth.HasDigit` tests the ASCII digits 0-9, while the source's `\d` pattern also matches other Unicode decimal digits, so a password such as `Abcdefg٣` passes the source's digit rule but not the model's.
- `validate_email`, `User.objects.filter(...).exists()`, `User.objects.get(email=...)`, `authenticate`, `strip_tags` and `format_html`'s escaping are parameters. A `get` that finds several accounts is not modelled.
- Sessions (`login`, `set_expiry`), `messages` and `redirect` are not modelled. A view returns what it decided, with the session persistence flag.
- The GET handlers of the login and sign-up views, which redirect an already-authenticated user, are not modelled, nor are `logout_view`, `profile_view` and `delete_account`. They are thin wrappers over session and ORM calls.
- URL routing, templates, the form widget declaration, the migration and the HTTP-level tests are not modelled. They are wiring and hold no logic.
- The `created_at` tie order of the listing is a stable newest-first insertion sort. The database gives no order among rows with equal `created_at`.
- The clock is a parameter. Every save takes its own reading, as `auto_now_add`/`auto_now` do: a bulk create takes one reading per item (`Mutations.ApiBulkCreate`'s `nows`). The model does not assume the readings increase; with increasing readings the newest-first listing shows a batch's last item first, as the source does. An insert stamps `created_at` and `updated_at` with one reading, while Django's `pre_save` calls `timezone.now()` once per field, so the source's two stamps differ by microseconds; no property of the model depends on their being equal.
- Invalidation.ClearingMissesWrittenKeys: covers only memo keys of colon-free languages. Reads accept any language string, and `Invalidation.ClearingCanHitColonLanguageMemo` shows a memo key (language `question:hi`) that the model's clearing deletes.
- `Store.Add`: the auto-increment id is modelled as the next unused number, so ids start at 1 and are never reused.

## Findings

| source | as written | input that shows it | evidently intended | confidence | as-written member | corrected member |
|---|---|---|---|---|---|---|
| faq_system/faqs/views.py:221-236 | `faq_edit` deletes the list, list_data and detail keys, but not the row's `faq:content:{pk}:{lang}` payloads, and the model's clearing removes only keys nothing writes | open the edit page of a row (which caches its `hi` payload), save a new text, then load the `hi` list page: the row shows its old text and `updated_at` | an edit also drops the row's assembled payloads, so every read reflects the saved row | not executed | Findings.EditServesStaleListPage | Findings.FixedEditServesFreshListPage |
| faq_system/faqs/admin.py:63-69 | `save_model` deletes `_get_cache_key("content", lang)`, i.e. `faq:translation:{id}:content:{lang}`, a key nothing writes | a row with a cached `hi` payload changed in the admin: the payload survives with the old `updated_at` | delete the `faq:content:{id}:{lang}` key that the content cache writes | not executed | Findings.AdminChangeBreaksCoherence | Findings.AdminSaveFixedServesSavedRow |
| faq_system/authentication/views.py:70-74 | the `next` guard accepts any value starting with `/` | `next=//evil.example/` redirects to another host after login | only local paths are accepted as redirect targets | not executed | Auth.NextTargetLeavesSite | Auth.LoginPostFixed |

The admin path, as written and as corrected, deletes no list, list_data or detail key. After an admin change, even with `Findings.AdminSaveFixed`, the cached `faq:list:{lang}` and `faq:list_data:{lang}` pages of every language, `en` included, keep showing the old row until they expire or another write clears them; the correction makes only the row's own content reads fresh.

=== FILE: admin_display.dfy ===
/** The two list columns of `FAQAdmin` (admin.py:25-46): the question cut to
    100 characters and a plain-text preview of the answer cut to 150, each
    marked with `...` when something was cut. `strip_tags` and the escaping
    `format_html` applies are parameters. */
module AdminDisplay {

  const QUESTION_WIDTH: nat := 100
  const ANSWER_WIDTH: nat := 150
  const ELLIPSIS: string := "..."

  function Min(a: nat, b: nat): nat {
    if a <= b then a else b
  }

  /** The display rule both columns share: text of at most `width`
      characters is shown whole; longer text is cut to `width` and marked. */
  function Truncate(s: string, width: nat): (r: string)
    ensures |r| <= width + |ELLIPSIS|
    ensures |r| >= Min(|s|, width) && r[..Min(|s|, width)] == s[..Min(|s|, width)]
    ensures |s| <= width ==> r == s
    ensures |s| > width ==> |r| == width + |ELLIPSIS| && r[width..] == ELLIPSIS
  {
    if |s| > width then s[..width] + ELLIPSIS else s
  }

  /** A text is its own display exactly when it fits, or when it is already
      `width` characters followed by the marker. */
  lemma TruncateFixesExactly(s: string, width: nat)
    ensures Truncate(s, width) == s <==>
      (|s| <= width || (|s| == width + |ELLIPSIS| && s[width..] == ELLIPSIS))
  {
    if |s| == width + |ELLIPSIS| && s[width..] == ELLIPSIS {
      assert s == s[..width] + s[width..];
    }
  }

  /** Truncating a display again changes nothing. */
  lemma TruncateIsIdempotent(s: string, width: nat)
    ensures Truncate(Truncate(s, width), width) == Truncate(s, width)
  {
    var r := Truncate(s, width);
    TruncateFixesExactly(r, width);
  }

  /** `truncated_question`. */
  function TruncatedQuestion(question: string): (r: string)
    ensures |question| <= QUESTION_WIDTH ==> r == question
    ensures |question| > QUESTION_WIDTH ==> |r| == QUESTION_WIDTH + 3 && r[..QUESTION_WIDTH] == question[..QUESTION_WIDTH]
    ensures r[..Min(|question|, QUESTION_WIDTH)] == question[..Min(|question|, QUESTION_WIDTH)]
  {
    Truncate(question, QUESTION_WIDTH)
  }

  /** `preview_answer`'s own formula: the first 150 characters, with the
      marker appended only when the text is longer. */
  function PreviewText(plain: string): (r: string)
    ensures r == Truncate(plain, ANSWER_WIDTH)
  {
    var head := plain[..Min(|plain|, ANSWER_WIDTH)];
    head + (if |plain| > ANSWER_WIDTH then ELLIPSIS else "")
  }

  /** `preview_answer`. The `.replace` chain between `strip_tags` and the cut
      replaces each of four characters with itself, so it is left out of the
      formula. */
  function PreviewAnswer(answer: string, stripTags: string -> string, escape: string -> string): (r: string)
    ensures answer == "" ==> r == ""
    ensures answer != "" ==> r == escape(Truncate(stripTags(answer), ANSWER_WIDTH))
  {
    if answer == "" then "" else escape(PreviewText(stripTags(answer)))
  }
}

=== FILE: auth.dfy ===
/** Sign-up validation and the login decision of `authentication/views.py`.

    The database and Django's validators are parameters: whether a username
    or an email is already taken, whether an email is well formed, which
    account an email belongs to, and what `authenticate` answers. Messages,
    sessions and rendering are left to the caller; a view here returns what
    it decided. */
module Auth {
  import opened Wrappers
  import opened StrMethods

  // ---------------------------------------------------------------------------
  // Sign-up validation (validate_signup)

  datatype SignupError =
    | UsernameRequired | UsernameTooShort | UsernameBadCharacters | UsernameTaken
    | EmailRequired | EmailTaken | EmailInvalid
    | PasswordRequired | PasswordTooShort | PasswordNoUpper | PasswordNoLower | PasswordNoDigit
    | PasswordMismatch

  datatype Field = UsernameField | EmailField | PasswordField

  function FieldOf(e: SignupError): Field {
    match e
    case UsernameRequired | UsernameTooShort | UsernameBadCharacters | UsernameTaken => UsernameField
    case EmailRequired | EmailTaken | EmailInvalid => EmailField
    case _ => PasswordField
  }

  /** The position of a field's checks in the validator. */
  function Rank(f: Field): nat {
    match f
    case UsernameField => 0
    case EmailField => 1
    case PasswordField => 2
  }

  /** The text the view flashes for each error. */
  function Message(e: SignupError): string {
    match e
    case UsernameRequired => "Username is required."
    case UsernameTooShort => "Username must be at least 3 characters long."
    case UsernameBadCharacters => "Username can only contain letters, numbers, and underscores."
    case UsernameTaken => "This username is already taken."
    case EmailRequired => "Email is required."
    case EmailTaken => "This email is already registered."
    case EmailInvalid => "Please enter a valid email address."
    case PasswordRequired => "Password is required."
    case PasswordTooShort => "Password must be at least 8 characters long."
    case PasswordNoUpper => "Password must contain at least one uppercase letter."
    case PasswordNoLower => "Password must contain at least one lowercase letter."
    case PasswordNoDigit => "Password must contain at least one number."
    case PasswordMismatch => "Passwords do not match."
  }

  /** What the validator asks the database and Django's email validator. */
  datatype Registry = Registry(
    usernameTaken: string -> bool,
    emailTaken: string -> bool,
    emailValid: string -> bool)

  /** The two uniqueness queries the validator can issue. */
  datatype Query = UsernameQuery(username: string) | EmailQuery(email: string)

  predicate IsWordChar(c: char) {
    ('a' <= c <= 'z') || ('A' <= c <= 'Z') || ('0' <= c <= '9') || c == '_'
  }

  predicate AllWord(s: string) {
    forall i :: 0 <= i < |s| ==> IsWordChar(s[i])
  }

  /** `re.match(r"^[a-zA-Z0-9_]+$", s)`: Python's `$` also matches just before
      a final newline, so one trailing `\n` is let through. */
  predicate UsernamePattern(s: string) {
    || (|s| > 0 && AllWord(s))
    || (|s| > 1 && s[|s| - 1] == '\n' && AllWord(s[..|s| - 1]))
  }

  predicate HasUpper(s: string) {
    exists i :: 0 <= i < |s| && IsAsciiUpper(s[i])
  }

  predicate HasLower(s: string) {
    exists i :: 0 <= i < |s| && IsAsciiLower(s[i])
  }

  predicate HasDigit(s: string) {
    exists i :: 0 <= i < |s| && '0' <= s[i] <= '9'
  }

  /** The password rules, before the comparison with the confirmation. */
  predicate StrongPassword(p: string) {
    |p| >= 8 && HasUpper(p) && HasLower(p) && HasDigit(p)
  }

  /** Everything the validator demands, as one statement. */
  predicate SignupAcceptable(username: string, email: string, password1: string, password2: string, reg: Registry) {
    && username != "" && |username| >= 3 && UsernamePattern(username) && !reg.usernameTaken(username)
    && email != "" && reg.emailValid(email) && !reg.emailTaken(email)
    && StrongPassword(password1) && password1 == password2
  }

  /** The username chain: empty, shorter than 3, pattern, taken. */
  function UsernameCheck(username: string, reg: Registry): (r: Option<SignupError>)
    ensures r.Some? ==> FieldOf(r.value) == UsernameField
    ensures r.None? <==> (username != "" && |username| >= 3 && UsernamePattern(username) && !reg.usernameTaken(username))
    ensures r == Some(UsernameRequired) <==> username == ""
    ensures r == Some(UsernameTooShort) <==> username != "" && |username| < 3
    ensures r == Some(UsernameBadCharacters) <==> |username| >= 3 && !UsernamePattern(username)
    ensures r == Some(UsernameTaken) <==> |username| >= 3 && UsernamePattern(username) && reg.usernameTaken(username)
  {
    if username == "" then Some(UsernameRequired)
    else if |username| < 3 then Some(UsernameTooShort)
    else if !UsernamePattern(username) then Some(UsernameBadCharacters)
    else if reg.usernameTaken(username) then Some(UsernameTaken)
    else None
  }

  /** The email chain: empty, then format, then uniqueness. */
  function EmailCheck(email: string, reg: Registry): (r: Option<SignupError>)
    ensures r.Some? ==> FieldOf(r.value) == EmailField
    ensures r.None? <==> (email != "" && reg.emailValid(email) && !reg.emailTaken(email))
    ensures r == Some(EmailRequired) <==> email == ""
    ensures r == Some(EmailInvalid) <==> email != "" && !reg.emailValid(email)
    ensures r == Some(EmailTaken) <==> email != "" && reg.emailValid(email) && reg.emailTaken(email)
  {
    if email == "" then Some(EmailRequired)
    else if !reg.emailValid(email) then Some(EmailInvalid)
    else if reg.emailTaken(email) then Some(EmailTaken)
    else None
  }

  /** The password chain: empty, length, upper, lower, digit, then mismatch. */
  function PasswordCheck(password1: string, password2: string): (r: Option<SignupError>)
    ensures r.Some? ==> FieldOf(r.value) == PasswordField
    ensures r.None? <==> (StrongPassword(password1) && password1 == password2)
    ensures r == Some(PasswordMismatch) <==> (StrongPassword(password1) && password1 != password2)
    ensures r == Some(PasswordRequired) <==> password1 == ""
    ensures r == Some(PasswordTooShort) <==> password1 != "" && |password1| < 8
    ensures r == Some(PasswordNoUpper) <==> |password1| >= 8 && !HasUpper(password1)
    ensures r == Some(PasswordNoLower) <==> |password1| >= 8 && HasUpper(password1) && !HasLower(password1)
    ensures r == Some(PasswordNoDigit) <==>
      |password1| >= 8 && HasUpper(password1) && HasLower(password1) && !HasDigit(password1)
  {
    if password1 == "" then Some(PasswordRequired)
    else if |password1| < 8 then Some(PasswordTooShort)
    else if !HasUpper(password1) then Some(PasswordNoUpper)
    else if !HasLower(password1) then Some(PasswordNoLower)
    else if !HasDigit(password1) then Some(PasswordNoDigit)
    else if password1 != password2 then Some(PasswordMismatch)
    else None
  }

  function Listed(o: Option<SignupError>): (r: seq<SignupError>)
    ensures |r| <= 1
    ensures forall x :: x in r <==> o == Some(x)
  {
    match o
    case None => []
    case Some(x) => [x]
  }

  datatype Validation = Validation(errors: seq<SignupError>, queries: seq<Query>)

  /** `validate_signup`: at most one error per field, fields in the order
      username, email, password; each uniqueness query only once the field's
      earlier checks pass; no error exactly when everything holds. */
  function ValidateSignup(username: string, email: string, password1: string, password2: string,
                          reg: Registry): (r: Validation)
    ensures |r.errors| <= 3
    ensures forall i, j :: 0 <= i < j < |r.errors| ==> Rank(FieldOf(r.errors[i])) < Rank(FieldOf(r.errors[j]))
    ensures r.errors == [] <==> SignupAcceptable(username, email, password1, password2, reg)
    ensures PasswordMismatch in r.errors ==> StrongPassword(password1)
    ensures |r.queries| <= 2
    ensures UsernameQuery(username) in r.queries <==> (username != "" && |username| >= 3 && UsernamePattern(username))
    ensures EmailQuery(email) in r.queries <==> (email != "" && reg.emailValid(email))
    ensures forall q :: q in r.queries ==> q == UsernameQuery(username) || q == EmailQuery(email)
  {
    var u := UsernameCheck(username, reg);
    var e := EmailCheck(email, reg);
    var p := PasswordCheck(password1, password2);
    ErrorsInFieldOrder(u, e, p);
    Validation(Listed(u) + Listed(e) + Listed(p), SignupQueries(username, email, reg))
  }

  /** The uniqueness queries: the username's once its format checks pass,
      then the email's once its format check passes. */
  function SignupQueries(username: string, email: string, reg: Registry): (r: seq<Query>)
    ensures |r| <= 2
    ensures UsernameQuery(username) in r <==> (username != "" && |username| >= 3 && UsernamePattern(username))
    ensures EmailQuery(email) in r <==> (email != "" && reg.emailValid(email))
    ensures forall q :: q in r ==> q == UsernameQuery(username) || q == EmailQuery(email)
  {
    var uq := if username != "" && |username| >= 3 && UsernamePattern(username) then [UsernameQuery(username)] else [];
    var eq := if email != "" && reg.emailValid(email) then [EmailQuery(email)] else [];
    uq + eq
  }

  lemma ErrorsInFieldOrder(u: Option<SignupError>, e: Option<SignupError>, p: Option<SignupError>)
    requires u.Some? ==> FieldOf(u.value) == UsernameField
    requires e.Some? ==> FieldOf(e.value) == EmailField
    requires p.Some? ==> FieldOf(p.value) == PasswordField
    ensures var errors := Listed(u) + Listed(e) + Listed(p);
      && (forall i, j :: 0 <= i < j < |errors| ==> Rank(FieldOf(errors[i])) < Rank(FieldOf(errors[j])))
      && (forall x :: x in errors <==> (u == Some(x) || e == Some(x) || p == Some(x)))
      && (errors == [] <==> u.None? && e.None? && p.None?)
      && |errors| <= 3
  {
    var errors := Listed(u) + Listed(e) + Listed(p);
    forall i, j | 0 <= i < j < |errors|
      ensures Rank(FieldOf(errors[i])) < Rank(FieldOf(errors[j]))
    {
      assert errors[i] in errors && errors[j] in errors;
    }
  }

  /** Each field's error depends on that field alone: changing the other
      inputs does not change which error, if any, a field reports. */
  lemma FieldsAreIndependent(u1: string, e1: string, p1: string, c1: string,
                             u2: string, e2: string, p2: string, c2: string, reg: Registry, f: Field)
    requires f == UsernameField ==> u1 == u2
    requires f == EmailField ==> e1 == e2
    requires f == PasswordField ==> p1 == p2 && c1 == c2
    ensures forall x :: FieldOf(x) == f ==>
      (x in ValidateSignup(u1, e1, p1, c1, reg).errors <==> x in ValidateSignup(u2, e2, p2, c2, reg).errors)
  {
    forall x | FieldOf(x) == f
      ensures x in ValidateSignup(u1, e1, p1, c1, reg).errors <==> x in ValidateSignup(u2, e2, p2, c2, reg).errors
    {
      ErrorsByField(u1, e1, p1, c1, reg, x);
      ErrorsByField(u2, e2, p2, c2, reg, x);
    }
  }

  lemma ErrorsByField(username: string, email: string, password1: string, password2: string, reg: Registry, x: SignupError)
    ensures x in ValidateSignup(username, email, password1, password2, reg).errors <==>
      (|| UsernameCheck(username, reg) == Some(x)
       || EmailCheck(email, reg) == Some(x)
       || PasswordCheck(password1, password2) == Some(x))
  {
  }

  /** The view strips the username before validating, so the newline that
      Python's `$` lets through never reaches the pattern: on a stripped
      username the pattern means letters, digits and underscores only. */
  lemma StrippedUsernamePattern(raw: string)
    ensures UsernamePattern(Strip(raw)) <==> (Strip(raw) != "" && AllWord(Strip(raw)))
  {
  }

  /** The pattern as written accepts a name with a trailing newline. */
  lemma PatternAcceptsTrailingNewline()
    ensures UsernamePattern("alice\n") && !AllWord("alice\n")
  {
    assert AllWord("alice\n"[..5]) by {
      assert "alice\n"[..5] == "alice";
    }
    assert !IsWordChar("alice\n"[5]);
  }

  // ---------------------------------------------------------------------------
  // SignupView.post

  /** A form field: `request.POST.get(name, "")`. */
  function FormValue(o: Option<string>): string {
    o.GetOr("")
  }

  datatype SignupForm = SignupForm(username: Option<string>, email: Option<string>,
                                   password1: Option<string>, password2: Option<string>)

  datatype SignupResult =
    | SignupRejected(messages: seq<string>)
    | SignupFailed(message: string)
    | SignedUp(username: string, email: string, password: string, welcome: string)

  /** The email as the views compare it: stripped, then lower-cased. */
  function NormaliseEmail(raw: string): (r: string)
    ensures |r| <= |raw|
    ensures Lower(r) == r
    ensures r == "" <==> AllSpace(raw)
  {
    LowerProperties(Strip(raw));
    Lower(Strip(raw))
  }

  function SignupMessages(errors: seq<SignupError>): (r: seq<string>)
    ensures |r| == |errors|
    ensures forall i :: 0 <= i < |errors| ==> r[i] == Message(errors[i])
  {
    seq(|errors|, i requires 0 <= i < |errors| => Message(errors[i]))
  }

  /** `SignupView.post`. `created` is whether `create_user` and `login`
      succeed inside the transaction. */
  function SignupPost(form: SignupForm, reg: Registry, created: bool): (r: SignupResult)
    ensures var username := Strip(FormValue(form.username));
      var email := NormaliseEmail(FormValue(form.email));
      var password := FormValue(form.password1);
      var confirm := FormValue(form.password2);
      var acceptable := SignupAcceptable(username, email, password, confirm, reg);
      && (r.SignupRejected? <==> !acceptable)
      && (r.SignupRejected? ==> 1 <= |r.messages| <= 3)
      && (r.SignupRejected? ==>
            r.messages == SignupMessages(ValidateSignup(username, email, password, confirm, reg).errors))
      && (r.SignupFailed? <==> (acceptable && !created))
      && (r.SignedUp? ==>
            && r.username == username && r.email == email && r.password == password
            && r.welcome == "Welcome " + username + "! Your account has been created successfully.")
  {
    var username := Strip(FormValue(form.username));
    var email := NormaliseEmail(FormValue(form.email));
    var r := SignupWith(username, email, FormValue(form.password1), FormValue(form.password2), reg, created);
    r
  }

  /** The decision of `SignupView.post` once the inputs are normalised: flash
      the validator's errors, or report a failed create, or sign up. */
  function SignupWith(username: string, email: string, password: string, confirm: string,
                      reg: Registry, created: bool): (r: SignupResult)
    ensures var acceptable := SignupAcceptable(username, email, password, confirm, reg);
      && (r.SignupRejected? <==> !acceptable)
      && (r.SignupRejected? ==> 1 <= |r.messages| <= 3)
      && (r.SignupRejected? ==>
            r.messages == SignupMessages(ValidateSignup(username, email, password, confirm, reg).errors))
      && (r.SignupFailed? <==> (acceptable && !created))
      && (r.SignedUp? ==>
            && r.username == username && r.email == email && r.password == password
            && r.welcome == "Welcome " + username + "! Your account has been created successfully.")
  {
    var v := ValidateSignup(username, email, password, confirm, reg);
    if v.errors != [] then SignupRejected(SignupMessages(v.errors))
    else if !created then SignupFailed("An error occurred during signup.")
    else SignedUp(username, email, password, "Welcome " + username + "! Your account has been created successfully.")
  }

  // ---------------------------------------------------------------------------
  // LoginView.post

  datatype Account = Account(username: string, isActive: bool)

  /** Django's side of a login: the email validator, the account an email
      belongs to, and `authenticate(username, password)`. */
  datatype Directory = Directory(
    emailValid: string -> bool,
    byEmail: string -> Option<Account>,
    authenticate: (string, string) -> Option<Account>)

  datatype LoginForm = LoginForm(email: Option<string>, password: Option<string>, rememberMe: Option<string>)

  datatype LoginResult =
    | LoginRejected(message: string)
    | LoggedIn(account: Account, persistent: bool, target: string)

  /** The decision, and whether the view looked the email up in the user table. */
  datatype LoginTrace = LoginTrace(result: LoginResult, lookedUp: bool)

  const FILL_ALL_FIELDS := "Please fill in all fields."
  const INVALID_EMAIL := "Please enter a valid email address."
  const BAD_CREDENTIALS := "Invalid email or password."
  const DEACTIVATED := "This account has been deactivated."

  /** A login with the redirect target chosen by `guard` from `next`. */
  function LoginWith(form: LoginForm, next: Option<string>, dir: Directory, guard: Option<string> -> string): (r: LoginTrace)
    ensures var email := NormaliseEmail(FormValue(form.email));
      var password := FormValue(form.password);
      && ((email == "" || password == "") ==> r == LoginTrace(LoginRejected(FILL_ALL_FIELDS), false))
      && (r.lookedUp <==> (email != "" && password != "" && dir.emailValid(email)))
      && (r.result.LoggedIn? <==>
            (&& r.lookedUp && dir.byEmail(email).Some?
             && dir.authenticate(dir.byEmail(email).value.username, password).Some?
             && dir.authenticate(dir.byEmail(email).value.username, password).value.isActive))
      && (r.result.LoggedIn? ==>
            && r.result.account == dir.authenticate(dir.byEmail(email).value.username, password).value
            && r.result.persistent == (form.rememberMe == Some("on"))
            && r.result.target == guard(next))
  {
    var email := NormaliseEmail(FormValue(form.email));
    var password := FormValue(form.password);
    if email == "" || password == "" then LoginTrace(LoginRejected(FILL_ALL_FIELDS), false)
    else if !dir.emailValid(email) then LoginTrace(LoginRejected(INVALID_EMAIL), false)
    else match dir.byEmail(email)
      case None => LoginTrace(LoginRejected(BAD_CREDENTIALS), true)
      case Some(found) =>
        match dir.authenticate(found.username, password)
        case None => LoginTrace(LoginRejected(BAD_CREDENTIALS), true)
        case Some(user) =>
          if !user.isActive then LoginTrace(LoginRejected(DEACTIVATED), true)
          else LoginTrace(LoggedIn(user, form.rememberMe == Some("on"), guard(next)), true)
  }

  /** The `next` guard as written: any non-empty value starting with `/`. */
  function NextTarget(next: Option<string>): (r: string)
    ensures |r| > 0 && r[0] == '/'
    ensures r != "/" ==> next == Some(r)
    ensures (next.Some? && |next.value| > 0 && next.value[0] == '/') ==> r == next.value
  {
    match next
    case Some(n) => if |n| > 0 && n[0] == '/' then n else "/"
    case None => "/"
  }

  /** `LoginView.post` as written. */
  function LoginPost(form: LoginForm, next: Option<string>, dir: Directory): (r: LoginTrace)
    ensures r.result.LoggedIn? ==> r.result.target == NextTarget(next)
  {
    LoginWith(form, next, dir, NextTarget)
  }

  /** A path on this site: one `/`, not followed by a second `/` or a `\`
      (browsers read both `//host` and `/\host` as another host). */
  predicate LocalPath(p: string) {
    |p| > 0 && p[0] == '/' && (|p| == 1 || (p[1] != '/' && p[1] != '\\'))
  }

  /** The guard lets `//host/...` through: after logging in, the user is sent
      to another site. */
  lemma NextTargetLeavesSite()
    ensures NextTarget(Some("//evil.example/")) == "//evil.example/"
    ensures !LocalPath(NextTarget(Some("//evil.example/")))
  {
  }

  /** The guard with the other-host forms refused. */
  function SafeNextTarget(next: Option<string>): (r: string)
    ensures LocalPath(r)
    ensures r != "/" ==> next == Some(r)
    ensures (next.Some? && LocalPath(next.value)) ==> r == next.value
  {
    match next
    case Some(n) => if LocalPath(n) then n else "/"
    case None => "/"
  }

  /** The two guards agree on every target except the other-host forms. */
  lemma SafeNextAgrees(next: Option<string>)
    ensures SafeNextTarget(next) == NextTarget(next) <==>
      (next.None? || LocalPath(next.value) || |next.value| == 0 || next.value[0] != '/')
  {
  }

  /** `LoginView.post` with the corrected guard: a successful login always
      lands on this site. */
  function LoginPostFixed(form: LoginForm, next: Option<string>, dir: Directory): (r: LoginTrace)
    ensures r.result.LoggedIn? ==> LocalPath(r.result.target)
  {
    LoginWith(form, next, dir, SafeNextTarget)
  }
}

=== FILE: cache.dfy ===
/** The shared cache backend as a map from key to entry, with the four
    operations the application calls: get, set with a timeout, delete and
    delete_many, plus the `keys("faq:*")` sweep.

    Timeouts are carried on each entry as opaque numbers: passive expiry is
    not observable in a sequential model. */
module Cache {
  import opened Text
  import opened Wrappers
  import opened CacheKeys

  /** The dict `get_translated_content` builds (models.py:86-91, 100-105). */
  datatype Content = Content(question: string, answer: string, createdAt: int, updatedAt: int)

  /** One element of the list_data payload: `{"id": faq.id, **content}` (views.py:150). */
  datatype Listed = Listed(id: nat, content: Content)

  /** The values the application stores, one shape per key namespace. */
  datatype Value =
    | Translation(text: string)        // faq:translation:{hash}:{lang}
    | Assembled(content: Content)      // faq:content:{id}:{lang}
    | Entries(entries: seq<Listed>)    // faq:list_data:{lang}
    | ApiList(records: seq<string>)    // faq:list:{lang}, serializer output
    | ApiDetail(record: string)        // faq:detail:{pk}:{lang}, serializer output

  datatype CacheEntry = CacheEntry(value: Value, ttl: nat)

  type Cache = map<string, CacheEntry>

  /** The shape the application's writers store under a key of this namespace. */
  predicate Fits(k: string, v: Value) {
    match NamespaceOf(k)
    case ContentNs => v.Assembled?
    case TranslationNs => v.Translation?
    case ListDataNs => v.Entries?
    case ListNs => v.ApiList?
    case DetailNs => v.ApiDetail?
    case OtherNs => true
  }

  /** Every entry has the shape its key's namespace promises. Every write in
      the model keeps this, so a reader never meets a value of the wrong shape. */
  predicate WellTyped(c: Cache) {
    forall k :: k in c ==> Fits(k, c[k].value)
  }

  /** `cache.get(key)`: the stored value, or `None` on a miss. */
  function Get(c: Cache, k: string): (r: Option<Value>)
    ensures r.Some? <==> k in c
    ensures r.Some? ==> r.value == c[k].value
  {
    if k in c then Some(c[k].value) else None
  }

  /** `cache.set(key, value, timeout=ttl)`: replaces the entry wholesale. */
  function Set(c: Cache, k: string, v: Value, ttl: nat): (r: Cache)
    requires WellTyped(c) && Fits(k, v)
    ensures WellTyped(r)
    ensures r.Keys == c.Keys + {k}
    ensures r[k] == CacheEntry(v, ttl)
    ensures forall other :: other != k && other in c ==> r[other] == c[other]
  {
    c[k := CacheEntry(v, ttl)]
  }

  /** `cache.delete_many(keys)`: deleting an absent key is a no-op. */
  function DeleteMany(c: Cache, keys: seq<string>): (r: Cache)
    ensures r.Keys == c.Keys - set k | k in keys
    ensures forall k :: k in r ==> r[k] == c[k]
    ensures WellTyped(c) ==> WellTyped(r)
  {
    c - set k | k in keys
  }

  /** `cache.delete(key)`. */
  function Delete(c: Cache, k: string): (r: Cache)
    ensures r.Keys == c.Keys - {k}
    ensures forall other :: other in r ==> r[other] == c[other]
    ensures WellTyped(c) ==> WellTyped(r)
  {
    c - {k}
  }

  /** `cache.delete_many(cache.keys("faq:*"))`: every key under the application's
      root prefix goes, every other key stays. */
  function Sweep(c: Cache): (r: Cache)
    ensures forall k :: k in r <==> k in c && !StartsWith(k, ROOT)
    ensures forall k :: k in r ==> r[k] == c[k]
    ensures WellTyped(c) ==> WellTyped(r)
  {
    map k | k in c && !StartsWith(k, ROOT) :: c[k]
  }
}

=== FILE: coherence.dfy ===
/** What it means for the cache to agree with the table, key by key, for the
    configured languages; and which reads and writes keep that agreement.

    Payload text is translated and so cannot be compared with a row; what can
    be compared is what the cache copies verbatim: ids, the order of the list,
    the two timestamps, and the serializer's output. `updated_at` changes on
    every save, so a cached payload whose `updated_at` differs from its row's
    is one the cache kept across an edit. */
module Coherence {
  import opened Wrappers
  import opened Text
  import opened CacheKeys
  import opened Cache
  import opened Settings
  import opened Store
  import opened Translation
  import opened ItemContent
  import opened ReadViews
  import opened Invalidation
  import opened Mutations

  predicate StampsOf(c: Content, f: Faq) {
    c.createdAt == f.createdAt && c.updatedAt == f.updatedAt
  }

  /** A list_data payload lists the rows in order, with their ids and timestamps. */
  predicate EntriesMatch(es: seq<Listed>, rs: seq<Faq>) {
    && |es| == |rs|
    && forall i :: 0 <= i < |es| ==> es[i].id == rs[i].id && StampsOf(es[i].content, rs[i])
  }

  /** The entry under `k` agrees with the table, for each kind of key the
      application writes in a configured language. An assembled payload or a
      detail entry only exists for an id the table has handed out. */
  ghost predicate KeyFresh(s: Store, ser: Serializer, k: string, v: Value) {
    && (forall id: nat, l :: l in LANGUAGES && k == ContentKey(id, l) ==>
          id < s.nextId && (Lookup(s, id).Some? ==> v.Assembled? && StampsOf(v.content, Lookup(s, id).value)))
    && (forall l :: l in LANGUAGES && k == ListDataKey(l) ==>
          v.Entries? && EntriesMatch(v.entries, Recent(s.records)))
    && (forall l :: l in LANGUAGES && k == ListKey(l) ==>
          v == ApiList(SerializeAll(Recent(s.records), ser, l)))
    && (forall pk: nat, l :: l in LANGUAGES && k == DetailKey(pk, l) ==>
          pk < s.nextId && (Lookup(s, pk).Some? ==> v == ApiDetail(ser(Lookup(s, pk).value, l))))
  }

  ghost predicate Coherent(st: State, ser: Serializer) {
    Ok(st) && forall k :: k in st.cache ==> KeyFresh(st.store, ser, k, st.cache[k].value)
  }

  // ---------------------------------------------------------------------------
  // Key-level facts

  /** Keys of the memo namespace, and keys outside the application's root,
      are unconstrained. */
  lemma UnconstrainedKeys(s: Store, ser: Serializer, k: string, v: Value)
    requires NamespaceOf(k) == TranslationNs || NamespaceOf(k) == OtherNs
    ensures KeyFresh(s, ser, k, v)
  {
    forall id: nat, l | k == ContentKey(id, l)
      ensures false
    {
      ContentKeyNamespace(id, l);
    }
  }

  lemma RootlessKeys(s: Store, ser: Serializer, k: string, v: Value)
    requires !StartsWith(k, ROOT)
    ensures KeyFresh(s, ser, k, v)
  {
    if NamespaceOf(k) != OtherNs {
      NamespacedKeysAreRooted(k);
    }
    UnconstrainedKeys(s, ser, k, v);
  }

  /** A payload assembled from a row of the table, under that row's key, is fresh. */
  lemma AssembledIsFresh(s: Store, ser: Serializer, f: Faq, lang: string, c: Content)
    requires Valid(s) && Lookup(s, f.id) == Some(f) && StampsOf(c, f)
    ensures KeyFresh(s, ser, ContentKey(f.id, lang), Assembled(c))
  {
    var k := ContentKey(f.id, lang);
    ContentKeyNamespace(f.id, lang);
    forall id: nat, l | k == ContentKey(id, l)
      ensures id == f.id
    {
      ContentKeyInjective(id, l, f.id, lang);
    }
    assert Has(s.records, f.id);
    var i :| 0 <= i < |s.records| && s.records[i].id == f.id;
  }

  // ---------------------------------------------------------------------------
  // Reads keep the cache coherent

  lemma {:induction false} ContentReadKeepsCoherent(st: State, ser: Serializer, o: Oracle, f: Faq, lang: string)
    requires Coherent(st, ser) && Lookup(st.store, f.id) == Some(f)
    ensures var r := GetTranslatedContent(st.cache, o, f, lang);
      && Coherent(State(st.store, r.cache), ser)
      && (lang in LANGUAGES ==> StampsOf(r.content, f))
  {
    var r := GetTranslatedContent(st.cache, o, f, lang);
    var key := ItemKey(f, lang);
    forall k | k in r.cache
      ensures KeyFresh(st.store, ser, k, r.cache[k].value)
    {
      if k == key {
        if key !in st.cache && lang != BASE {
          AssembledIsFresh(st.store, ser, f, lang, r.content);
        }
      } else if NamespaceOf(k) == TranslationNs {
        UnconstrainedKeys(st.store, ser, k, r.cache[k].value);
      }
    }
    if lang in LANGUAGES && lang != BASE && key in st.cache {
      assert KeyFresh(st.store, ser, key, st.cache[key].value);
    }
  }

  lemma {:induction false} AssembleKeepsCoherent(st: State, ser: Serializer, o: Oracle, rs: seq<Faq>, lang: string)
    requires Coherent(st, ser)
    requires forall i :: 0 <= i < |rs| ==> Lookup(st.store, rs[i].id) == Some(rs[i])
    ensures var a := AssembleEntries(st.cache, o, rs, lang);
      && Coherent(State(st.store, a.cache), ser)
      && (lang in LANGUAGES ==> EntriesMatch(a.entries, rs))
    decreases |rs|
  {
    if rs != [] {
      var h := GetTranslatedContent(st.cache, o, rs[0], lang);
      ContentReadKeepsCoherent(st, ser, o, rs[0], lang);
      var mid := State(st.store, h.cache);
      TailRowsFound(st.store, rs);
      AssembleKeepsCoherent(mid, ser, o, rs[1..], lang);
      var t := AssembleEntries(h.cache, o, rs[1..], lang);
      assert AssembleEntries(st.cache, o, rs, lang).entries == [Listed(rs[0].id, h.content)] + t.entries;
      if lang in LANGUAGES {
        EntriesMatchCons(Listed(rs[0].id, h.content), t.entries, rs);
      }
    }
  }

  lemma TailRowsFound(s: Store, rs: seq<Faq>)
    requires rs != [] && forall i :: 0 <= i < |rs| ==> Lookup(s, rs[i].id) == Some(rs[i])
    ensures forall i :: 0 <= i < |rs[1..]| ==> Lookup(s, rs[1..][i].id) == Some(rs[1..][i])
  {
    forall i | 0 <= i < |rs[1..]|
      ensures Lookup(s, rs[1..][i].id) == Some(rs[1..][i])
    {
      assert rs[1..][i] == rs[i + 1];
    }
  }

  /** A matching head entry in front of a matching tail matches the whole list. */
  lemma EntriesMatchCons(e: Listed, es: seq<Listed>, rs: seq<Faq>)
    requires rs != [] && e.id == rs[0].id && StampsOf(e.content, rs[0]) && EntriesMatch(es, rs[1..])
    ensures EntriesMatch([e] + es, rs)
  {
    forall i | 0 <= i < |[e] + es|
      ensures ([e] + es)[i].id == rs[i].id && StampsOf(([e] + es)[i].content, rs[i])
    {
      if i > 0 {
        assert ([e] + es)[i] == es[i - 1] && rs[i] == rs[1..][i - 1];
      }
    }
  }

  /** Every row listed newest-first is found by its id. */
  lemma RecentRowsAreFound(s: Store)
    requires Valid(s)
    ensures forall i :: 0 <= i < |Recent(s.records)| ==> Lookup(s, Recent(s.records)[i].id) == Some(Recent(s.records)[i])
  {
    RecentIsAPermutation(s.records);
    forall i | 0 <= i < |Recent(s.records)|
      ensures Lookup(s, Recent(s.records)[i].id) == Some(Recent(s.records)[i])
    {
      LookupMember(s, Recent(s.records)[i]);
    }
  }

  lemma ListDataReadKeepsCoherent(st: State, ser: Serializer, o: Oracle, lang: string)
    requires Coherent(st, ser)
    ensures var r := ListDataView(st.cache, o, st.store, lang);
      && Coherent(State(st.store, r.cache), ser)
      && (lang in LANGUAGES ==> EntriesMatch(r.entries, Recent(st.store.records)))
  {
    var key := ListDataReaderKey(lang);
    ReaderAndInvalidatorsAgree(lang);
    assert key == ListDataKey(lang);
    var r := ListDataView(st.cache, o, st.store, lang);
    if key in st.cache {
      if lang in LANGUAGES {
        assert KeyFresh(st.store, ser, key, st.cache[key].value);
      }
    } else {
      var rs := Recent(st.store.records);
      RecentRowsAreFound(st.store);
      AssembleKeepsCoherent(st, ser, o, rs, lang);
      var a := AssembleEntries(st.cache, o, rs, lang);
      ListDataPayloadFresh(st.store, ser, lang, a.entries);
      WriteKeepsCoherent(State(st.store, a.cache), ser, key, Entries(a.entries), CACHE_TIMEOUT);
    }
  }

  /** A payload that lists the table as it is may be stored under any list_data key. */
  lemma ListDataPayloadFresh(s: Store, ser: Serializer, lang: string, es: seq<Listed>)
    requires lang in LANGUAGES ==> EntriesMatch(es, Recent(s.records))
    ensures KeyFresh(s, ser, ListDataKey(lang), Entries(es))
  {
    forall l | l in LANGUAGES && ListDataKey(lang) == ListDataKey(l)
      ensures l == lang
    {
      ListDataKeyInjective(l, lang);
    }
    forall id: nat, l | ListDataKey(lang) == ContentKey(id, l)
      ensures false
    {
      ContentKeyNamespace(id, l);
    }
  }

  /** Storing a fresh entry keeps a coherent cache coherent. */
  lemma WriteKeepsCoherent(st: State, ser: Serializer, k: string, v: Value, ttl: nat)
    requires Coherent(st, ser) && Fits(k, v) && KeyFresh(st.store, ser, k, v)
    ensures Coherent(State(st.store, Set(st.cache, k, v, ttl)), ser)
  {
  }

  lemma ApiListReadKeepsCoherent(st: State, ser: Serializer, lang: string)
    requires Coherent(st, ser)
    ensures var r := ApiListView(st.cache, st.store, ser, lang);
      && Coherent(State(st.store, r.cache), ser)
      && (lang in LANGUAGES ==> r.data == SerializeAll(Recent(st.store.records), ser, lang))
  {
    var key := ListKey(lang);
    var r := ApiListView(st.cache, st.store, ser, lang);
    if key in st.cache {
      if lang in LANGUAGES {
        assert KeyFresh(st.store, ser, key, st.cache[key].value);
      }
    } else {
      forall k | k in r.cache
        ensures KeyFresh(st.store, ser, k, r.cache[k].value)
      {
        if k == key {
          forall l | l in LANGUAGES && k == ListKey(l)
            ensures l == lang
          {
            ListKeyInjective(l, lang);
          }
        } else {
          assert k in st.cache;
        }
      }
    }
  }

  lemma ApiRetrieveKeepsCoherent(st: State, ser: Serializer, pk: nat, lang: string)
    requires Coherent(st, ser)
    ensures var r := ApiRetrieveView(st.cache, st.store, ser, pk, lang);
      && Coherent(State(st.store, r.cache), ser)
      && (lang in LANGUAGES && Lookup(st.store, pk).Some? ==> r.detail == Found(ser(Lookup(st.store, pk).value, lang)))
  {
    var r := ApiRetrieveView(st.cache, st.store, ser, pk, lang);
    if Lookup(st.store, pk).Some? {
      var key := DetailKey(pk, lang);
      if key in st.cache {
        if lang in LANGUAGES {
          assert KeyFresh(st.store, ser, key, st.cache[key].value);
        }
      } else {
        var v := ApiDetail(ser(Lookup(st.store, pk).value, lang));
        assert r.cache == st.cache[key := CacheEntry(v, CACHE_TIMEOUT)];
        DetailWriteIsFresh(st.store, ser, pk, lang);
        forall k | k in r.cache
          ensures KeyFresh(st.store, ser, k, r.cache[k].value)
        {
          if k != key {
            assert k in st.cache;
          }
        }
      }
    }
  }

  /** The detail entry the retrieve view writes for a stored row is fresh. */
  lemma DetailWriteIsFresh(s: Store, ser: Serializer, pk: nat, lang: string)
    requires Valid(s) && Lookup(s, pk).Some?
    ensures KeyFresh(s, ser, DetailKey(pk, lang), ApiDetail(ser(Lookup(s, pk).value, lang)))
  {
    var k := DetailKey(pk, lang);
    forall p: nat, l | l in LANGUAGES && k == DetailKey(p, l)
      ensures p == pk && l == lang
    {
      assert ColonFree(l);
      DetailKeyInjectiveInBoth(p, l, pk, lang);
    }
    assert Has(s.records, pk);
    var i :| 0 <= i < |s.records| && s.records[i].id == pk;
  }

  /** A detail key of a real (non-zero) id names one id and one language,
      provided the language it is compared with holds no colon. */
  lemma DetailKeyInjectiveInBoth(p1: nat, l1: string, p2: nat, l2: string)
    requires ColonFree(l1) && p2 != 0 && DetailKey(p1, l1) == DetailKey(p2, l2)
    ensures p1 == p2 && l1 == l2
  {
    var n2 := NatToString(p2);
    DigitsAreColonFree(p2);
    if p1 == 0 {
      AfterPrefix(DETAIL_PREFIX, l1, n2 + (":" + l2));
      ColonPosition(n2, l2, |n2|);
    } else {
      var n1 := NatToString(p1);
      DigitsAreColonFree(p1);
      AfterPrefix(DETAIL_PREFIX, n1 + (":" + l1), n2 + (":" + l2));
      SplitAtColon(n1, l1, n2, l2);
      NatToStringInjective(p1, p2);
    }
  }
}

=== FILE: content.dfy ===
/** `FAQ.get_translated_content` (models.py:75-109): the per-item, per-language
    assembled payload, cached under `faq:content:{id}:{lang}`, built from two
    calls of the translation memo. Also `FAQ.__str__` (models.py:121-122). */
module ItemContent {
  import opened Text
  import opened CacheKeys
  import opened Cache
  import opened Settings
  import opened Store
  import opened Translation

  /** The payload, the cache after the call, and the translator calls spent. */
  datatype ContentRead = ContentRead(content: Content, cache: Cache, calls: nat)

  /** The untranslated payload of a row. */
  function Raw(f: Faq): (c: Content)
    ensures c.question == f.question && c.answer == f.answer
    ensures c.createdAt == f.createdAt && c.updatedAt == f.updatedAt
  {
    Content(f.question, f.answer, f.createdAt, f.updatedAt)
  }

  /** The key this row's payload is cached under in language `lang`. */
  function ItemKey(f: Faq, lang: string): (k: string)
    ensures NamespaceOf(k) == ContentNs
  {
    ContentKeyNamespace(f.id, lang);
    ContentKey(f.id, lang)
  }

  /** `get_translated_content(lang)`. */
  function GetTranslatedContent(c: Cache, o: Oracle, f: Faq, lang: string): (r: ContentRead)
    requires WellTyped(c)
    ensures WellTyped(r.cache)
    ensures r.calls <= 2
    // base language: the row itself, no cache traffic, no translator call
    ensures lang == BASE ==> r == ContentRead(Raw(f), c, 0)
    // hit: the cached payload as stored, nothing written, no translator call
    ensures lang != BASE && ItemKey(f, lang) in c ==>
      r == ContentRead(c[ItemKey(f, lang)].value.content, c, 0)
    // miss: question and answer go through the memo in that order, the
    // timestamps are the row's, and the payload is cached for an hour
    ensures lang != BASE && ItemKey(f, lang) !in c ==>
      var q := TranslateText(c, o, f.question, lang);
      var a := TranslateText(q.cache, o, f.answer, lang);
      && r.content == Content(q.text, a.text, f.createdAt, f.updatedAt)
      && r.calls == q.calls + a.calls
      && ItemKey(f, lang) in r.cache
      && r.cache[ItemKey(f, lang)] == CacheEntry(Assembled(r.content), CACHE_TIMEOUT)
    // nothing outside this row's content key and the translation memo changes
    ensures forall k :: k != ItemKey(f, lang) && NamespaceOf(k) != TranslationNs ==>
      (k in r.cache <==> k in c) && (k in c ==> r.cache[k] == c[k])
  {
    if lang == BASE then ContentRead(Raw(f), c, 0)
    else
      var key := ItemKey(f, lang);
      if key in c then ContentRead(c[key].value.content, c, 0)
      else
        var q := TranslateText(c, o, f.question, lang);
        var a := TranslateText(q.cache, o, f.answer, lang);
        TranslateTouchesOnlyItsKey(c, o, f.question, lang);
        TranslateTouchesOnlyItsKey(q.cache, o, f.answer, lang);
        var content := Content(q.text, a.text, f.createdAt, f.updatedAt);
        ContentRead(content, Set(a.cache, key, Assembled(content), CACHE_TIMEOUT), q.calls + a.calls)
  }

  /** Read-through idempotence: a second read with no cache change in between
      returns the identical payload, writes nothing and calls no translator. */
  lemma ContentReadIsIdempotent(c: Cache, o: Oracle, f: Faq, lang: string)
    requires WellTyped(c)
    ensures var r1 := GetTranslatedContent(c, o, f, lang);
      var r2 := GetTranslatedContent(r1.cache, o, f, lang);
      r2 == ContentRead(r1.content, r1.cache, 0)
  {
  }

  /** Whatever path a read takes, a payload freshly assembled from a row carries
      the row's own timestamps; only a payload that was already cached can
      differ from the row. */
  lemma AssembledPayloadKeepsTimestamps(c: Cache, o: Oracle, f: Faq, lang: string)
    requires WellTyped(c)
    requires lang == BASE || ItemKey(f, lang) !in c
    ensures GetTranslatedContent(c, o, f, lang).content.createdAt == f.createdAt
    ensures GetTranslatedContent(c, o, f, lang).content.updatedAt == f.updatedAt
  {
  }

  /** With a translator that always fails, every language reads the row's own
      text: the fallback degrades a whole payload to the base language. */
  lemma FailingTranslatorServesSourceText(c: Cache, o: Oracle, f: Faq, lang: string)
    requires WellTyped(c)
    requires forall t, l :: o.translate(t, l).None?
    requires lang == BASE || ItemKey(f, lang) !in c
    requires forall t :: MemoKey(o, t, lang) !in c
    ensures GetTranslatedContent(c, o, f, lang).content == Raw(f)
  {
  }

  /** `FAQ.__str__`: at most the first 50 characters of the question. */
  function Label(f: Faq): (s: string)
    ensures |s| == if |f.question| <= 50 then |f.question| else 50
    ensures StartsWith(f.question, s)
  {
    if |f.question| <= 50 then f.question else f.question[..50]
  }
}

=== FILE: findings.dfy ===
/** Two places where the cache keeps a payload the table no longer backs:
    `faq_edit` (views.py:221-236) and `FAQAdmin.save_model` (admin.py:62-69)
    leave the row's `faq:content:{id}:{lang}` entries in place. Each is shown
    as written, next to the corrected version the rest of the model proves
    coherent. */
module Findings {
  import opened Wrappers
  import opened Text
  import opened CacheKeys
  import opened Cache
  import opened Settings
  import opened Store
  import opened Translation
  import opened ItemContent
  import opened ReadViews
  import opened Invalidation
  import opened Mutations
  import opened Coherence
  import opened WriteCoherence

  // ---------------------------------------------------------------------------
  // How a payload gets into the cache, and how the list page serves it

  /** Rendering the edit (or delete) page leaves the row's assembled payload
      cached in every non-base language it previews. */
  lemma {:induction false} PreviewCachesPayload(c: Cache, o: Oracle, f: Faq, langs: seq<string>, l: string)
    requires WellTyped(c) && l in langs && l != BASE
    ensures ContentKey(f.id, l) in TranslationsPreview(c, o, f, langs).cache
    decreases |langs|
  {
    var last := langs[|langs| - 1];
    var init := langs[..|langs| - 1];
    assert langs == init + [last];
    var p := TranslationsPreview(c, o, f, init);
    ContentKeyNamespace(f.id, l);
    if last == l {
      var g := GetTranslatedContent(p.cache, o, f, l);
      assert ItemKey(f, l) in g.cache;
    } else {
      assert l in init;
      PreviewCachesPayload(c, o, f, init, l);
      if last != BASE {
        if ContentKey(f.id, l) == ItemKey(f, last) {
          ContentKeyInjective(f.id, l, f.id, last);
        }
      }
    }
  }

  /** When a row's payload is cached, the list_data page built for that
      language shows that payload for the row, whatever the row now says. */
  lemma {:induction false} AssembleServesCached(c: Cache, o: Oracle, rs: seq<Faq>, lang: string, i: nat)
    requires WellTyped(c) && lang != BASE && i < |rs|
    requires forall a, b :: 0 <= a < b < |rs| ==> rs[a].id != rs[b].id
    requires ContentKey(rs[i].id, lang) in c
    ensures AssembleEntries(c, o, rs, lang).entries[i].content == c[ContentKey(rs[i].id, lang)].value.content
    decreases |rs|
  {
    var key := ContentKey(rs[i].id, lang);
    var h := GetTranslatedContent(c, o, rs[0], lang);
    if i > 0 {
      ContentKeyNamespace(rs[i].id, lang);
      if key == ItemKey(rs[0], lang) {
        ContentKeyInjective(rs[i].id, lang, rs[0].id, lang);
      }
      assert rs[1..][i - 1] == rs[i];
      AssembleServesCached(h.cache, o, rs[1..], lang, i - 1);
    }
  }

  // ---------------------------------------------------------------------------
  // faq_edit, as written

  /** The edit deletes the lists, the detail entries and the per-field keys,
      but not the row's assembled payload: it survives unchanged. */
  lemma EditKeepsPayload(st: State, o: Oracle, pk: nat, sub: Submission, now: int, l: string)
    requires Ok(st) && Lookup(st.store, pk).Some? && ContentKey(pk, l) in st.cache
    ensures var r := Run(st, o, FaqEdit(st.store, pk, Post(Some(sub)), now).steps);
      && ContentKey(pk, l) in r.cache
      && r.cache[ContentKey(pk, l)] == st.cache[ContentKey(pk, l)]
      && r.store == Update(st.store, pk, sub.question, sub.answer, now)
      && (forall m :: m in LANGUAGES ==> ListDataKey(m) !in r.cache)
  {
    var keys := EditKeys(LANGUAGES, pk);
    var clear := ClearTranslationsKeys(Some(pk), LANGUAGES);
    var k := ContentKey(pk, l);
    assert keys != [] by { assert |keys| == 3 * |LANGUAGES|; }
    assert FaqEdit(st.store, pk, Post(Some(sub)), now) == EditWith(st.store, pk, Post(Some(sub)), now, keys);
    EditSteps(st, o, keys, pk, sub, now);
    EditSetsMissPayload(pk, l);
    var c1 := DeleteMany(st.cache, clear);
    assert k in c1 && c1[k] == st.cache[k];
    var c2 := DeleteMany(c1, keys);
    assert k in c2 && c2[k] == c1[k];
  }

  /** The row's payload key is in neither set the edit deletes; every
      configured language's list_data key is in the view's set. */
  lemma EditSetsMissPayload(pk: nat, l: string)
    ensures ContentKey(pk, l) !in EditKeys(LANGUAGES, pk)
    ensures ContentKey(pk, l) !in ClearTranslationsKeys(Some(pk), LANGUAGES)
    ensures forall m :: m in LANGUAGES ==> ListDataKey(m) in EditKeys(LANGUAGES, pk)
  {
    ViewSetsMissContentKeys(LANGUAGES, pk);
    ClearingMissesWrittenKeys(Some(pk), LANGUAGES);
    ContentKeyNamespace(pk, l);
    EditKeysMembers(LANGUAGES, pk);
    forall m | m in LANGUAGES
      ensures ListDataKey(m) in EditKeys(LANGUAGES, pk)
    {
      assert InEditSet(ListDataKey(m), LANGUAGES, pk);
    }
  }

  lemma EditSteps(st: State, o: Oracle, keys: seq<string>, pk: nat, sub: Submission, now: int)
    requires Ok(st) && Lookup(st.store, pk).Some? && keys != []
    ensures Run(st, o, EditWith(st.store, pk, Post(Some(sub)), now, keys).steps)
      == State(Update(st.store, pk, sub.question, sub.answer, now),
               DeleteMany(DeleteMany(st.cache, ClearTranslationsKeys(Some(pk), LANGUAGES)), keys))
  {
    var clear := ClearTranslationsKeys(Some(pk), LANGUAGES);
    assert EditWith(st.store, pk, Post(Some(sub)), now, keys).steps
      == [DeleteKeys(clear), Save(pk, sub.question, sub.answer, now), DeleteKeys(keys)];
    RunAroundWrite(st, o, clear, Save(pk, sub.question, sub.answer, now), keys);
    ApplyWrite(st, o, Save(pk, sub.question, sub.answer, now));
  }

  /** The edit breaks coherence whenever the row had a cached payload and the
      save moved its `updated_at`. */
  lemma EditBreaksCoherence(st: State, ser: Serializer, o: Oracle, pk: nat, sub: Submission, now: int, l: string)
    requires Coherent(st, ser) && Lookup(st.store, pk).Some? && l in LANGUAGES
    requires ContentKey(pk, l) in st.cache && now != Lookup(st.store, pk).value.updatedAt
    ensures !Coherent(Run(st, o, FaqEdit(st.store, pk, Post(Some(sub)), now).steps), ser)
  {
    var r := Run(st, o, FaqEdit(st.store, pk, Post(Some(sub)), now).steps);
    EditKeepsPayload(st, o, pk, sub, now, l);
    var k := ContentKey(pk, l);
    assert KeyFresh(st.store, ser, k, st.cache[k].value);
  }

  /** The visible symptom: opening the edit page, saving, then opening the
      list page in any translated language shows the row with the
      `updated_at` (and text) it had before the save. */
  lemma EditServesStaleListPage(st: State, ser: Serializer, o: Oracle, pk: nat, sub: Submission, now: int, lang: string)
    requires Coherent(st, ser) && Lookup(st.store, pk).Some? && lang in LANGUAGES && lang != BASE
    requires now != Lookup(st.store, pk).value.updatedAt
    ensures
      var shown := Run(st, o, FaqEdit(st.store, pk, Get, now).steps);
      var saved := Run(shown, o, FaqEdit(shown.store, pk, Post(Some(sub)), now).steps);
      var page := ListDataView(saved.cache, o, saved.store, lang);
      && Lookup(saved.store, pk).Some? && Lookup(saved.store, pk).value.updatedAt == now
      && exists j :: 0 <= j < |page.entries| && page.entries[j].id == pk
           && page.entries[j].content.updatedAt == Lookup(st.store, pk).value.updatedAt
  {
    var shown := Run(st, o, FaqEdit(st.store, pk, Get, now).steps);
    var saved := Run(shown, o, FaqEdit(shown.store, pk, Post(Some(sub)), now).steps);
    PreviewThenEditKeepsStale(st, ser, o, pk, sub, now, lang);
    StaleEntryOnPage(saved, o, pk, lang, Lookup(st.store, pk).value.updatedAt);
  }

  lemma StaleEntryOnPage(saved: State, o: Oracle, pk: nat, lang: string, stamp: int)
    requires Ok(saved) && lang != BASE && Lookup(saved.store, pk).Some?
    requires ContentKey(pk, lang) in saved.cache && ListDataReaderKey(lang) !in saved.cache
    requires saved.cache[ContentKey(pk, lang)].value.Assembled?
    requires saved.cache[ContentKey(pk, lang)].value.content.updatedAt == stamp
    requires stamp != Lookup(saved.store, pk).value.updatedAt
    ensures var page := ListDataView(saved.cache, o, saved.store, lang);
      exists j :: 0 <= j < |page.entries| && page.entries[j].id == pk
        && page.entries[j].content.updatedAt == stamp
        && page.entries[j].content.updatedAt != Lookup(saved.store, pk).value.updatedAt
  {
    ListPageShowsCachedPayload(saved, o, pk, lang);
  }

  /** Opening the edit page caches the row's payload in a translated
      language; the save that follows keeps it and drops that language's
      list page. */
  lemma PreviewThenEditKeepsStale(st: State, ser: Serializer, o: Oracle, pk: nat, sub: Submission, now: int, lang: string)
    requires Coherent(st, ser) && Lookup(st.store, pk).Some? && lang in LANGUAGES && lang != BASE
    ensures
      var shown := Run(st, o, FaqEdit(st.store, pk, Get, now).steps);
      var saved := Run(shown, o, FaqEdit(shown.store, pk, Post(Some(sub)), now).steps);
      var k := ContentKey(pk, lang);
      && saved.store == Update(st.store, pk, sub.question, sub.answer, now)
      && k in saved.cache && saved.cache[k].value.Assembled?
      && saved.cache[k].value.content.updatedAt == Lookup(st.store, pk).value.updatedAt
      && ListDataReaderKey(lang) !in saved.cache
  {
    var shown := Run(st, o, FaqEdit(st.store, pk, Get, now).steps);
    ShowPreviewCachesFreshPayload(st, ser, o, pk, now, lang);
    EditKeepsPayload(shown, o, pk, sub, now, lang);
    ReaderAndInvalidatorsAgree(lang);
  }

  /** After the edit page is opened, the row's payload in a translated
      language is cached with the row's own timestamps. */
  lemma ShowPreviewCachesFreshPayload(st: State, ser: Serializer, o: Oracle, pk: nat, now: int, lang: string)
    requires Coherent(st, ser) && Lookup(st.store, pk).Some? && lang in LANGUAGES && lang != BASE
    ensures
      var shown := Run(st, o, FaqEdit(st.store, pk, Get, now).steps);
      var k := ContentKey(pk, lang);
      && Ok(shown) && shown.store == st.store && k in shown.cache && shown.cache[k].value.Assembled?
      && shown.cache[k].value.content.updatedAt == Lookup(st.store, pk).value.updatedAt
  {
    assert FaqEdit(st.store, pk, Get, now).steps == [ShowPreview(pk)];
    RunOne(st, o, ShowPreview(pk));
    ApplyPreview(st, o, pk);
    assert lang in LANGUAGES;
    PreviewLeavesFreshPayload(st, ser, o, Lookup(st.store, pk).value, LANGUAGES, lang);
  }

  lemma PreviewLeavesFreshPayload(st: State, ser: Serializer, o: Oracle, f: Faq, langs: seq<string>, lang: string)
    requires Coherent(st, ser) && Lookup(st.store, f.id) == Some(f)
    requires lang in langs && lang in LANGUAGES && lang != BASE
    ensures var c := TranslationsPreview(st.cache, o, f, langs).cache;
      && ContentKey(f.id, lang) in c && c[ContentKey(f.id, lang)].value.Assembled?
      && c[ContentKey(f.id, lang)].value.content.updatedAt == f.updatedAt
  {
    PreviewKeepsCoherent(st, ser, o, f, langs);
    PreviewCachesPayload(st.cache, o, f, langs, lang);
    CachedPayloadHasStamps(State(st.store, TranslationsPreview(st.cache, o, f, langs).cache), ser, f.id, lang);
  }

  /** In a coherent state a cached payload of a row carries the row's stamps. */
  lemma CachedPayloadHasStamps(st: State, ser: Serializer, pk: nat, lang: string)
    requires Coherent(st, ser) && Lookup(st.store, pk).Some? && lang in LANGUAGES
    requires ContentKey(pk, lang) in st.cache
    ensures st.cache[ContentKey(pk, lang)].value.Assembled?
    ensures StampsOf(st.cache[ContentKey(pk, lang)].value.content, Lookup(st.store, pk).value)
  {
    var k := ContentKey(pk, lang);
    assert KeyFresh(st.store, ser, k, st.cache[k].value);
  }

  /** When the list page is not cached but a row's payload is, the list page
      rebuilt from the table shows that payload for the row. */
  lemma ListPageShowsCachedPayload(st: State, o: Oracle, pk: nat, lang: string)
    requires Ok(st) && lang != BASE && Lookup(st.store, pk).Some?
    requires ContentKey(pk, lang) in st.cache && ListDataReaderKey(lang) !in st.cache
    ensures var page := ListDataView(st.cache, o, st.store, lang);
      exists j :: 0 <= j < |page.entries| && page.entries[j].id == pk
        && page.entries[j].content == st.cache[ContentKey(pk, lang)].value.content
  {
    var g := Lookup(st.store, pk).value;
    var rs := Recent(st.store.records);
    RecentIsAPermutation(st.store.records);
    assert g in rs;
    var j :| 0 <= j < |rs| && rs[j] == g;
    RecentKeepsIdsUnique(st.store.records);
    AssembleServesCached(st.cache, o, rs, lang, j);
    ReaderAndInvalidatorsAgree(lang);
    var page := ListDataView(st.cache, o, st.store, lang);
    assert page.entries == AssembleEntries(st.cache, o, rs, lang).entries;
    assert page.entries[j].id == pk;
  }

  // ---------------------------------------------------------------------------
  // faq_edit, corrected

  /** With the row's payload keys added to the deleted set, the list page in
      any configured language lists the table as it is after the save. */
  lemma FixedEditServesFreshListPage(st: State, ser: Serializer, o: Oracle, pk: nat, req: Request, now: int, l: string)
    requires Coherent(st, ser) && l in LANGUAGES
    ensures
      var saved := Run(st, o, FaqEditFixed(st.store, pk, req, now).steps);
      EntriesMatch(ListDataView(saved.cache, o, saved.store, l).entries, Recent(saved.store.records))
  {
    FaqEditFixedKeepsCoherent(st, ser, o, pk, req, now);
    var saved := Run(st, o, FaqEditFixed(st.store, pk, req, now).steps);
    ListDataReadKeepsCoherent(saved, ser, o, l);
  }

  // ---------------------------------------------------------------------------
  // FAQAdmin.save_model, as written

  /** Deleting keys one by one is deleting them as a batch. */
  lemma {:induction false} RunDeleteEach(st: State, o: Oracle, keys: seq<string>)
    requires Ok(st)
    ensures Run(st, o, DeleteEach(keys)) == State(st.store, DeleteMany(st.cache, keys))
    decreases |keys|
  {
    var d := DeleteEach(keys);
    if keys == [] {
      assert DeleteMany(st.cache, keys) == st.cache;
    } else {
      assert d[0] == DeleteKey(keys[0]);
      assert d[1..] == DeleteEach(keys[1..]);
      var next := Apply(st, o, d[0]);
      RunDeleteEach(next, o, keys[1..]);
      assert DeleteMany(next.cache, keys[1..]) == DeleteMany(st.cache, keys);
    }
  }

  /** A change saved through the admin: the per-field keys are cleared, the
      row is written, then the keys `keys` picks for the row are deleted. */
  lemma AdminChangeSteps(st: State, o: Oracle, pk: nat, q: string, a: string, now: int, keys: nat -> seq<string>)
    requires Ok(st)
    ensures Run(st, o, AdminSaveWith(st.store, Some(pk), q, a, now, keys))
      == State(Update(st.store, pk, q, a, now),
               DeleteMany(DeleteMany(st.cache, ClearTranslationsKeys(Some(pk), LANGUAGES)), keys(pk)))
  {
    var save := ModelSave(Some(pk), q, a, now);
    RunConcat(st, o, save, DeleteEach(keys(pk)));
    RunTwo(st, o, save[0], save[1]);
    assert save == [save[0], save[1]];
    RunDeleteEach(Run(st, o, save), o, keys(pk));
  }

  /** The admin hook deletes `faq:translation:{id}:content:{lang}`, a key
      nothing writes; the row's assembled payload survives the change. */
  lemma AdminChangeKeepsPayload(st: State, o: Oracle, pk: nat, q: string, a: string, now: int, l: string)
    requires Ok(st) && ContentKey(pk, l) in st.cache
    ensures var r := Run(st, o, AdminSaveModel(st.store, Some(pk), q, a, now));
      && r.store == Update(st.store, pk, q, a, now)
      && ContentKey(pk, l) in r.cache
      && r.cache[ContentKey(pk, l)] == st.cache[ContentKey(pk, l)]
  {
    AdminChangeSteps(st, o, pk, q, a, now, AdminKeys);
    AdminSetsMissPayload(pk, l);
  }

  lemma AdminSetsMissPayload(pk: nat, l: string)
    ensures ContentKey(pk, l) !in AdminKeys(pk)
    ensures ContentKey(pk, l) !in ClearTranslationsKeys(Some(pk), LANGUAGES)
  {
    ClearingMissesWrittenKeys(Some(pk), LANGUAGES);
    AdminKeysMissContentKeys(pk);
    ContentKeyNamespace(pk, l);
  }

  /** So a change through the admin breaks coherence whenever the row had a
      cached payload and the save moved its `updated_at`. */
  lemma AdminChangeBreaksCoherence(st: State, ser: Serializer, o: Oracle, pk: nat, q: string, a: string, now: int, l: string)
    requires Coherent(st, ser) && Lookup(st.store, pk).Some? && l in LANGUAGES
    requires ContentKey(pk, l) in st.cache && now != Lookup(st.store, pk).value.updatedAt
    ensures !Coherent(Run(st, o, AdminSaveModel(st.store, Some(pk), q, a, now)), ser)
  {
    AdminChangeKeepsPayload(st, o, pk, q, a, now, l);
    CachedPayloadHasStamps(st, ser, pk, l);
  }

  // ---------------------------------------------------------------------------
  // FAQAdmin.save_model, corrected

  /** The hook deleting the keys the content cache actually writes. */
  function AdminSaveFixed(s: Store, target: Option<nat>, question: string, answer: string, now: int): (r: seq<Step>)
    ensures |r| == 2 + |ADMIN_LANGUAGES|
    ensures forall l :: l in ADMIN_LANGUAGES ==> DeleteKey(ContentKey(SavedId(s, target), l)) in r[2..]
  {
    var r := AdminSaveWith(s, target, question, answer, now, (id: nat) => ContentKeysFor(id, ADMIN_LANGUAGES));
    assert forall i :: 0 <= i < |ADMIN_LANGUAGES| ==> r[2..][i] == DeleteKey(ContentKey(SavedId(s, target), ADMIN_LANGUAGES[i]));
    r
  }

  /** After the corrected hook, the row's payload is gone in every language
      the hook names, and the next read assembles it from the saved row. */
  lemma AdminSaveFixedServesSavedRow(st: State, o: Oracle, pk: nat, q: string, a: string, now: int, l: string)
    requires Ok(st) && Lookup(st.store, pk).Some? && l in ADMIN_LANGUAGES
    ensures var r := Run(st, o, AdminSaveFixed(st.store, Some(pk), q, a, now));
      && r.store == Update(st.store, pk, q, a, now)
      && ContentKey(pk, l) !in r.cache
      && GetTranslatedContent(r.cache, o, Lookup(r.store, pk).value, l).content.updatedAt == now
  {
    var keys := (id: nat) => ContentKeysFor(id, ADMIN_LANGUAGES);
    AdminChangeSteps(st, o, pk, q, a, now, keys);
    var i :| 0 <= i < |ADMIN_LANGUAGES| && ADMIN_LANGUAGES[i] == l;
    assert keys(pk)[i] == ContentKey(pk, l);
    var r := Run(st, o, AdminSaveFixed(st.store, Some(pk), q, a, now));
    AssembledPayloadKeepsTimestamps(r.cache, o, Lookup(r.store, pk).value, l);
  }
}

=== FILE: invalidation.dfy ===
/** The key sets the application deletes when content changes: the enumerated
    sets of the HTML views (views.py:184-198, 221-236, 275-292), the model's
    per-field clearing (models.py:27-42) and the admin hook's three deletes
    (admin.py:63-69). */
module Invalidation {
  import opened Wrappers
  import opened Text
  import opened CacheKeys
  import opened Settings

  predicate Distinct<T(==)>(s: seq<T>) {
    forall i, j :: 0 <= i < j < |s| ==> s[i] != s[j]
  }

  function Elements<T>(s: seq<T>): set<T> {
    set x | x in s
  }

  lemma {:induction false} DistinctCount<T>(s: seq<T>)
    requires Distinct(s)
    ensures |Elements(s)| == |s|
  {
    if s != [] {
      DistinctCount(s[1..]);
      assert Elements(s) == {s[0]} + Elements(s[1..]);
    }
  }

  lemma DistinctConcat<T>(a: seq<T>, b: seq<T>)
    requires Distinct(a) && Distinct(b)
    requires forall x :: x in b ==> x !in a
    ensures Distinct(a + b)
  {
    forall i, j | 0 <= i < j < |a + b|
      ensures (a + b)[i] != (a + b)[j]
    {
      if i < |a| <= j {
        assert (a + b)[j] == b[j - |a|] && b[j - |a|] in b;
      }
    }
  }

  lemma DistinctTail<T>(s: seq<T>)
    requires Distinct(s) && s != []
    ensures Distinct(s[1..]) && s[0] !in s[1..]
  {
  }

  // ---------------------------------------------------------------------------
  // Per-namespace injectivity in the language

  lemma ListKeyInjective(l1: string, l2: string)
    requires ListKey(l1) == ListKey(l2)
    ensures l1 == l2
  {
    AfterPrefix(LIST_PREFIX, l1, l2);
  }

  lemma ListDataKeyInjective(l1: string, l2: string)
    requires ListDataKey(l1) == ListDataKey(l2)
    ensures l1 == l2
  {
    AfterPrefix(LIST_DATA_PREFIX, l1, l2);
  }

  lemma DetailKeyInjective(pk: nat, l1: string, l2: string)
    requires DetailKey(pk, l1) == DetailKey(pk, l2)
    ensures l1 == l2
  {
    if pk != 0 {
      var n := NatToString(pk);
      AfterPrefix(DETAIL_PREFIX, n + (":" + l1), n + (":" + l2));
      AfterPrefix(n, ":" + l1, ":" + l2);
      AfterPrefix(":", l1, l2);
    } else {
      AfterPrefix(DETAIL_PREFIX, l1, l2);
    }
  }

  // ---------------------------------------------------------------------------
  // faq_create: the list keys of every configured language

  /** `for lang in languages: [get_cache_key("list", lang=lang), get_cache_key("list_data", lang=lang)]`. */
  function CreateKeys(langs: seq<string>): (r: seq<string>)
    ensures |r| == 2 * |langs|
  {
    if langs == [] then []
    else [ListKey(langs[0]), ListDataKey(langs[0])] + CreateKeys(langs[1..])
  }

  /** A key of the create set is a list key or a list_data key of a configured language. */
  ghost predicate InCreateSet(k: string, langs: seq<string>) {
    exists l :: l in langs && (k == ListKey(l) || k == ListDataKey(l))
  }

  lemma {:induction false} CreateKeysMembers(langs: seq<string>)
    ensures forall k :: k in CreateKeys(langs) <==> InCreateSet(k, langs)
  {
    if langs != [] {
      CreateKeysMembers(langs[1..]);
      var l := langs[0];
      forall k
        ensures k in CreateKeys(langs) <==> InCreateSet(k, langs)
      {
        assert CreateKeys(langs) == [ListKey(l), ListDataKey(l)] + CreateKeys(langs[1..]);
        if InCreateSet(k, langs) {
          var m :| m in langs && (k == ListKey(m) || k == ListDataKey(m));
          if m != l {
            assert m in langs[1..];
            assert InCreateSet(k, langs[1..]);
          }
        }
        if InCreateSet(k, langs[1..]) {
          var m :| m in langs[1..] && (k == ListKey(m) || k == ListDataKey(m));
          assert m in langs;
        }
      }
    }
  }

  // ---------------------------------------------------------------------------
  // faq_edit and faq_delete: the list keys plus the item's detail key, per language

  function EditKeys(langs: seq<string>, pk: nat): (r: seq<string>)
    ensures |r| == 3 * |langs|
  {
    if langs == [] then []
    else [ListKey(langs[0]), ListDataKey(langs[0]), DetailKey(pk, langs[0])] + EditKeys(langs[1..], pk)
  }

  lemma EditKeysNonEmpty(langs: seq<string>, pk: nat)
    requires langs != []
    ensures EditKeys(langs, pk) != []
  {
  }

  /** A key of the edit set is a list, list_data or detail key of a configured language. */
  ghost predicate InEditSet(k: string, langs: seq<string>, pk: nat) {
    exists l :: l in langs && (k == ListKey(l) || k == ListDataKey(l) || k == DetailKey(pk, l))
  }

  lemma {:induction false} EditKeysMembers(langs: seq<string>, pk: nat)
    ensures forall k :: k in EditKeys(langs, pk) <==> InEditSet(k, langs, pk)
  {
    if langs != [] {
      EditKeysMembers(langs[1..], pk);
      forall k
        ensures k in EditKeys(langs, pk) <==> InEditSet(k, langs, pk)
      {
        EditKeysStep(langs, pk, k);
      }
    }
  }

  /** One key's membership in the edit set follows from its membership in the tail's. */
  lemma EditKeysStep(langs: seq<string>, pk: nat, k: string)
    requires langs != [] && (k in EditKeys(langs[1..], pk) <==> InEditSet(k, langs[1..], pk))
    ensures k in EditKeys(langs, pk) <==> InEditSet(k, langs, pk)
  {
    var l := langs[0];
    var head := [ListKey(l), ListDataKey(l), DetailKey(pk, l)];
    assert EditKeys(langs, pk) == head + EditKeys(langs[1..], pk);
    if k in head {
      assert l in langs;
      assert InEditSet(k, langs, pk);
    } else if k in EditKeys(langs[1..], pk) {
      var m :| m in langs[1..] && (k == ListKey(m) || k == ListDataKey(m) || k == DetailKey(pk, m));
      assert m in langs;
    }
    if InEditSet(k, langs, pk) {
      EditSetSplit(langs, pk, k);
    }
  }

  lemma EditSetSplit(langs: seq<string>, pk: nat, k: string)
    requires langs != [] && InEditSet(k, langs, pk)
    ensures k in [ListKey(langs[0]), ListDataKey(langs[0]), DetailKey(pk, langs[0])] || InEditSet(k, langs[1..], pk)
  {
    var m :| m in langs && (k == ListKey(m) || k == ListDataKey(m) || k == DetailKey(pk, m));
    if m != langs[0] {
      assert langs == [langs[0]] + langs[1..];
      assert m in langs[1..];
    }
  }

  /** The edit keys of one language lie in three different namespaces. */
  lemma EditTripleDistinct(l: string, pk: nat)
    ensures Distinct([ListKey(l), ListDataKey(l), DetailKey(pk, l)])
  {
  }

  /** A language's edit keys are not among those of languages other than it. */
  lemma EditHeadFresh(l: string, tail: seq<string>, pk: nat)
    requires l !in tail
    ensures forall k :: k in EditKeys(tail, pk) ==> k !in [ListKey(l), ListDataKey(l), DetailKey(pk, l)]
  {
    EditKeysMembers(tail, pk);
    forall k | k in EditKeys(tail, pk)
      ensures k !in [ListKey(l), ListDataKey(l), DetailKey(pk, l)]
    {
      var m :| m in tail && (k == ListKey(m) || k == ListDataKey(m) || k == DetailKey(pk, m));
      EditTriplesDisjoint(l, m, pk, k);
    }
  }

  /** Two different languages share none of their edit keys. */
  lemma EditTriplesDisjoint(l: string, m: string, pk: nat, k: string)
    requires l != m && (k == ListKey(m) || k == ListDataKey(m) || k == DetailKey(pk, m))
    ensures k !in [ListKey(l), ListDataKey(l), DetailKey(pk, l)]
  {
    if k == ListKey(l) && k == ListKey(m) {
      ListKeyInjective(l, m);
    } else if k == ListDataKey(l) && k == ListDataKey(m) {
      ListDataKeyInjective(l, m);
    } else if k == DetailKey(pk, l) && k == DetailKey(pk, m) {
      DetailKeyInjective(pk, l, m);
    }
  }

  /** Over distinct languages no key is listed twice, so the enumerated set has
      exactly three keys per language. */
  lemma {:induction false} EditKeysDistinct(langs: seq<string>, pk: nat)
    requires Distinct(langs)
    ensures Distinct(EditKeys(langs, pk))
  {
    if langs != [] {
      DistinctTail(langs);
      EditKeysDistinct(langs[1..], pk);
      EditTripleDistinct(langs[0], pk);
      EditHeadFresh(langs[0], langs[1..], pk);
      DistinctConcat([ListKey(langs[0]), ListDataKey(langs[0]), DetailKey(pk, langs[0])], EditKeys(langs[1..], pk));
    }
  }

  lemma CreatePairDistinct(l: string)
    ensures Distinct([ListKey(l), ListDataKey(l)])
  {
  }

  lemma CreateHeadFresh(l: string, tail: seq<string>)
    requires l !in tail
    ensures forall k :: k in CreateKeys(tail) ==> k !in [ListKey(l), ListDataKey(l)]
  {
    CreateKeysMembers(tail);
    forall k | k in CreateKeys(tail)
      ensures k !in [ListKey(l), ListDataKey(l)]
    {
      var m :| m in tail && (k == ListKey(m) || k == ListDataKey(m));
      if k == ListKey(l) && k == ListKey(m) {
        ListKeyInjective(l, m);
      } else if k == ListDataKey(l) && k == ListDataKey(m) {
        ListDataKeyInjective(l, m);
      }
    }
  }

  lemma {:induction false} CreateKeysDistinct(langs: seq<string>)
    requires Distinct(langs)
    ensures Distinct(CreateKeys(langs))
  {
    if langs != [] {
      DistinctTail(langs);
      CreateKeysDistinct(langs[1..]);
      CreatePairDistinct(langs[0]);
      CreateHeadFresh(langs[0], langs[1..]);
      DistinctConcat([ListKey(langs[0]), ListDataKey(langs[0])], CreateKeys(langs[1..]));
    }
  }

  /** For the configured languages: `faq_edit` and `faq_delete` delete exactly
      nine distinct keys, `faq_create` exactly six, and no create key is a
      detail key. */
  lemma ConfiguredKeyCounts(pk: nat)
    ensures |Elements(EditKeys(LANGUAGES, pk))| == 3 * |LANGUAGES| == 9
    ensures |Elements(CreateKeys(LANGUAGES))| == 2 * |LANGUAGES| == 6
    ensures forall k :: k in CreateKeys(LANGUAGES) ==> NamespaceOf(k) != DetailNs
  {
    assert Distinct(LANGUAGES);
    EditKeysDistinct(LANGUAGES, pk);
    DistinctCount(EditKeys(LANGUAGES, pk));
    CreateKeysDistinct(LANGUAGES);
    DistinctCount(CreateKeys(LANGUAGES));
    CreateKeysMembers(LANGUAGES);
  }

  /** None of the enumerated view sets reaches an assembled-content entry or a
      translation entry: only the three list/detail namespaces are touched. */
  lemma ViewSetsMissContentKeys(langs: seq<string>, pk: nat)
    ensures forall k :: k in EditKeys(langs, pk) ==> NamespaceOf(k) in {ListNs, ListDataNs, DetailNs}
    ensures forall k :: k in CreateKeys(langs) ==> NamespaceOf(k) in {ListNs, ListDataNs}
  {
    EditKeysMembers(langs, pk);
    CreateKeysMembers(langs);
  }

  // ---------------------------------------------------------------------------
  // FAQ._clear_translations_cache

  function FieldKeysFor(id: Option<nat>, field: string, langs: seq<string>): (r: seq<string>)
    ensures |r| == |langs|
    ensures forall i :: 0 <= i < |langs| ==> r[i] == FieldKey(id, field, langs[i])
  {
    seq(|langs|, i requires 0 <= i < |langs| => FieldKey(id, field, langs[i]))
  }

  /** The question keys for every language, then the answer keys. */
  function ClearTranslationsKeys(id: Option<nat>, langs: seq<string>): (r: seq<string>)
    ensures |r| == 2 * |langs|
    ensures forall i :: 0 <= i < |langs| ==>
      r[i] == FieldKey(id, "question", langs[i]) && r[|langs| + i] == FieldKey(id, "answer", langs[i])
  {
    FieldKeysFor(id, "question", langs) + FieldKeysFor(id, "answer", langs)
  }

  /** A key of the clearing set: the question or answer key of a configured language. */
  ghost predicate InClearSet(k: string, id: Option<nat>, langs: seq<string>) {
    exists l :: l in langs && (k == FieldKey(id, "question", l) || k == FieldKey(id, "answer", l))
  }

  /** The clearing deletes the question and answer keys of every language and nothing else. */
  lemma ClearTranslationsKeysMembers(id: Option<nat>, langs: seq<string>)
    ensures forall k :: k in ClearTranslationsKeys(id, langs) <==> InClearSet(k, id, langs)
  {
    var r := ClearTranslationsKeys(id, langs);
    forall k | k in r
      ensures InClearSet(k, id, langs)
    {
      var i :| 0 <= i < |r| && r[i] == k;
      if i < |langs| {
        assert langs[i] in langs;
      } else {
        assert r[|langs| + (i - |langs|)] == k;
        assert langs[i - |langs|] in langs;
      }
    }
    forall k | InClearSet(k, id, langs)
      ensures k in r
    {
      var l :| l in langs && (k == FieldKey(id, "question", l) || k == FieldKey(id, "answer", l));
      var i :| 0 <= i < |langs| && langs[i] == l;
      if k == FieldKey(id, "question", l) { assert r[i] == k; } else { assert r[|langs| + i] == k; }
    }
  }

  /** No key the clearing deletes is a memo key of a colon-free language:
      each lies in the translation namespace but has one segment more than
      such a memo key. Memo keys of languages containing a colon are not
      covered; `ClearingCanHitColonLanguageMemo` shows one the clearing does
      delete. */
  lemma ClearingMissesWrittenKeys(id: Option<nat>, langs: seq<string>)
    requires forall l :: l in langs ==> ColonFree(l)
    ensures forall k, fingerprint: int, memoLang :: k in ClearTranslationsKeys(id, langs) && ColonFree(memoLang) ==>
      k != TranslationKey(fingerprint, memoLang)
    ensures forall k :: k in ClearTranslationsKeys(id, langs) ==> NamespaceOf(k) == TranslationNs
  {
    var r := ClearTranslationsKeys(id, langs);
    FieldNamesColonFree();
    forall k | k in r
      ensures NamespaceOf(k) == TranslationNs
      ensures forall fingerprint: int, memoLang :: ColonFree(memoLang) ==> k != TranslationKey(fingerprint, memoLang)
    {
      var i :| 0 <= i < |r| && r[i] == k;
      var j := if i < |langs| then i else i - |langs|;
      var field := if i < |langs| then "question" else "answer";
      assert r[i] == FieldKey(id, field, langs[j]) by {
        if i >= |langs| { assert r[|langs| + j] == FieldKey(id, "answer", langs[j]); }
      }
      assert langs[j] in langs;
      FieldKeyIsUnwritten(id, field, langs[j]);
    }
  }

  /** Why the colon-free condition is needed: the memo key of a text hashing
      to 5 in the language `question:hi` is row 5's per-field key for `hi`,
      so clearing row 5 deletes it. */
  lemma ClearingCanHitColonLanguageMemo()
    ensures TranslationKey(5, "question:hi") in ClearTranslationsKeys(Some(5), ["hi"])
  {
    var k := FieldKey(Some(5), "question", "hi");
    assert ClearTranslationsKeys(Some(5), ["hi"])[0] == k;
    assert TranslationKey(5, "question:hi") == k;
  }

  lemma FieldNamesColonFree()
    ensures ColonFree("question") && ColonFree("answer")
  {
  }

  /** A per-field key of a colon-free language is in the translation namespace
      and is no memo key. */
  lemma FieldKeyIsUnwritten(id: Option<nat>, field: string, l: string)
    requires ColonFree(field) && ColonFree(l)
    ensures NamespaceOf(FieldKey(id, field, l)) == TranslationNs
    ensures forall fingerprint: int, memoLang :: ColonFree(memoLang) ==> FieldKey(id, field, l) != TranslationKey(fingerprint, memoLang)
  {
    FieldKeyNamespace(id, field, l);
    forall fingerprint: int, memoLang | ColonFree(memoLang)
      ensures FieldKey(id, field, l) != TranslationKey(fingerprint, memoLang)
    {
      FieldKeyIsNoTranslationKey(id, field, l, fingerprint, memoLang);
    }
  }

  // ---------------------------------------------------------------------------
  // FAQAdmin.save_model

  /** `obj._get_cache_key("content", lang)` for each hard-coded language. */
  function AdminKeys(id: nat): (r: seq<string>)
    ensures |r| == |ADMIN_LANGUAGES|
    ensures forall i :: 0 <= i < |r| ==> r[i] == FieldKey(Some(id), "content", ADMIN_LANGUAGES[i])
  {
    FieldKeysFor(Some(id), "content", ADMIN_LANGUAGES)
  }

  /** The admin hook's three keys are `faq:translation:{id}:content:{lang}`: none
      of them is the `faq:content:{id}:{lang}` key the content cache writes, nor
      any translation memo key. */
  lemma AdminKeysMissContentKeys(id: nat)
    ensures forall k :: k in AdminKeys(id) ==> NamespaceOf(k) == TranslationNs
    ensures forall k, other: nat, lang :: k in AdminKeys(id) ==> k != ContentKey(other, lang)
    ensures forall k, fingerprint: int, memoLang :: k in AdminKeys(id) && ColonFree(memoLang) ==>
      k != TranslationKey(fingerprint, memoLang)
  {
    forall k | k in AdminKeys(id)
      ensures NamespaceOf(k) == TranslationNs
      ensures forall other: nat, lang :: k != ContentKey(other, lang)
      ensures forall fingerprint: int, memoLang :: ColonFree(memoLang) ==> k != TranslationKey(fingerprint, memoLang)
    {
      var i :| 0 <= i < |AdminKeys(id)| && AdminKeys(id)[i] == k;
      var l := ADMIN_LANGUAGES[i];
      assert ColonFree(l);
      FieldKeyNamespace(Some(id), "content", l);
      forall other: nat, lang
        ensures k != ContentKey(other, lang)
      {
        ContentKeyNamespace(other, lang);
      }
      forall fingerprint: int, memoLang | ColonFree(memoLang)
        ensures k != TranslationKey(fingerprint, memoLang)
      {
        FieldKeyIsNoTranslationKey(Some(id), "content", l, fingerprint, memoLang);
      }
    }
  }

  // ---------------------------------------------------------------------------
  // The corrected sets: the assembled-content keys of the item, per language

  function ContentKeysFor(pk: nat, langs: seq<string>): (r: seq<string>)
    ensures |r| == |langs|
    ensures forall i :: 0 <= i < |langs| ==> r[i] == ContentKey(pk, langs[i])
  {
    seq(|langs|, i requires 0 <= i < |langs| => ContentKey(pk, langs[i]))
  }
}

=== FILE: keys.dfy ===
/** Every cache key the application builds, and the facts that keep them apart.

    Two key builders exist side by side: the views' `get_cache_key` (list,
    list_data and detail keys) and the model's hand-written f-strings
    (translation memo keys, per-item content keys, and the per-field keys the
    model's and the admin's clearing code deletes). */
module CacheKeys {
  import opened Text
  import opened Wrappers

  const ROOT: string := "faq:"
  const LIST_PREFIX: string := ROOT + "list" + ":"
  const LIST_DATA_PREFIX: string := ROOT + "list_data" + ":"
  const DETAIL_PREFIX: string := ROOT + "detail" + ":"
  const CONTENT_PREFIX: string := ROOT + "content" + ":"
  const TRANSLATION_PREFIX: string := ROOT + "translation" + ":"

  /** Python truthiness of the `identifier` argument: `None` and `0` are false. */
  predicate Truthy(identifier: Option<int>) {
    identifier.Some? && identifier.value != 0
  }

  /** Number of ':' separators in a string. */
  function Colons(s: string): nat {
    multiset(s)[':']
  }

  /** `get_cache_key(prefix, identifier, lang)` of the views. */
  function GetCacheKey(prefix: string, identifier: Option<int>, lang: string): (k: string)
    ensures StartsWith(k, ROOT)
  {
    var tail := if Truthy(identifier) then IntToString(identifier.value) + (":" + lang) else lang;
    StartsWithConcat(ROOT, prefix + (":" + tail));
    ROOT + (prefix + (":" + tail))
  }

  /** A key with an identifier has one more colon-separated segment than one without. */
  lemma GetCacheKeyColons(prefix: string, identifier: Option<int>, lang: string)
    ensures Colons(GetCacheKey(prefix, identifier, lang)) == Colons(prefix) + Colons(lang) + (if Truthy(identifier) then 3 else 2)
  {
    if Truthy(identifier) {
      assert ':' !in IntToString(identifier.value);
    }
  }

  /** `get_cache_key("list", lang=lang)`: `faq:list:{lang}`. */
  function ListKey(lang: string): (k: string)
    ensures k == LIST_PREFIX + lang
    ensures NamespaceOf(k) == ListNs
  {
    var k := GetCacheKey("list", None, lang);
    Assoc(ROOT + "list", ":", lang);
    Assoc(ROOT, "list", ":" + lang);
    StartsWithConcat(LIST_PREFIX, lang);
    PrefixesClash(k, LIST_PREFIX, CONTENT_PREFIX, 4);
    PrefixesClash(k, LIST_PREFIX, TRANSLATION_PREFIX, 4);
    PrefixesClash(k, LIST_PREFIX, LIST_DATA_PREFIX, 8);
    k
  }

  /** `get_cache_key("list_data", lang=lang)`: `faq:list_data:{lang}`. */
  function ListDataKey(lang: string): (k: string)
    ensures k == LIST_DATA_PREFIX + lang
    ensures NamespaceOf(k) == ListDataNs
  {
    var k := GetCacheKey("list_data", None, lang);
    Assoc(ROOT + "list_data", ":", lang);
    Assoc(ROOT, "list_data", ":" + lang);
    StartsWithConcat(LIST_DATA_PREFIX, lang);
    PrefixesClash(k, LIST_DATA_PREFIX, CONTENT_PREFIX, 4);
    PrefixesClash(k, LIST_DATA_PREFIX, TRANSLATION_PREFIX, 4);
    k
  }

  /** `get_cache_key("detail", pk, lang)`: `faq:detail:{pk}:{lang}`, or
      `faq:detail:{lang}` for the falsy pk 0. */
  function DetailKey(pk: nat, lang: string): (k: string)
    ensures pk != 0 ==> k == DETAIL_PREFIX + (NatToString(pk) + (":" + lang))
    ensures pk == 0 ==> k == DETAIL_PREFIX + lang
    ensures NamespaceOf(k) == DetailNs
  {
    var k := GetCacheKey("detail", Some(pk), lang);
    var tail := if pk != 0 then NatToString(pk) + (":" + lang) else lang;
    Assoc(ROOT + "detail", ":", tail);
    Assoc(ROOT, "detail", ":" + tail);
    StartsWithConcat(DETAIL_PREFIX, tail);
    PrefixesClash(k, DETAIL_PREFIX, CONTENT_PREFIX, 4);
    PrefixesClash(k, DETAIL_PREFIX, TRANSLATION_PREFIX, 4);
    PrefixesClash(k, DETAIL_PREFIX, LIST_DATA_PREFIX, 4);
    PrefixesClash(k, DETAIL_PREFIX, LIST_PREFIX, 4);
    k
  }

  /** The key `get_faqs_with_translations` writes by hand: `f"faq:list_data:{lang}"`. */
  function ListDataReaderKey(lang: string): (k: string)
    ensures NamespaceOf(k) == ListDataNs
  {
    assert LIST_DATA_PREFIX + lang == ListDataKey(lang);
    LIST_DATA_PREFIX + lang
  }

  /** Python's rendering of `self.id`: the number, or `None` before the first save. */
  function IdText(id: Option<nat>): (s: string)
    ensures ColonFree(s)
  {
    match id
    case Some(n) => DigitsAreColonFree(n); NatToString(n)
    case None => "None"
  }

  /** `FAQ._get_cache_key(field, lang)`: `faq:translation:{id}:{field}:{lang}`. */
  function FieldKey(id: Option<nat>, field: string, lang: string): string {
    TRANSLATION_PREFIX + (IdText(id) + (":" + (field + (":" + lang))))
  }

  /** The translation memo key `faq:translation:{hash(text)}:{lang}`. */
  function TranslationKey(fingerprint: int, lang: string): string {
    TRANSLATION_PREFIX + (IntToString(fingerprint) + (":" + lang))
  }

  /** The assembled-content key `faq:content:{id}:{lang}`. */
  function ContentKey(id: nat, lang: string): string {
    CONTENT_PREFIX + (NatToString(id) + (":" + lang))
  }

  /** The hand-built key of the list_data reader is the key every invalidator
      computes through `get_cache_key`, for every language. */
  lemma ReaderAndInvalidatorsAgree(lang: string)
    ensures ListDataReaderKey(lang) == GetCacheKey("list_data", None, lang)
  {
  }

  /** `get_cache_key` with a truthy identifier never collides with one without,
      and is injective, as long as prefix and language hold no colon. */
  lemma GetCacheKeyInjective(p1: string, i1: Option<int>, l1: string, p2: string, i2: Option<int>, l2: string)
    requires ColonFree(p1) && ColonFree(l1) && ColonFree(p2) && ColonFree(l2)
    requires GetCacheKey(p1, i1, l1) == GetCacheKey(p2, i2, l2)
    ensures Truthy(i1) == Truthy(i2)
    ensures p1 == p2 && l1 == l2
    ensures Truthy(i1) ==> i1 == i2
  {
    assert multiset(p1)[':'] == 0 && multiset(l1)[':'] == 0 by {
      assert ':' !in p1 && ':' !in l1;
    }
    assert multiset(p2)[':'] == 0 && multiset(l2)[':'] == 0 by {
      assert ':' !in p2 && ':' !in l2;
    }
    GetCacheKeyColons(p1, i1, l1);
    GetCacheKeyColons(p2, i2, l2);
    assert Truthy(i1) == Truthy(i2);
    if Truthy(i1) {
      var n1, n2 := IntToString(i1.value), IntToString(i2.value);
      AfterPrefix(ROOT, p1 + (":" + (n1 + (":" + l1))), p2 + (":" + (n2 + (":" + l2))));
      SplitAtColon(p1, n1 + (":" + l1), p2, n2 + (":" + l2));
      SplitAtColon(n1, l1, n2, l2);
      IntToStringInjective(i1.value, i2.value);
    } else {
      AfterPrefix(ROOT, p1 + (":" + l1), p2 + (":" + l2));
      SplitAtColon(p1, l1, p2, l2);
    }
  }

  /** A content key determines its item id and language (the id is decimal,
      so the first colon after the prefix ends it; the language is free). */
  lemma ContentKeyInjective(id1: nat, l1: string, id2: nat, l2: string)
    requires ContentKey(id1, l1) == ContentKey(id2, l2)
    ensures id1 == id2 && l1 == l2
  {
    DigitsAreColonFree(id1);
    DigitsAreColonFree(id2);
    AfterPrefix(CONTENT_PREFIX, NatToString(id1) + (":" + l1), NatToString(id2) + (":" + l2));
    SplitAtColon(NatToString(id1), l1, NatToString(id2), l2);
    NatToStringInjective(id1, id2);
  }

  lemma TranslationKeyInjective(f1: int, l1: string, f2: int, l2: string)
    requires TranslationKey(f1, l1) == TranslationKey(f2, l2)
    ensures f1 == f2 && l1 == l2
  {
    AfterPrefix(TRANSLATION_PREFIX, IntToString(f1) + (":" + l1), IntToString(f2) + (":" + l2));
    SplitAtColon(IntToString(f1), l1, IntToString(f2), l2);
    IntToStringInjective(f1, f2);
  }

  /** The per-field keys the model's clearing code deletes can never be a
      translation memo key for a colon-free language: they carry one more
      colon-separated segment. So the clearing never reaches a key that the
      memo writes. */
  lemma FieldKeyIsNoTranslationKey(id: Option<nat>, field: string, lang: string, fingerprint: int, memoLang: string)
    requires ColonFree(field) && ColonFree(lang) && ColonFree(memoLang)
    ensures FieldKey(id, field, lang) != TranslationKey(fingerprint, memoLang)
  {
    if FieldKey(id, field, lang) == TranslationKey(fingerprint, memoLang) {
      var t := IdText(id);
      AfterPrefix(TRANSLATION_PREFIX, t + (":" + (field + (":" + lang))), IntToString(fingerprint) + (":" + memoLang));
      SplitAtColon(t, field + (":" + lang), IntToString(fingerprint), memoLang);
      ColonPosition(field, lang, |field|);
      assert false;
    }
  }

  // ---------------------------------------------------------------------------
  // Namespaces: the prefix of a key says which shape of value lives under it.

  datatype Namespace = ContentNs | TranslationNs | ListDataNs | ListNs | DetailNs | OtherNs

  function NamespaceOf(k: string): Namespace {
    if StartsWith(k, CONTENT_PREFIX) then ContentNs
    else if StartsWith(k, TRANSLATION_PREFIX) then TranslationNs
    else if StartsWith(k, LIST_DATA_PREFIX) then ListDataNs
    else if StartsWith(k, LIST_PREFIX) then ListNs
    else if StartsWith(k, DETAIL_PREFIX) then DetailNs
    else OtherNs
  }

  /** A string cannot start with two prefixes that disagree at a shared position. */
  lemma PrefixesClash(s: string, p: string, q: string, i: nat)
    requires StartsWith(s, p) && i < |p| && i < |q| && p[i] != q[i]
    ensures !StartsWith(s, q)
  {
    assert s[i] == p[i];
  }

  lemma ContentKeyNamespace(id: nat, lang: string)
    ensures NamespaceOf(ContentKey(id, lang)) == ContentNs
  {
    StartsWithConcat(CONTENT_PREFIX, NatToString(id) + (":" + lang));
  }

  lemma TranslationKeyNamespace(fingerprint: int, lang: string)
    ensures NamespaceOf(TranslationKey(fingerprint, lang)) == TranslationNs
  {
    var k := TranslationKey(fingerprint, lang);
    StartsWithConcat(TRANSLATION_PREFIX, IntToString(fingerprint) + (":" + lang));
    PrefixesClash(k, TRANSLATION_PREFIX, CONTENT_PREFIX, 4);
  }

  lemma FieldKeyNamespace(id: Option<nat>, field: string, lang: string)
    ensures NamespaceOf(FieldKey(id, field, lang)) == TranslationNs
  {
    var k := FieldKey(id, field, lang);
    StartsWithConcat(TRANSLATION_PREFIX, IdText(id) + (":" + (field + (":" + lang))));
    PrefixesClash(k, TRANSLATION_PREFIX, CONTENT_PREFIX, 4);
  }

  /** Every namespaced key lies under the application's root prefix, so a sweep
      of `faq:*` reaches every namespace. */
  lemma NamespacedKeysAreRooted(k: string)
    requires NamespaceOf(k) != OtherNs
    ensures StartsWith(k, ROOT)
  {
    var p := match NamespaceOf(k)
      case ContentNs => CONTENT_PREFIX
      case TranslationNs => TRANSLATION_PREFIX
      case ListDataNs => LIST_DATA_PREFIX
      case ListNs => LIST_PREFIX
      case _ => DETAIL_PREFIX;
    assert StartsWith(k, p);
    assert k[..|ROOT|] == p[..|ROOT|];
  }
}

=== FILE: mutations.dfy ===
/** The write paths: the model's own `save`/`delete` hooks (models.py:111-119),
    the HTML views `faq_create`, `faq_edit`, `faq_delete` (views.py:175-317),
    the API's `create`, `update`, `destroy`, `bulk_create` under the
    `clear_faq_cache` decorator (views.py:26-37, 90-136), and the admin hook
    `save_model` (admin.py:62-69).

    Each operation returns the sequence of primitive steps it performs, in
    order; `Run` interprets a sequence against a table and a cache. Statements
    about order are then facts about positions in that sequence. */
module Mutations {
  import opened Wrappers
  import opened Text
  import opened CacheKeys
  import opened Cache
  import opened Settings
  import opened Store
  import opened Translation
  import opened ReadViews
  import opened Invalidation

  datatype State = State(store: Store, cache: Cache)

  /** A table with unique ids and a cache whose entries have their namespace's shape. */
  predicate Ok(st: State) {
    Valid(st.store) && WellTyped(st.cache)
  }

  /** The primitive effects a request can have. */
  datatype Step =
    | DeleteKeys(keys: seq<string>)                                // cache.delete_many
    | DeleteKey(key: string)                                       // cache.delete
    | SweepRoot                                                    // delete_many(keys("faq:*"))
    | ShowPreview(id: nat)                                         // translation preview of a row
    | Insert(question: string, answer: string, now: int)           // INSERT
    | Save(id: nat, question: string, answer: string, now: int)    // UPDATE
    | Drop(id: nat)                                                // DELETE

  predicate TouchesTable(step: Step) {
    step.Insert? || step.Save? || step.Drop?
  }

  function Apply(st: State, o: Oracle, step: Step): (r: State)
    requires Ok(st)
    ensures Ok(r)
    ensures TouchesTable(step) ==> r.cache == st.cache
    ensures !TouchesTable(step) ==> r.store == st.store
  {
    match step
    case DeleteKeys(keys) => State(st.store, DeleteMany(st.cache, keys))
    case DeleteKey(k) => State(st.store, Delete(st.cache, k))
    case SweepRoot => State(st.store, Sweep(st.cache))
    case ShowPreview(id) =>
      (match Lookup(st.store, id)
       case None => st
       case Some(f) => State(st.store, TranslationsPreview(st.cache, o, f, LANGUAGES).cache))
    case Insert(q, a, now) => State(Add(st.store, q, a, now), st.cache)
    case Save(id, q, a, now) => State(Update(st.store, id, q, a, now), st.cache)
    case Drop(id) => State(Remove(st.store, id), st.cache)
  }

  function Run(st: State, o: Oracle, steps: seq<Step>): (r: State)
    requires Ok(st)
    ensures Ok(r)
    decreases |steps|
  {
    if steps == [] then st else Run(Apply(st, o, steps[0]), o, steps[1..])
  }

  lemma {:induction false} RunConcat(st: State, o: Oracle, a: seq<Step>, b: seq<Step>)
    requires Ok(st)
    ensures Run(st, o, a + b) == Run(Run(st, o, a), o, b)
    decreases |a|
  {
    if a == [] {
      assert a + b == b;
    } else {
      assert (a + b)[0] == a[0];
      assert (a + b)[1..] == a[1..] + b;
      assert Run(st, o, a + b) == Run(Apply(st, o, a[0]), o, a[1..] + b);
      RunConcat(Apply(st, o, a[0]), o, a[1..], b);
    }
  }

  lemma RunOne(st: State, o: Oracle, a: Step)
    requires Ok(st)
    ensures Run(st, o, [a]) == Apply(st, o, a)
  {
    assert [a][1..] == [];
  }

  lemma RunTwo(st: State, o: Oracle, a: Step, b: Step)
    requires Ok(st)
    ensures Run(st, o, [a, b]) == Apply(Apply(st, o, a), o, b)
  {
    assert [a, b][1..] == [b];
    RunOne(Apply(st, o, a), o, b);
  }

  lemma RunThree(st: State, o: Oracle, a: Step, b: Step, c: Step)
    requires Ok(st)
    ensures Run(st, o, [a, b, c]) == Apply(Apply(Apply(st, o, a), o, b), o, c)
  {
    assert [a, b, c][1..] == [b, c];
    RunTwo(Apply(st, o, a), o, b, c);
  }

  /** Deleting keys around one write to the table: the write sees the table
      as it was, and the cache loses both key lists. */
  lemma RunAroundWrite(st: State, o: Oracle, clear: seq<string>, w: Step, keys: seq<string>)
    requires Ok(st) && TouchesTable(w)
    ensures Run(st, o, [DeleteKeys(clear), w, DeleteKeys(keys)]).store == Apply(st, o, w).store
    ensures Run(st, o, [DeleteKeys(clear), w, DeleteKeys(keys)]).cache == DeleteMany(DeleteMany(st.cache, clear), keys)
  {
    RunThree(st, o, DeleteKeys(clear), w, DeleteKeys(keys));
    var s1 := Apply(st, o, DeleteKeys(clear));
    assert s1.store == st.store;
    assert Apply(s1, o, w).store == Apply(st, o, w).store;
  }

  /** What each write does to the table. */
  lemma ApplyWrite(st: State, o: Oracle, w: Step)
    requires Ok(st) && TouchesTable(w)
    ensures w.Insert? ==> Apply(st, o, w).store == Add(st.store, w.question, w.answer, w.now)
    ensures w.Save? ==> Apply(st, o, w).store == Update(st.store, w.id, w.question, w.answer, w.now)
    ensures w.Drop? ==> Apply(st, o, w).store == Remove(st.store, w.id)
  {
  }

  /** What the preview does: nothing for a missing row, otherwise only the
      cache changes, as the row's translation preview leaves it. */
  lemma ApplyPreview(st: State, o: Oracle, pk: nat)
    requires Ok(st)
    ensures Lookup(st.store, pk).None? ==> Apply(st, o, ShowPreview(pk)) == st
    ensures Lookup(st.store, pk).Some? ==>
      Apply(st, o, ShowPreview(pk)) == State(st.store, TranslationsPreview(st.cache, o, Lookup(st.store, pk).value, LANGUAGES).cache)
  {
    match Lookup(st.store, pk)
    case None =>
    case Some(f) =>
  }

  // ---------------------------------------------------------------------------
  // The model's hooks

  /** `FAQ.save()`: the per-field keys are cleared first — under the id the
      object has at that moment, `None` for an unsaved one — then the row is
      written. */
  function ModelSave(target: Option<nat>, question: string, answer: string, now: int): (r: seq<Step>)
    ensures |r| == 2 && r[0] == DeleteKeys(ClearTranslationsKeys(target, LANGUAGES))
    ensures target.None? ==> r[1] == Insert(question, answer, now)
    ensures target.Some? ==> r[1] == Save(target.value, question, answer, now)
  {
    var write := match target
      case None => Insert(question, answer, now)
      case Some(id) => Save(id, question, answer, now);
    [DeleteKeys(ClearTranslationsKeys(target, LANGUAGES)), write]
  }

  /** `FAQ.delete()`: clear the per-field keys, then delete the row. */
  function ModelDelete(id: nat): (r: seq<Step>)
    ensures |r| == 2 && !TouchesTable(r[0]) && r[1] == Drop(id)
  {
    [DeleteKeys(ClearTranslationsKeys(Some(id), LANGUAGES)), Drop(id)]
  }

  /** A save changes the table exactly as the row write does; the clearing
      before it only removes the row's per-field keys from the cache. */
  lemma ModelSaveEffect(st: State, o: Oracle, target: Option<nat>, question: string, answer: string, now: int)
    requires Ok(st)
    ensures var r := Run(st, o, ModelSave(target, question, answer, now));
      && r.cache == DeleteMany(st.cache, ClearTranslationsKeys(target, LANGUAGES))
      && r.store == match target
           case None => Add(st.store, question, answer, now)
           case Some(id) => Update(st.store, id, question, answer, now)
  {
    var m := ModelSave(target, question, answer, now);
    assert m == [m[0], m[1]];
    RunTwo(st, o, m[0], m[1]);
    var s1 := Apply(st, o, m[0]);
    assert s1 == State(st.store, DeleteMany(st.cache, ClearTranslationsKeys(target, LANGUAGES)));
    ApplyWrite(s1, o, m[1]);
  }

  /** A delete removes the row and, before that, the row's per-field keys. */
  lemma ModelDeleteEffect(st: State, o: Oracle, id: nat)
    requires Ok(st)
    ensures Run(st, o, ModelDelete(id))
      == State(Remove(st.store, id), DeleteMany(st.cache, ClearTranslationsKeys(Some(id), LANGUAGES)))
  {
    var m := ModelDelete(id);
    assert m == [m[0], m[1]];
    RunTwo(st, o, m[0], m[1]);
  }

  /** `if cache_keys: cache.delete_many(cache_keys)`. */
  function DeleteIfAny(keys: seq<string>): (r: seq<Step>)
    ensures keys == [] <==> r == []
    ensures keys != [] ==> r == [DeleteKeys(keys)]
  {
    if keys != [] then [DeleteKeys(keys)] else []
  }

  // ---------------------------------------------------------------------------
  // HTML views

  /** The cleaned data of a valid `FAQForm`. */
  datatype Submission = Submission(question: string, answer: string)

  /** A GET, or a POST whose form validated to a submission (or did not). */
  datatype Request = Get | Post(form: Option<Submission>)

  datatype Page = Redirect | RenderForm | NotFound404

  datatype Outcome<P> = Outcome(page: P, steps: seq<Step>)

  function FaqCreate(req: Request, now: int): (r: Outcome<Page>)
    ensures req.Post? && req.form.Some? ==>
      r == Outcome(Redirect, ModelSave(None, req.form.value.question, req.form.value.answer, now)
                              + DeleteIfAny(CreateKeys(LANGUAGES)))
    ensures !(req.Post? && req.form.Some?) ==> r == Outcome(RenderForm, [])
  {
    match req
    case Post(Some(sub)) =>
      Outcome(Redirect, ModelSave(None, sub.question, sub.answer, now) + DeleteIfAny(CreateKeys(LANGUAGES)))
    case _ => Outcome(RenderForm, [])
  }

  /** `faq_edit` with the invalidation set chosen by `keys`: the source's set
      is `EditKeys(LANGUAGES, pk)`. A GET, or a POST that does not validate,
      renders the form with the translation preview. */
  function EditWith(s: Store, pk: nat, req: Request, now: int, keys: seq<string>): (r: Outcome<Page>)
    ensures Lookup(s, pk).None? ==> r == Outcome(NotFound404, [])
    ensures Lookup(s, pk).Some? && req.Post? && req.form.Some? ==>
      r == Outcome(Redirect, ModelSave(Some(pk), req.form.value.question, req.form.value.answer, now) + DeleteIfAny(keys))
    ensures Lookup(s, pk).Some? && !(req.Post? && req.form.Some?) ==> r == Outcome(RenderForm, [ShowPreview(pk)])
  {
    if Lookup(s, pk).None? then Outcome(NotFound404, [])
    else match req
      case Post(Some(sub)) =>
        Outcome(Redirect, ModelSave(Some(pk), sub.question, sub.answer, now) + DeleteIfAny(keys))
      case _ => Outcome(RenderForm, [ShowPreview(pk)])
  }

  /** `faq_edit` as written. */
  function FaqEdit(s: Store, pk: nat, req: Request, now: int): (r: Outcome<Page>)
    ensures Lookup(s, pk).None? ==> r == Outcome(NotFound404, [])
    // a valid POST saves, then deletes the list, list_data and detail keys of
    // every configured language in one call — and nothing else
    ensures Lookup(s, pk).Some? && req.Post? && req.form.Some? ==>
      r == Outcome(Redirect, ModelSave(Some(pk), req.form.value.question, req.form.value.answer, now)
                             + [DeleteKeys(EditKeys(LANGUAGES, pk))])
    ensures Lookup(s, pk).Some? && !(req.Post? && req.form.Some?) ==> r == Outcome(RenderForm, [ShowPreview(pk)])
  {
    EditKeysNonEmpty(LANGUAGES, pk);
    EditWith(s, pk, req, now, EditKeys(LANGUAGES, pk))
  }

  lemma DeleteThenModelDelete(keys: seq<string>, pk: nat)
    requires keys != []
    ensures var steps := DeleteIfAny(keys) + ModelDelete(pk);
      && |steps| == 3 && steps[0] == DeleteKeys(keys) && steps[2] == Drop(pk)
      && (forall i :: 0 <= i < 2 ==> !TouchesTable(steps[i]))
  {
  }

  /** `faq_delete`: the list and detail keys are deleted before the row. */
  function FaqDelete(s: Store, pk: nat, post: bool): (r: Outcome<Page>)
    ensures Lookup(s, pk).None? ==> r == Outcome(NotFound404, [])
    ensures Lookup(s, pk).Some? && post ==>
      && r.page == Redirect && |r.steps| == 3 && r.steps[2] == Drop(pk)
      && (forall i :: 0 <= i < 2 ==> !TouchesTable(r.steps[i]))
      && r.steps[0] == DeleteKeys(EditKeys(LANGUAGES, pk))
    ensures Lookup(s, pk).Some? && !post ==> r == Outcome(RenderForm, [ShowPreview(pk)])
  {
    if Lookup(s, pk).None? then Outcome(NotFound404, [])
    else if post then
      var keys := EditKeys(LANGUAGES, pk);
      EditKeysNonEmpty(LANGUAGES, pk);
      DeleteThenModelDelete(keys, pk);
      Outcome(Redirect, DeleteIfAny(keys) + ModelDelete(pk))
    else Outcome(RenderForm, [ShowPreview(pk)])
  }

  // ---------------------------------------------------------------------------
  // The admin hook

  /** One `cache.delete` per key, in order. */
  function DeleteEach(keys: seq<string>): (r: seq<Step>)
    ensures |r| == |keys|
    ensures forall i :: 0 <= i < |keys| ==> r[i] == DeleteKey(keys[i])
  {
    seq(|keys|, i requires 0 <= i < |keys| => DeleteKey(keys[i]))
  }

  /** The id the saved object has after `super().save_model`: its own, or the
      next auto-increment id for a new one. */
  function SavedId(s: Store, target: Option<nat>): nat {
    match target
    case Some(id) => id
    case None => s.nextId
  }

  /** `FAQAdmin.save_model` with the keys deleted afterwards chosen by `keys`
      (a function of the saved id). */
  function AdminSaveWith(s: Store, target: Option<nat>, question: string, answer: string, now: int,
                         keys: nat -> seq<string>): (r: seq<Step>)
    ensures |r| == 2 + |keys(SavedId(s, target))| && r[..2] == ModelSave(target, question, answer, now)
    ensures forall i :: 2 <= i < |r| ==> r[i] == DeleteKey(keys(SavedId(s, target))[i - 2])
  {
    ModelSave(target, question, answer, now) + DeleteEach(keys(SavedId(s, target)))
  }

  /** `FAQAdmin.save_model` as written: `obj._get_cache_key("content", lang)`. */
  function AdminSaveModel(s: Store, target: Option<nat>, question: string, answer: string, now: int): (r: seq<Step>)
    ensures |r| == 2 + |ADMIN_LANGUAGES| && r[..2] == ModelSave(target, question, answer, now)
    // then one delete per admin language of `faq:translation:{id}:content:{lang}`
    // for the id the row was saved under
    ensures forall i :: 0 <= i < |ADMIN_LANGUAGES| ==>
      r[2 + i] == DeleteKey(FieldKey(Some(SavedId(s, target)), "content", ADMIN_LANGUAGES[i]))
  {
    AdminSaveWith(s, target, question, answer, now, AdminKeys)
  }

  // ---------------------------------------------------------------------------
  // The API, under clear_faq_cache

  datatype Status = Created | Updated | NoContent | BadRequest

  /** A view either returns a response or raises (`get_object_or_404`). */
  datatype Call = Returned(status: Status) | Raised404

  /** Fields of a (possibly partial) update; an absent field keeps its value. */
  datatype Patch = Patch(question: Option<string>, answer: Option<string>)

  /** `clear_faq_cache`: the sweep runs only after the view returned; an
      exception escapes before it, leaving the cache as the view left it. */
  function ClearFaqCache(call: Outcome<Call>): (r: Outcome<Call>)
    ensures r.page == call.page
    ensures call.page.Returned? ==> r.steps == call.steps + [SweepRoot]
    ensures call.page.Raised404? ==> r.steps == call.steps
  {
    if call.page.Returned? then Outcome(call.page, call.steps + [SweepRoot]) else call
  }

  function ApiCreate(data: Option<Submission>, now: int): (r: Outcome<Call>)
    ensures data.None? ==> r == Outcome(Returned(BadRequest), [])
    ensures data.Some? ==> r == Outcome(Returned(Created), ModelSave(None, data.value.question, data.value.answer, now))
  {
    match data
    case None => Outcome(Returned(BadRequest), [])
    case Some(sub) => Outcome(Returned(Created), ModelSave(None, sub.question, sub.answer, now))
  }

  function ApiUpdate(s: Store, pk: nat, data: Option<Patch>, now: int): (r: Outcome<Call>)
    ensures Lookup(s, pk).None? ==> r == Outcome(Raised404, [])
    ensures Lookup(s, pk).Some? && data.None? ==> r == Outcome(Returned(BadRequest), [])
    ensures Lookup(s, pk).Some? && data.Some? ==>
      var f := Lookup(s, pk).value;
      r == Outcome(Returned(Updated), ModelSave(Some(pk), data.value.question.GetOr(f.question),
                                                 data.value.answer.GetOr(f.answer), now))
  {
    match Lookup(s, pk)
    case None => Outcome(Raised404, [])
    case Some(f) =>
      match data
      case None => Outcome(Returned(BadRequest), [])
      case Some(p) => Outcome(Returned(Updated), ModelSave(Some(pk), p.question.GetOr(f.question), p.answer.GetOr(f.answer), now))
  }

  function ApiDestroy(s: Store, pk: nat): (r: Outcome<Call>)
    ensures Lookup(s, pk).None? ==> r == Outcome(Raised404, [])
    ensures Lookup(s, pk).Some? ==> r == Outcome(Returned(NoContent), ModelDelete(pk))
  {
    if Lookup(s, pk).None? then Outcome(Raised404, []) else Outcome(Returned(NoContent), ModelDelete(pk))
  }

  /** One model save per item, in the order given. Each save reads the clock
      again (`auto_now_add` / `auto_now`): `nows[i]` is the reading item i's
      save takes. */
  function SaveAll(items: seq<Submission>, nows: seq<int>): (r: seq<Step>)
    requires |nows| == |items|
    ensures |r| == 2 * |items|
    // item i is cleared under the unsaved id and then inserted at its own reading
    ensures forall i :: 0 <= i < |items| ==>
      && r[2 * i] == DeleteKeys(ClearTranslationsKeys(None, LANGUAGES))
      && r[2 * i + 1] == Insert(items[i].question, items[i].answer, nows[i])
  {
    if items == [] then []
    else
      var head := ModelSave(None, items[0].question, items[0].answer, nows[0]);
      var tail := SaveAll(items[1..], nows[1..]);
      ConsSaves(items, nows, DeleteKeys(ClearTranslationsKeys(None, LANGUAGES)), head, tail);
      head + tail
  }

  /** The head item's two steps in front of the tail items' steps line up
      with the whole list of items. */
  lemma ConsSaves(items: seq<Submission>, nows: seq<int>, clear: Step, head: seq<Step>, tail: seq<Step>)
    requires items != [] && |nows| == |items| && |tail| == 2 * (|items| - 1)
    requires head == [clear, Insert(items[0].question, items[0].answer, nows[0])]
    requires forall i :: 0 <= i < |items| - 1 ==>
      tail[2 * i] == clear && tail[2 * i + 1] == Insert(items[1..][i].question, items[1..][i].answer, nows[1..][i])
    ensures forall i :: 0 <= i < |items| ==>
      (head + tail)[2 * i] == clear && (head + tail)[2 * i + 1] == Insert(items[i].question, items[i].answer, nows[i])
  {
    forall i | 0 < i < |items|
      ensures (head + tail)[2 * i] == clear
      ensures (head + tail)[2 * i + 1] == Insert(items[i].question, items[i].answer, nows[i])
    {
      var j := i - 1;
      assert tail[2 * j] == clear && tail[2 * j + 1] == Insert(items[1..][j].question, items[1..][j].answer, nows[1..][j]);
      assert items[1..][j] == items[i] && nows[1..][j] == nows[i];
    }
  }

  /** `r` is `s` with one new row per item, in order, under consecutive ids
      from the counter up, each stamped with its own clock reading, every
      other row as it was. */
  predicate InsertedInOrder(s: Store, r: Store, items: seq<Submission>, nows: seq<int>)
    requires |nows| == |items|
  {
    && r.nextId == s.nextId + |items|
    && (forall i :: 0 <= i < |items| ==>
          Lookup(r, s.nextId + i) == Some(Faq(s.nextId + i, items[i].question, items[i].answer, nows[i], nows[i])))
    && (forall id: nat :: id < s.nextId ==> Lookup(r, id) == Lookup(s, id))
  }

  /** Bulk creation inserts one row per item, in order, with consecutive ids
      from the counter up and the clock reading of its own save, and leaves
      the existing rows as they were. */
  lemma {:induction false} SaveAllEffect(st: State, o: Oracle, items: seq<Submission>, nows: seq<int>)
    requires Ok(st) && |nows| == |items|
    ensures InsertedInOrder(st.store, Run(st, o, SaveAll(items, nows)).store, items, nows)
    decreases |items|
  {
    if items != [] {
      var s1 := Run(st, o, ModelSave(None, items[0].question, items[0].answer, nows[0]));
      SaveAllUnfold(st, o, items, nows);
      SaveAllEffect(s1, o, items[1..], nows[1..]);
      InsertedInOrderCons(st.store, s1.store, Run(s1, o, SaveAll(items[1..], nows[1..])).store, items, nows);
    }
  }

  /** Running the steps of a bulk creation is saving the first item and then
      running the steps for the rest. */
  lemma SaveAllUnfold(st: State, o: Oracle, items: seq<Submission>, nows: seq<int>)
    requires Ok(st) && items != [] && |nows| == |items|
    ensures var s1 := Run(st, o, ModelSave(None, items[0].question, items[0].answer, nows[0]));
      && s1.store == Add(st.store, items[0].question, items[0].answer, nows[0])
      && Run(st, o, SaveAll(items, nows)) == Run(s1, o, SaveAll(items[1..], nows[1..]))
  {
    var head := ModelSave(None, items[0].question, items[0].answer, nows[0]);
    RunConcat(st, o, head, SaveAll(items[1..], nows[1..]));
    ModelSaveEffect(st, o, None, items[0].question, items[0].answer, nows[0]);
  }

  /** Inserting the head item and then the rest in order is inserting them
      all in order. */
  lemma InsertedInOrderCons(s: Store, s1: Store, r: Store, items: seq<Submission>, nows: seq<int>)
    requires Valid(s) && items != [] && |nows| == |items|
    requires s1 == Add(s, items[0].question, items[0].answer, nows[0])
    requires InsertedInOrder(s1, r, items[1..], nows[1..])
    ensures InsertedInOrder(s, r, items, nows)
  {
    forall i | 0 <= i < |items|
      ensures Lookup(r, s.nextId + i) == Some(Faq(s.nextId + i, items[i].question, items[i].answer, nows[i], nows[i]))
    {
      InsertedAt(s, s1, r, items, nows, i);
    }
    forall id: nat | id < s.nextId
      ensures Lookup(r, id) == Lookup(s, id)
    {
      assert Lookup(r, id) == Lookup(s1, id);
    }
  }

  lemma InsertedAt(s: Store, s1: Store, r: Store, items: seq<Submission>, nows: seq<int>, i: nat)
    requires Valid(s) && i < |items| && |nows| == |items|
    requires s1 == Add(s, items[0].question, items[0].answer, nows[0])
    requires InsertedInOrder(s1, r, items[1..], nows[1..])
    ensures Lookup(r, s.nextId + i) == Some(Faq(s.nextId + i, items[i].question, items[i].answer, nows[i], nows[i]))
  {
    if i == 0 {
      assert Lookup(r, s.nextId) == Lookup(s1, s.nextId);
    } else {
      var j := i - 1;
      assert Lookup(r, s1.nextId + j)
        == Some(Faq(s1.nextId + j, items[1..][j].question, items[1..][j].answer, nows[1..][j], nows[1..][j]));
      assert items[1..][j] == items[i] && nows[1..][j] == nows[i];
    }
  }

  /** `bulk_create`: `nows` holds one clock reading per submitted item. */
  function ApiBulkCreate(data: Option<seq<Submission>>, nows: seq<int>): (r: Outcome<Call>)
    requires data.Some? ==> |nows| == |data.value|
    ensures data.None? ==> r == Outcome(Returned(BadRequest), [])
    ensures data.Some? ==> r == Outcome(Returned(Created), SaveAll(data.value, nows))
  {
    match data
    case None => Outcome(Returned(BadRequest), [])
    case Some(items) => Outcome(Returned(Created), SaveAll(items, nows))
  }
}

=== FILE: read_views.dfy ===
/** The three read-through caches of faqs/views.py: the API list (56-71), the
    API detail (73-88) and the server-rendered list payload
    `get_faqs_with_translations` (139-159), plus the translation preview the
    edit and delete pages render (243-249, 297-303). */
module ReadViews {
  import opened Wrappers
  import opened CacheKeys
  import opened Cache
  import opened Settings
  import opened Store
  import opened Translation
  import opened ItemContent

  /** The serializer: one opaque rendering of a row in a language. Its own
      module is not part of this model; it is taken to leave the cache alone. */
  type Serializer = (Faq, string) -> string

  function SerializeAll(rs: seq<Faq>, serialize: Serializer, lang: string): (r: seq<string>)
    ensures |r| == |rs|
    ensures forall i :: 0 <= i < |rs| ==> r[i] == serialize(rs[i], lang)
  {
    seq(|rs|, i requires 0 <= i < |rs| => serialize(rs[i], lang))
  }

  // ---------------------------------------------------------------------------
  // API list

  datatype ApiRead = ApiRead(data: seq<string>, cache: Cache)

  /** `FAQViewSet.list`: any cached value is answered as is; on a miss every row,
      newest first, is serialized and the list cached for an hour. */
  function ApiListView(c: Cache, s: Store, serialize: Serializer, lang: string): (r: ApiRead)
    requires WellTyped(c)
    ensures WellTyped(r.cache)
    ensures ListKey(lang) in c ==> r == ApiRead(c[ListKey(lang)].value.records, c)
    ensures ListKey(lang) !in c ==>
      && r.data == SerializeAll(Recent(s.records), serialize, lang)
      && r.cache == c[ListKey(lang) := CacheEntry(ApiList(r.data), CACHE_TIMEOUT)]
  {
    var key := ListKey(lang);
    if key in c then ApiRead(c[key].value.records, c)
    else
      var data := SerializeAll(Recent(s.records), serialize, lang);
      ApiRead(data, Set(c, key, ApiList(data), CACHE_TIMEOUT))
  }

  /** A cached list — even an empty one — is served without looking at the
      table: two different tables give the same answer. */
  lemma ApiListHitIgnoresStore(c: Cache, s1: Store, s2: Store, serialize: Serializer, lang: string)
    requires WellTyped(c) && ListKey(lang) in c
    ensures ApiListView(c, s1, serialize, lang) == ApiListView(c, s2, serialize, lang)
  {
  }

  /** Two list reads in a row return the same data; the second changes nothing. */
  lemma ApiListIsIdempotent(c: Cache, s: Store, serialize: Serializer, lang: string)
    requires WellTyped(c)
    ensures var r1 := ApiListView(c, s, serialize, lang);
      ApiListView(r1.cache, s, serialize, lang) == r1
  {
  }

  // ---------------------------------------------------------------------------
  // API detail

  datatype Detail = NotFound | Found(record: string)
  datatype DetailRead = DetailRead(detail: Detail, cache: Cache)

  /** `FAQViewSet.retrieve`: the row is looked up first (404 when absent), and
      only then is the detail cache consulted. */
  function ApiRetrieveView(c: Cache, s: Store, serialize: Serializer, pk: nat, lang: string): (r: DetailRead)
    requires WellTyped(c)
    ensures WellTyped(r.cache)
    ensures Lookup(s, pk).None? ==> r == DetailRead(NotFound, c)
    ensures Lookup(s, pk).Some? && DetailKey(pk, lang) in c ==>
      r == DetailRead(Found(c[DetailKey(pk, lang)].value.record), c)
    ensures Lookup(s, pk).Some? && DetailKey(pk, lang) !in c ==>
      && r.detail == Found(serialize(Lookup(s, pk).value, lang))
      && r.cache == c[DetailKey(pk, lang) := CacheEntry(ApiDetail(r.detail.record), CACHE_TIMEOUT)]
  {
    match Lookup(s, pk)
    case None => DetailRead(NotFound, c)
    case Some(f) =>
      var key := DetailKey(f.id, lang);
      if key in c then DetailRead(Found(c[key].value.record), c)
      else
        var data := serialize(f, lang);
        DetailRead(Found(data), Set(c, key, ApiDetail(data), CACHE_TIMEOUT))
  }

  /** An absent row is a 404 even when a detail entry for its id is still cached. */
  lemma RetrieveChecksStoreFirst(c: Cache, s: Store, serialize: Serializer, pk: nat, lang: string)
    requires WellTyped(c) && Lookup(s, pk).None?
    requires DetailKey(pk, lang) in c
    ensures ApiRetrieveView(c, s, serialize, pk, lang).detail == NotFound
  {
  }

  // ---------------------------------------------------------------------------
  // list_data: the payload the HTML list page renders

  datatype ListRead = ListRead(entries: seq<Listed>, cache: Cache, calls: nat)

  /** True when only content and translation entries differ between the caches. */
  ghost predicate OnlyItemKeysChanged(c: Cache, d: Cache) {
    forall k :: NamespaceOf(k) != ContentNs && NamespaceOf(k) != TranslationNs ==>
      (k in d <==> k in c) && (k in c ==> d[k] == c[k])
  }

  /** True when, besides `key`, only content and translation entries differ. */
  ghost predicate OnlyItemKeysChangedBesides(c: Cache, d: Cache, key: string) {
    forall k :: k != key && NamespaceOf(k) != ContentNs && NamespaceOf(k) != TranslationNs ==>
      (k in d <==> k in c) && (k in c ==> d[k] == c[k])
  }

  /** Writing one more key after item-only changes changes nothing else. */
  lemma SetKeepsOtherKeys(c: Cache, a: Cache, key: string, v: Value)
    requires WellTyped(a) && Fits(key, v) && OnlyItemKeysChanged(c, a)
    ensures OnlyItemKeysChangedBesides(c, Set(a, key, v, CACHE_TIMEOUT), key)
  {
  }

  /** `[{"id": faq.id, **faq.get_translated_content(lang)} for faq in faqs]`,
      evaluated left to right with the cache threaded through. */
  function AssembleEntries(c: Cache, o: Oracle, rs: seq<Faq>, lang: string): (r: ListRead)
    requires WellTyped(c)
    ensures WellTyped(r.cache)
    ensures |r.entries| == |rs|
    ensures forall i :: 0 <= i < |rs| ==> r.entries[i].id == rs[i].id
    ensures r.calls <= 2 * |rs|
    ensures OnlyItemKeysChanged(c, r.cache)
    ensures lang == BASE ==> r.cache == c && r.calls == 0
    ensures lang == BASE ==> forall i :: 0 <= i < |rs| ==> r.entries[i].content == Raw(rs[i])
    decreases |rs|
  {
    if rs == [] then ListRead([], c, 0)
    else
      var h := GetTranslatedContent(c, o, rs[0], lang);
      var t := AssembleEntries(h.cache, o, rs[1..], lang);
      ConsListed(Listed(rs[0].id, h.content), t.entries, rs, lang == BASE);
      ListRead([Listed(rs[0].id, h.content)] + t.entries, t.cache, h.calls + t.calls)
  }

  /** An entry for the head row in front of entries for the tail rows lines
      up with the whole list; when every entry is the raw row, so is the whole. */
  lemma ConsListed(e: Listed, es: seq<Listed>, rs: seq<Faq>, base: bool)
    requires rs != [] && |es| == |rs| - 1 && e.id == rs[0].id
    requires forall i :: 0 <= i < |es| ==> es[i].id == rs[1..][i].id
    requires base ==> e.content == Raw(rs[0]) && forall i :: 0 <= i < |es| ==> es[i].content == Raw(rs[1..][i])
    ensures forall i :: 0 <= i < |rs| ==> ([e] + es)[i].id == rs[i].id
    ensures base ==> forall i :: 0 <= i < |rs| ==> ([e] + es)[i].content == Raw(rs[i])
  {
    forall i | 0 < i < |rs|
      ensures ([e] + es)[i] == es[i - 1] && rs[i] == rs[1..][i - 1]
    {
    }
  }

  /** Entry i of the assembled list is what the row's own read returns against
      the cache the first i reads left behind: the reads happen one row at a
      time, in list order. */
  lemma {:induction false} AssembleEntriesContents(c: Cache, o: Oracle, rs: seq<Faq>, lang: string)
    requires WellTyped(c)
    ensures var r := AssembleEntries(c, o, rs, lang);
      forall i :: 0 <= i < |rs| ==>
        r.entries[i].content == GetTranslatedContent(AssembleEntries(c, o, rs[..i], lang).cache, o, rs[i], lang).content
  {
    forall i | 0 <= i < |rs|
      ensures AssembleEntries(c, o, rs, lang).entries[i].content ==
        GetTranslatedContent(AssembleEntries(c, o, rs[..i], lang).cache, o, rs[i], lang).content
    {
      AssembleEntryAt(c, o, rs, lang, i);
    }
  }

  lemma {:induction false} AssembleEntryAt(c: Cache, o: Oracle, rs: seq<Faq>, lang: string, i: nat)
    requires WellTyped(c) && i < |rs|
    ensures AssembleEntries(c, o, rs, lang).entries[i].content ==
      GetTranslatedContent(AssembleEntries(c, o, rs[..i], lang).cache, o, rs[i], lang).content
    decreases i
  {
    var h := GetTranslatedContent(c, o, rs[0], lang);
    AssembleUnfold(c, o, rs, lang);
    if i == 0 {
      assert rs[..0] == [];
    } else {
      AssembleEntryAt(h.cache, o, rs[1..], lang, i - 1);
      assert rs[1..][i - 1] == rs[i];
      AssemblePrefixCache(c, o, rs, lang, i);
    }
  }

  /** The head entry is the head row's read; the rest are the tail's entries
      assembled against the cache that read left behind. */
  lemma AssembleUnfold(c: Cache, o: Oracle, rs: seq<Faq>, lang: string)
    requires WellTyped(c) && rs != []
    ensures var h := GetTranslatedContent(c, o, rs[0], lang);
      var r := AssembleEntries(c, o, rs, lang);
      && r.entries[0].content == h.content
      && forall i :: 0 < i < |rs| ==> r.entries[i] == AssembleEntries(h.cache, o, rs[1..], lang).entries[i - 1]
  {
  }

  /** Assembling the first i rows is reading the head row and then
      assembling the next i - 1. */
  lemma AssemblePrefixCache(c: Cache, o: Oracle, rs: seq<Faq>, lang: string, i: nat)
    requires WellTyped(c) && 0 < i <= |rs|
    ensures AssembleEntries(c, o, rs[..i], lang).cache ==
      AssembleEntries(GetTranslatedContent(c, o, rs[0], lang).cache, o, rs[1..][..i - 1], lang).cache
  {
    assert rs[..i][0] == rs[0] && rs[..i][1..] == rs[1..][..i - 1];
  }

  /** `get_faqs_with_translations(lang)`. */
  function ListDataView(c: Cache, o: Oracle, s: Store, lang: string): (r: ListRead)
    requires WellTyped(c)
    ensures WellTyped(r.cache)
    // a cached payload — including an empty list — is served as stored
    ensures ListDataReaderKey(lang) in c ==>
      r == ListRead(c[ListDataReaderKey(lang)].value.entries, c, 0)
    // a miss lists every row newest first, each with its id and payload, and caches the list
    ensures ListDataReaderKey(lang) !in c ==>
      && |r.entries| == |s.records|
      && (forall i :: 0 <= i < |r.entries| ==> r.entries[i].id == Recent(s.records)[i].id)
      && ListDataReaderKey(lang) in r.cache
      && r.cache[ListDataReaderKey(lang)] == CacheEntry(Entries(r.entries), CACHE_TIMEOUT)
    // ... the payload of entry i is the row's read against the cache the
    // earlier rows' reads left behind ...
    ensures ListDataReaderKey(lang) !in c ==>
      var rs := Recent(s.records);
      forall i :: 0 <= i < |rs| ==>
        r.entries[i].content == GetTranslatedContent(AssembleEntries(c, o, rs[..i], lang).cache, o, rs[i], lang).content
    // ... and apart from that key only content and translation entries change
    ensures ListDataReaderKey(lang) !in c ==>
      OnlyItemKeysChangedBesides(c, r.cache, ListDataReaderKey(lang))
  {
    var key := ListDataReaderKey(lang);
    if key in c then ListRead(c[key].value.entries, c, 0)
    else StoreListData(c, o, Recent(s.records), lang)
  }

  /** The miss branch: assemble the rows and cache the payload for an hour. */
  function StoreListData(c: Cache, o: Oracle, rs: seq<Faq>, lang: string): (r: ListRead)
    requires WellTyped(c) && ListDataReaderKey(lang) !in c
    ensures WellTyped(r.cache)
    ensures |r.entries| == |rs|
    ensures forall i :: 0 <= i < |rs| ==> r.entries[i].id == rs[i].id
    ensures forall i :: 0 <= i < |rs| ==>
      r.entries[i].content == GetTranslatedContent(AssembleEntries(c, o, rs[..i], lang).cache, o, rs[i], lang).content
    ensures ListDataReaderKey(lang) in r.cache
    ensures r.cache[ListDataReaderKey(lang)] == CacheEntry(Entries(r.entries), CACHE_TIMEOUT)
    ensures OnlyItemKeysChangedBesides(c, r.cache, ListDataReaderKey(lang))
  {
    var key := ListDataReaderKey(lang);
    ReaderAndInvalidatorsAgree(lang);
    var a := AssembleEntries(c, o, rs, lang);
    var d := Set(a.cache, key, Entries(a.entries), CACHE_TIMEOUT);
    SetKeepsOtherKeys(c, a.cache, key, Entries(a.entries));
    assert forall i :: 0 <= i < |rs| ==>
      a.entries[i].content == GetTranslatedContent(AssembleEntries(c, o, rs[..i], lang).cache, o, rs[i], lang).content
    by {
      AssembleEntriesContents(c, o, rs, lang);
    }
    ListRead(a.entries, d, a.calls)
  }

  /** A cached payload is served without reading the table or the translator. */
  lemma ListDataHitIgnoresStore(c: Cache, o1: Oracle, o2: Oracle, s1: Store, s2: Store, lang: string)
    requires WellTyped(c) && ListDataReaderKey(lang) in c
    ensures ListDataView(c, o1, s1, lang) == ListDataView(c, o2, s2, lang)
  {
  }

  /** Two list_data reads in a row return identical payloads, and the second
      one writes nothing and calls no translator. */
  lemma ListDataIsIdempotent(c: Cache, o: Oracle, s: Store, lang: string)
    requires WellTyped(c)
    ensures var r1 := ListDataView(c, o, s, lang);
      ListDataView(r1.cache, o, s, lang) == ListRead(r1.entries, r1.cache, 0)
  {
  }

  /** In the base language a fresh list_data payload is the table itself,
      newest first, untranslated. */
  lemma BaseListDataIsTheTable(c: Cache, o: Oracle, s: Store)
    requires WellTyped(c) && ListDataReaderKey(BASE) !in c
    ensures var r := ListDataView(c, o, s, BASE);
      forall i :: 0 <= i < |r.entries| ==>
        r.entries[i] == Listed(Recent(s.records)[i].id, Raw(Recent(s.records)[i]))
  {
  }

  // ---------------------------------------------------------------------------
  // The translation preview of the edit and delete pages

  datatype Preview = Preview(translations: map<string, Content>, cache: Cache, calls: nat)

  /** `for lang in languages: if lang != "en": translations[lang] = faq.get_translated_content(lang)`. */
  function TranslationsPreview(c: Cache, o: Oracle, f: Faq, langs: seq<string>): (r: Preview)
    requires WellTyped(c)
    ensures WellTyped(r.cache)
    ensures forall l :: l in r.translations <==> l in langs && l != BASE
    ensures OnlyItemKeysChanged(c, r.cache)
    decreases |langs|
  {
    if langs == [] then Preview(map[], c, 0)
    else
      var l := langs[|langs| - 1];
      var p := TranslationsPreview(c, o, f, langs[..|langs| - 1]);
      assert langs == langs[..|langs| - 1] + [l];
      if l == BASE then p
      else
        var g := GetTranslatedContent(p.cache, o, f, l);
        Preview(p.translations[l := g.content], g.cache, p.calls + g.calls)
  }

  /** No later entry of the list repeats entry i. */
  predicate LastOccurrence(langs: seq<string>, i: nat)
    requires i < |langs|
  {
    forall j :: i < j < |langs| ==> langs[j] != langs[i]
  }

  /** Each non-base language's preview is the row's read in that language
      against the cache the reads for the languages before it left behind;
      when a language is listed twice, the later read is the one kept. */
  lemma {:induction false} TranslationsPreviewValues(c: Cache, o: Oracle, f: Faq, langs: seq<string>)
    requires WellTyped(c)
    ensures var r := TranslationsPreview(c, o, f, langs);
      forall i :: 0 <= i < |langs| && langs[i] != BASE && LastOccurrence(langs, i) ==>
        && langs[i] in r.translations
        && r.translations[langs[i]] == GetTranslatedContent(TranslationsPreview(c, o, f, langs[..i]).cache, o, f, langs[i]).content
    decreases |langs|
  {
    forall i | 0 <= i < |langs| && langs[i] != BASE && LastOccurrence(langs, i)
      ensures var r := TranslationsPreview(c, o, f, langs);
        && langs[i] in r.translations
        && r.translations[langs[i]] == GetTranslatedContent(TranslationsPreview(c, o, f, langs[..i]).cache, o, f, langs[i]).content
    {
      PreviewValueAt(c, o, f, langs, i);
    }
  }

  lemma {:induction false} PreviewValueAt(c: Cache, o: Oracle, f: Faq, langs: seq<string>, i: nat)
    requires WellTyped(c) && i < |langs| && langs[i] != BASE && LastOccurrence(langs, i)
    ensures var r := TranslationsPreview(c, o, f, langs);
      && langs[i] in r.translations
      && r.translations[langs[i]] == GetTranslatedContent(TranslationsPreview(c, o, f, langs[..i]).cache, o, f, langs[i]).content
    decreases |langs|
  {
    if i == |langs| - 1 {
      PreviewLast(c, o, f, langs);
    } else {
      LastOccurrenceInFront(langs, i);
      PreviewValueAt(c, o, f, langs[..|langs| - 1], i);
      PreviewKeepsEarlier(c, o, f, langs, i);
    }
  }

  lemma LastOccurrenceInFront(langs: seq<string>, i: nat)
    requires i < |langs| - 1 && LastOccurrence(langs, i)
    ensures LastOccurrence(langs[..|langs| - 1], i)
    ensures langs[i] != langs[|langs| - 1]
  {
  }

  /** The last language's read is the last one made. */
  lemma PreviewLast(c: Cache, o: Oracle, f: Faq, langs: seq<string>)
    requires WellTyped(c) && langs != [] && langs[|langs| - 1] != BASE
    ensures var l := langs[|langs| - 1];
      var p := TranslationsPreview(c, o, f, langs[..|langs| - 1]);
      var r := TranslationsPreview(c, o, f, langs);
      && l in r.translations
      && r.translations[l] == GetTranslatedContent(p.cache, o, f, l).content
  {
  }

  /** A read for the last language leaves the other languages' previews alone. */
  lemma PreviewKeepsEarlier(c: Cache, o: Oracle, f: Faq, langs: seq<string>, i: nat)
    requires WellTyped(c) && i < |langs| - 1 && langs[i] != langs[|langs| - 1]
    requires var front := langs[..|langs| - 1];
      && front[i] in TranslationsPreview(c, o, f, front).translations
      && TranslationsPreview(c, o, f, front).translations[front[i]]
           == GetTranslatedContent(TranslationsPreview(c, o, f, front[..i]).cache, o, f, front[i]).content
    ensures langs[i] in TranslationsPreview(c, o, f, langs).translations
    ensures TranslationsPreview(c, o, f, langs).translations[langs[i]]
      == GetTranslatedContent(TranslationsPreview(c, o, f, langs[..i]).cache, o, f, langs[i]).content
  {
    var front := langs[..|langs| - 1];
    assert front[..i] == langs[..i] && front[i] == langs[i];
    PreviewKeepsOther(c, o, f, langs, langs[i],
      GetTranslatedContent(TranslationsPreview(c, o, f, langs[..i]).cache, o, f, langs[i]).content);
  }

  lemma PreviewKeepsOther(c: Cache, o: Oracle, f: Faq, langs: seq<string>, x: string, v: Content)
    requires WellTyped(c) && langs != [] && x != langs[|langs| - 1]
    requires x in TranslationsPreview(c, o, f, langs[..|langs| - 1]).translations
    requires TranslationsPreview(c, o, f, langs[..|langs| - 1]).translations[x] == v
    ensures x in TranslationsPreview(c, o, f, langs).translations
    ensures TranslationsPreview(c, o, f, langs).translations[x] == v
  {
  }
}

=== FILE: settings.dfy ===
/** The `FAQ_SETTINGS` constants of faq_system/settings.py. Every reader finds
    the settings dictionary present, so the literal fallbacks written beside the
    `getattr(...).get(...)` calls never take effect. */
module Settings {

  /** The configured languages, in configuration order. */
  const LANGUAGES: seq<string> := ["en", "hi", "bn"]

  /** The language that is served untranslated. */
  const BASE: string := "en"

  /** Seconds a content, list or detail entry lives in the cache. */
  const CACHE_TIMEOUT: nat := 3600

  /** Seconds a translated string lives in the cache. */
  const TRANSLATION_CACHE_TIMEOUT: nat := 86400

  /** The language list the admin hook hard-codes instead of reading the settings. */
  const ADMIN_LANGUAGES: seq<string> := ["en", "hi", "bn"]
}

=== FILE: store.dfy ===
/** The FAQ table as the cache layer sees it: records with store-assigned ids
    and the two automatic timestamps, the ordering `-created_at` the list
    queries use, and the single-record create, update and delete that a save
    or delete of the model performs. */
module Store {
  import opened Wrappers

  /** One row of the FAQ table (models.py:22-25). The timestamps are opaque
      clock readings: `created_at` is set once on insert, `updated_at` on
      every save. */
  datatype Faq = Faq(id: nat, question: string, answer: string, createdAt: int, updatedAt: int)

  /** The table: its rows in insertion order and the next auto-increment id. */
  datatype Store = Store(records: seq<Faq>, nextId: nat)

  /** Ids are unique, start at 1 (the auto-increment counter's first value,
      so no row has the falsy id 0) and are all below the counter: ids are
      never reused. */
  predicate Valid(s: Store) {
    && 0 < s.nextId
    && (forall i, j :: 0 <= i < j < |s.records| ==> s.records[i].id != s.records[j].id)
    && (forall i :: 0 <= i < |s.records| ==> 0 < s.records[i].id < s.nextId)
  }

  predicate Has(rs: seq<Faq>, id: nat) {
    exists i :: 0 <= i < |rs| && rs[i].id == id
  }

  /** `FAQ.objects.get(pk=id)`, or nothing when no row has that id. */
  function Find(rs: seq<Faq>, id: nat): (r: Option<Faq>)
    ensures r.Some? <==> Has(rs, id)
    ensures r.Some? ==> r.value in rs && r.value.id == id
  {
    if rs == [] then None
    else if rs[0].id == id then Some(rs[0])
    else
      var r := Find(rs[1..], id);
      assert Has(rs, id) ==> rs[0].id == id || Has(rs[1..], id) by {
        if Has(rs, id) {
          var i :| 0 <= i < |rs| && rs[i].id == id;
          if i > 0 { assert rs[1..][i - 1].id == id; }
        }
      }
      assert Has(rs[1..], id) ==> Has(rs, id) by {
        if Has(rs[1..], id) {
          var i :| 0 <= i < |rs[1..]| && rs[1..][i].id == id;
          assert rs[i + 1].id == id;
        }
      }
      r
  }

  function Lookup(s: Store, id: nat): Option<Faq> {
    Find(s.records, id)
  }

  /** With unique ids, looking a row up by its own id finds that very row. */
  lemma LookupMember(s: Store, f: Faq)
    requires Valid(s) && f in s.records
    ensures Lookup(s, f.id) == Some(f)
  {
    var g := Lookup(s, f.id).value;
    var i :| 0 <= i < |s.records| && s.records[i] == f;
    var j :| 0 <= j < |s.records| && s.records[j] == g;
    assert i == j;
  }

  // ---------------------------------------------------------------------------
  // order_by("-created_at"): a stable insertion sort, newest first.

  predicate NewestFirst(rs: seq<Faq>) {
    forall i, j :: 0 <= i < j < |rs| ==> rs[i].createdAt >= rs[j].createdAt
  }

  /** Places `f` into a newest-first list, ahead of every row no newer than it. */
  function InsertNewest(f: Faq, rs: seq<Faq>): (r: seq<Faq>)
    requires NewestFirst(rs)
    ensures NewestFirst(r)
    ensures multiset(r) == multiset(rs) + multiset{f}
    ensures |r| == |rs| + 1
  {
    if rs == [] || rs[0].createdAt <= f.createdAt then
      [f] + rs
    else
      NewestTail(rs);
      var tail := InsertNewest(f, rs[1..]);
      NoNewerThanMembers(rs[0], rs[1..], f, tail);
      ConsMultiset(rs, tail, f);
      [rs[0]] + tail
  }

  /** The tail of a newest-first list is newest-first, and its head is no older than any of it. */
  lemma NewestTail(rs: seq<Faq>)
    requires rs != [] && NewestFirst(rs)
    ensures NewestFirst(rs[1..])
    ensures forall m :: 0 <= m < |rs[1..]| ==> rs[0].createdAt >= rs[1..][m].createdAt
  {
    forall m | 0 <= m < |rs[1..]|
      ensures rs[0].createdAt >= rs[1..][m].createdAt
    {
      assert rs[1..][m] == rs[m + 1];
    }
  }

  lemma ConsMultiset(rs: seq<Faq>, tail: seq<Faq>, f: Faq)
    requires rs != [] && multiset(tail) == multiset(rs[1..]) + multiset{f}
    ensures multiset([rs[0]] + tail) == multiset(rs) + multiset{f}
  {
    assert rs == [rs[0]] + rs[1..];
  }

  /** A row at least as new as every row of `rest` and as `f` is at least as
      new as every row of a rearrangement of `rest` plus `f`, and may lead it. */
  lemma NoNewerThanMembers(x: Faq, rest: seq<Faq>, f: Faq, tail: seq<Faq>)
    requires forall m :: 0 <= m < |rest| ==> x.createdAt >= rest[m].createdAt
    requires x.createdAt >= f.createdAt && NewestFirst(tail)
    requires multiset(tail) == multiset(rest) + multiset{f}
    ensures NewestFirst([x] + tail)
  {
    forall k | 0 <= k < |tail|
      ensures x.createdAt >= tail[k].createdAt
    {
      assert tail[k] in multiset(rest) + multiset{f};
      if tail[k] in multiset(rest) {
        var m :| 0 <= m < |rest| && rest[m] == tail[k];
      }
    }
    forall i, j | 0 <= i < j < |[x] + tail|
      ensures ([x] + tail)[i].createdAt >= ([x] + tail)[j].createdAt
    {
      assert ([x] + tail)[j] == tail[j - 1];
      if i > 0 {
        assert ([x] + tail)[i] == tail[i - 1];
      }
    }
  }

  /** The rows of the table as `order_by("-created_at")` returns them. */
  function Recent(rs: seq<Faq>): (r: seq<Faq>)
    ensures NewestFirst(r)
    ensures multiset(r) == multiset(rs)
    ensures |r| == |rs|
  {
    if rs == [] then []
    else
      assert rs == [rs[0]] + rs[1..];
      InsertNewest(rs[0], Recent(rs[1..]))
  }

  /** A newest-first listing holds exactly the rows of the table, each once. */
  lemma RecentIsAPermutation(rs: seq<Faq>)
    ensures NewestFirst(Recent(rs))
    ensures forall f :: f in Recent(rs) <==> f in rs
  {
    var r := Recent(rs);
    forall f
      ensures f in r <==> f in rs
    {
      assert f in r <==> f in multiset(r);
      assert f in rs <==> f in multiset(rs);
    }
  }

  /** Listing newest first does not duplicate a row: ids stay unique. */
  lemma RecentKeepsIdsUnique(rs: seq<Faq>)
    requires forall i, j :: 0 <= i < j < |rs| ==> rs[i].id != rs[j].id
    ensures forall i, j :: 0 <= i < j < |Recent(rs)| ==> Recent(rs)[i].id != Recent(rs)[j].id
  {
    var r := Recent(rs);
    CountOnce(rs);
    forall a, b | 0 <= a < b < |r|
      ensures r[a].id != r[b].id
    {
      if r[a].id == r[b].id {
        assert r[a] in rs && r[b] in rs by {
          assert r[a] in multiset(r) && r[b] in multiset(r);
        }
        var i :| 0 <= i < |rs| && rs[i] == r[a];
        var j :| 0 <= j < |rs| && rs[j] == r[b];
        assert i == j;
        CountTwo(r, a, b);
      }
    }
  }

  lemma CountTwo<T>(s: seq<T>, a: nat, b: nat)
    requires a < b < |s| && s[a] == s[b]
    ensures multiset(s)[s[a]] >= 2
  {
    assert s == s[..a] + [s[a]] + s[a + 1..b] + [s[b]] + s[b + 1..];
  }

  lemma {:induction false} CountOnce(rs: seq<Faq>)
    requires forall i, j :: 0 <= i < j < |rs| ==> rs[i].id != rs[j].id
    ensures forall f :: multiset(rs)[f] <= 1
  {
    if rs != [] {
      CountOnce(rs[1..]);
      assert rs == [rs[0]] + rs[1..];
    }
  }

  // ---------------------------------------------------------------------------
  // Single-record writes

  /** `INSERT`: the new row takes the next id; both timestamps are `now`. */
  function Add(s: Store, question: string, answer: string, now: int): (r: Store)
    requires Valid(s)
    ensures Valid(r)
    ensures r.nextId == s.nextId + 1
    ensures Lookup(r, s.nextId) == Some(Faq(s.nextId, question, answer, now, now))
    ensures forall id :: id != s.nextId ==> Lookup(r, id) == Lookup(s, id)
  {
    var f := Faq(s.nextId, question, answer, now, now);
    var r := Store(s.records + [f], s.nextId + 1);
    FindAppend(s.records, f);
    r
  }

  lemma {:induction false} FindAppend(rs: seq<Faq>, f: Faq)
    requires forall i :: 0 <= i < |rs| ==> rs[i].id != f.id
    ensures Find(rs + [f], f.id) == Some(f)
    ensures forall id :: id != f.id ==> Find(rs + [f], id) == Find(rs, id)
  {
    if rs != [] {
      assert (rs + [f])[1..] == rs[1..] + [f];
      FindAppend(rs[1..], f);
    } else {
      assert rs + [f] == [f];
    }
  }

  /** The row after a save that changes its text: `created_at` kept, `updated_at` set to `now`. */
  function Edited(f: Faq, question: string, answer: string, now: int): Faq {
    Faq(f.id, question, answer, f.createdAt, now)
  }

  function EditAll(rs: seq<Faq>, id: nat, question: string, answer: string, now: int): (r: seq<Faq>)
    ensures |r| == |rs|
    ensures forall i :: 0 <= i < |rs| ==> r[i].id == rs[i].id
    ensures forall i :: 0 <= i < |rs| && rs[i].id != id ==> r[i] == rs[i]
    ensures forall i :: 0 <= i < |rs| && rs[i].id == id ==> r[i] == Edited(rs[i], question, answer, now)
  {
    if rs == [] then []
    else
      var head := if rs[0].id == id then Edited(rs[0], question, answer, now) else rs[0];
      [head] + EditAll(rs[1..], id, question, answer, now)
  }

  /** `UPDATE ... WHERE id = id`: only that row changes, and only its text and `updated_at`. */
  function Update(s: Store, id: nat, question: string, answer: string, now: int): (r: Store)
    requires Valid(s)
    ensures Valid(r)
    ensures r.nextId == s.nextId
    ensures Lookup(s, id).Some? ==> Lookup(r, id) == Some(Edited(Lookup(s, id).value, question, answer, now))
    ensures Lookup(s, id).None? ==> r == s
    ensures forall other :: other != id ==> Lookup(r, other) == Lookup(s, other)
  {
    if Lookup(s, id).None? then
      assert forall i :: 0 <= i < |s.records| ==> s.records[i].id != id;
      assert EditAll(s.records, id, question, answer, now) == s.records;
      s
    else
      FindEditAll(s.records, id, question, answer, now);
      Store(EditAll(s.records, id, question, answer, now), s.nextId)
  }

  lemma {:induction false} FindEditAll(rs: seq<Faq>, id: nat, question: string, answer: string, now: int)
    ensures forall other :: (Find(EditAll(rs, id, question, answer, now), other)
      == if other == id && Find(rs, id).Some? then Some(Edited(Find(rs, id).value, question, answer, now)) else Find(rs, other))
  {
    if rs != [] {
      var r := EditAll(rs, id, question, answer, now);
      assert r[1..] == EditAll(rs[1..], id, question, answer, now);
      FindEditAll(rs[1..], id, question, answer, now);
    }
  }

  function Without(rs: seq<Faq>, id: nat): (r: seq<Faq>)
    ensures forall f :: f in r <==> f in rs && f.id != id
    ensures forall other :: other != id ==> Find(r, other) == Find(rs, other)
    ensures Find(r, id).None?
    ensures |r| <= |rs|
  {
    if rs == [] then []
    else if rs[0].id == id then Without(rs[1..], id)
    else [rs[0]] + Without(rs[1..], id)
  }

  /** `DELETE ... WHERE id = id`: the row is gone, every other row stays. */
  function Remove(s: Store, id: nat): (r: Store)
    requires Valid(s)
    ensures Valid(r)
    ensures r.nextId == s.nextId
    ensures Lookup(r, id).None?
    ensures forall other :: other != id ==> Lookup(r, other) == Lookup(s, other)
  {
    var r := Store(Without(s.records, id), s.nextId);
    WithoutKeepsOrder(s.records, id);
    r
  }

  lemma {:induction false} WithoutKeepsOrder(rs: seq<Faq>, id: nat)
    requires forall i, j :: 0 <= i < j < |rs| ==> rs[i].id != rs[j].id
    ensures forall i, j :: 0 <= i < j < |Without(rs, id)| ==> Without(rs, id)[i].id != Without(rs, id)[j].id
    ensures forall i :: 0 <= i < |Without(rs, id)| ==> Without(rs, id)[i] in rs
  {
    if rs != [] {
      WithoutKeepsOrder(rs[1..], id);
      var t := Without(rs[1..], id);
      if rs[0].id != id {
        var r := [rs[0]] + t;
        forall i, j | 0 <= i < j < |r|
          ensures r[i].id != r[j].id
        {
          if i == 0 {
            assert r[j] == t[j - 1] && t[j - 1] in rs[1..];
            var m :| 0 <= m < |rs[1..]| && rs[1..][m] == r[j];
            assert rs[m + 1] == r[j];
          }
        }
      }
    }
  }
}

=== FILE: str_methods.dfy ===
/** The two string methods the authentication views apply to form input:
    `str.strip()` with no argument and `str.lower()`. */
module StrMethods {

  /** The characters `str.isspace()` accepts, which `strip()` removes. */
  predicate IsSpace(c: char) {
    || c == ' ' || c == '\t' || c == '\n' || c == '\U{000B}' || c == '\U{000C}' || c == '\r'
    || ('\U{001C}' <= c <= '\U{001F}')
    || c == '\U{0085}' || c == '\U{00A0}' || c == '\U{1680}'
    || ('\U{2000}' <= c <= '\U{200A}')
    || c == '\U{2028}' || c == '\U{2029}' || c == '\U{202F}' || c == '\U{205F}' || c == '\U{3000}'
  }

  predicate AllSpace(s: string) {
    forall i :: 0 <= i < |s| ==> IsSpace(s[i])
  }

  /** Removes the leading run of whitespace. */
  function StripLeft(s: string): (r: string)
    ensures |r| <= |s| && r == s[|s| - |r|..]
    ensures AllSpace(s[..|s| - |r|])
    ensures r == [] || !IsSpace(r[0])
    decreases |s|
  {
    if s != [] && IsSpace(s[0]) then
      var r := StripLeft(s[1..]);
      assert s[..|s| - |r|] == [s[0]] + s[1..][..|s| - 1 - |r|];
      r
    else s
  }

  /** Removes the trailing run of whitespace. */
  function StripRight(s: string): (r: string)
    ensures |r| <= |s| && r == s[..|r|]
    ensures AllSpace(s[|r|..])
    ensures r == [] || !IsSpace(r[|r| - 1])
    decreases |s|
  {
    if s != [] && IsSpace(s[|s| - 1]) then
      var t := s[..|s| - 1];
      var r := StripRight(t);
      assert s[..|r|] == t[..|r|];
      assert s[|r|..] == t[|r|..] + [s[|s| - 1]];
      r
    else s
  }

  /** `r` sits in `s` at offset `i` with only whitespace on either side. */
  predicate PaddedSlice(s: string, r: string, i: nat) {
    && i + |r| <= |s| && r == s[i..i + |r|]
    && AllSpace(s[..i]) && AllSpace(s[i + |r|..])
  }

  /** `s.strip()`: a middle slice of `s` that neither begins nor ends with
      whitespace, with only whitespace cut on either side; empty exactly when
      `s` is all whitespace. */
  function Strip(s: string): (r: string)
    ensures r == [] || (!IsSpace(r[0]) && !IsSpace(r[|r| - 1]))
    ensures exists i :: PaddedSlice(s, r, i)
    ensures r == [] <==> AllSpace(s)
  {
    StripSlice(s);
    StripEmpty(s);
    StripRight(StripLeft(s))
  }

  lemma StripSlice(s: string)
    ensures PaddedSlice(s, StripRight(StripLeft(s)), |s| - |StripLeft(s)|)
  {
    SuffixThenPrefix(s, StripLeft(s), StripRight(StripLeft(s)));
  }

  /** A prefix `r` of a suffix `l` of `s`, with whitespace cut off both ends, is a padded slice. */
  lemma SuffixThenPrefix(s: string, l: string, r: string)
    requires |l| <= |s| && l == s[|s| - |l|..] && AllSpace(s[..|s| - |l|])
    requires |r| <= |l| && r == l[..|r|] && AllSpace(l[|r|..])
    ensures PaddedSlice(s, r, |s| - |l|)
  {
    var i := |s| - |l|;
    assert s[i..i + |r|] == r;
    assert s[i + |r|..] == l[|r|..];
  }

  lemma StripEmpty(s: string)
    ensures StripRight(StripLeft(s)) == [] <==> AllSpace(s)
  {
    var l := StripLeft(s);
    var i := |s| - |l|;
    assert s[i..] == l;
    if StripRight(l) == [] {
      assert l[0..] == l;
      AllSpaceJoin(s, i);
    }
  }

  lemma AllSpaceJoin(s: string, i: nat)
    requires i <= |s| && AllSpace(s[..i]) && AllSpace(s[i..])
    ensures AllSpace(s)
  {
    forall k | 0 <= k < |s|
      ensures IsSpace(s[k])
    {
      if k < i { assert s[..i][k] == s[k]; } else { assert s[i..][k - i] == s[k]; }
    }
  }

  lemma {:induction false} StripLeftSpaces(a: string, t: string)
    requires AllSpace(a) && (t == [] || !IsSpace(t[0]))
    ensures StripLeft(a + t) == t
    decreases |a|
  {
    if a != [] {
      assert (a + t)[0] == a[0];
      assert (a + t)[1..] == a[1..] + t;
      StripLeftSpaces(a[1..], t);
    } else {
      assert a + t == t;
    }
  }

  lemma {:induction false} StripRightSpaces(t: string, b: string)
    requires AllSpace(b) && (t == [] || !IsSpace(t[|t| - 1]))
    ensures StripRight(t + b) == t
    decreases |b|
  {
    if b != [] {
      var n := |b| - 1;
      assert (t + b)[|t + b| - 1] == b[n];
      assert (t + b)[..|t + b| - 1] == t + b[..n];
      StripRightSpaces(t, b[..n]);
    } else {
      assert t + b == t;
    }
  }

  /** Stripping recovers the text between any whitespace padding: this is the
      whole behaviour of `strip()`, stated without reference to how it scans. */
  lemma StripRemovesPadding(a: string, m: string, b: string)
    requires AllSpace(a) && AllSpace(b)
    requires m == [] || (!IsSpace(m[0]) && !IsSpace(m[|m| - 1]))
    ensures Strip(a + m + b) == m
  {
    if m == [] {
      assert a + m + b == a + b;
      assert AllSpace(a + b) by {
        forall k | 0 <= k < |a + b| ensures IsSpace((a + b)[k]) {
          if k < |a| { assert (a + b)[k] == a[k]; } else { assert (a + b)[k] == b[k - |a|]; }
        }
      }
    } else {
      assert a + m + b == a + (m + b);
      StripLeftSpaces(a, m + b);
      StripRightSpaces(m, b);
    }
  }

  /** Stripping twice is stripping once. */
  lemma StripIsIdempotent(s: string)
    ensures Strip(Strip(s)) == Strip(s)
  {
    var r := Strip(s);
    StripRemovesPadding([], r, []);
    assert [] + r + [] == r;
  }

  predicate IsAsciiUpper(c: char) {
    'A' <= c <= 'Z'
  }

  predicate IsAsciiLower(c: char) {
    'a' <= c <= 'z'
  }

  function LowerChar(c: char): char {
    if IsAsciiUpper(c) then (c as int + 32) as char else c
  }

  /** `s.lower()` on the ASCII letters. */
  function Lower(s: string): (r: string)
    ensures |r| == |s|
    ensures forall i :: 0 <= i < |s| ==> r[i] == LowerChar(s[i])
  {
    seq(|s|, i requires 0 <= i < |s| => LowerChar(s[i]))
  }

  /** Lower-casing leaves no upper-case letter, changes nothing else than
      upper-case letters, and a second pass changes nothing. */
  lemma LowerProperties(s: string)
    ensures forall i :: 0 <= i < |s| ==> !IsAsciiUpper(Lower(s)[i])
    ensures forall i :: 0 <= i < |s| && !IsAsciiUpper(s[i]) ==> Lower(s)[i] == s[i]
    ensures Lower(Lower(s)) == Lower(s)
  {
  }
}

=== FILE: text.dfy ===
/** String helpers shared by the cache keys and the validators: prefixes,
    Python's `str(int)` rendering, and the colon-separated segment reasoning
    that key injectivity rests on. */
module Text {

  predicate StartsWith(s: string, prefix: string) {
    |prefix| <= |s| && s[..|prefix|] == prefix
  }

  predicate IsAsciiDigit(c: char) {
    '0' <= c <= '9'
  }

  /** True when `s` contains no ':' — the separator of every cache key. */
  predicate ColonFree(s: string) {
    forall i :: 0 <= i < |s| ==> s[i] != ':'
  }

  function DigitChar(d: nat): (c: char)
    requires d < 10
    ensures IsAsciiDigit(c)
    ensures c as int - '0' as int == d
  {
    ['0', '1', '2', '3', '4', '5', '6', '7', '8', '9'][d]
  }

  /** `str(n)` for a non-negative Python int: decimal, no leading zeros. */
  function NatToString(n: nat): (s: string)
    ensures |s| >= 1
    ensures forall i :: 0 <= i < |s| ==> IsAsciiDigit(s[i])
    ensures n < 10 <==> |s| == 1
    decreases n
  {
    if n < 10 then [DigitChar(n)] else NatToString(n / 10) + [DigitChar(n % 10)]
  }

  /** `str(n)` for any Python int: a '-' before the magnitude when negative. */
  function IntToString(n: int): (s: string)
    ensures ColonFree(s)
    ensures |s| >= 1
    ensures s[0] == '-' <==> n < 0
  {
    if n < 0 then "-" + NatToString(-n) else NatToString(n)
  }

  lemma DigitsAreColonFree(n: nat)
    ensures ColonFree(NatToString(n))
  {
  }

  lemma {:induction false} NatToStringInjective(m: nat, n: nat)
    requires NatToString(m) == NatToString(n)
    ensures m == n
    decreases m
  {
    var sm, sn := NatToString(m), NatToString(n);
    if m < 10 || n < 10 {
      assert m < 10 && n < 10;
      assert DigitChar(m) == sm[0] == sn[0] == DigitChar(n);
    } else {
      assert sm == NatToString(m / 10) + [DigitChar(m % 10)];
      assert sn == NatToString(n / 10) + [DigitChar(n % 10)];
      assert sm[..|sm| - 1] == NatToString(m / 10);
      assert sn[..|sn| - 1] == NatToString(n / 10);
      assert DigitChar(m % 10) == sm[|sm| - 1] == sn[|sn| - 1] == DigitChar(n % 10);
      NatToStringInjective(m / 10, n / 10);
    }
  }

  lemma IntToStringInjective(m: int, n: int)
    requires IntToString(m) == IntToString(n)
    ensures m == n
  {
    if m < 0 {
      assert IntToString(m)[1..] == NatToString(-m);
      assert IntToString(n)[1..] == NatToString(-n);
      NatToStringInjective(-m, -n);
    } else {
      NatToStringInjective(m, n);
    }
  }

  /** Two strings `a ++ ":" ++ b` and `c ++ ":" ++ d` whose first segments hold
      no colon agree only when both segments agree: the first colon splits them. */
  lemma {:induction false} SplitAtColon(a: string, b: string, c: string, d: string)
    requires ColonFree(a) && ColonFree(c)
    requires a + (":" + b) == c + (":" + d)
    ensures a == c && b == d
  {
    var s := a + (":" + b);
    if |a| < |c| {
      ColonPosition(c, d, |a|);
      assert false;
    } else if |c| < |a| {
      ColonPosition(a, b, |c|);
      assert false;
    }
    assert a == s[..|a|] == c;
    assert b == s[|a| + 1..] == d;
  }

  /** Inside `a ++ ":" ++ b` with a colon-free `a`, the first |a| + 1 positions
      hold a colon exactly at position |a|. */
  lemma ColonPosition(a: string, b: string, i: nat)
    requires ColonFree(a) && i <= |a|
    ensures (a + (":" + b))[i] == ':' <==> i == |a|
  {
    if i < |a| {
      assert (a + (":" + b))[i] == a[i];
    }
  }

  /** Equal strings with an equal prefix agree on the rest. */
  lemma AfterPrefix(p: string, x: string, y: string)
    requires p + x == p + y
    ensures x == y
  {
    assert x == (p + x)[|p|..];
    assert y == (p + y)[|p|..];
  }

  lemma Assoc(a: string, b: string, c: string)
    ensures a + (b + c) == (a + b) + c
  {
  }

  lemma StartsWithConcat(p: string, x: string)
    ensures StartsWith(p + x, p)
  {
    assert (p + x)[..|p|] == p;
  }

  lemma ColonFreeConcat(a: string, b: string)
    requires ColonFree(a) && ColonFree(b)
    ensures ColonFree(a + b)
  {
    forall i | 0 <= i < |a + b|
      ensures (a + b)[i] != ':'
    {
      if i < |a| { assert (a + b)[i] == a[i]; } else { assert (a + b)[i] == b[i - |a|]; }
    }
  }
}

=== FILE: translation.dfy ===
/** `FAQ._translate_text` (models.py:44-73): a read-through memo in front of an
    external translator, keyed by a fingerprint of the source text. */
module Translation {
  import opened Wrappers
  import opened Text
  import opened CacheKeys
  import opened Cache
  import opened Settings

  /** What lies outside the process: Python's `hash` on strings (an arbitrary,
      not necessarily injective, fingerprint) and the translator client, which
      either answers or fails. */
  datatype Oracle = Oracle(fingerprint: string -> int, translate: (string, string) -> Option<string>)

  /** A translated string, the cache after the call, and how many times the
      translator was consulted. */
  datatype Translated = Translated(text: string, cache: Cache, calls: nat)

  /** The memo key for a text: `faq:translation:{hash(text)}:{lang}`. */
  function MemoKey(o: Oracle, text: string, lang: string): (k: string)
    ensures NamespaceOf(k) == TranslationNs
  {
    TranslationKeyNamespace(o.fingerprint(text), lang);
    TranslationKey(o.fingerprint(text), lang)
  }

  /** `_translate_text(text, lang)`. */
  function TranslateText(c: Cache, o: Oracle, text: string, lang: string): (r: Translated)
    requires WellTyped(c)
    ensures WellTyped(r.cache)
    // base language: the text itself, the cache untouched, no translator call
    ensures lang == BASE ==> r == Translated(text, c, 0)
    // hit: the cached string, nothing written, no translator call
    ensures lang != BASE && MemoKey(o, text, lang) in c ==>
      r == Translated(c[MemoKey(o, text, lang)].value.text, c, 0)
    // miss: exactly one translator call
    ensures lang != BASE && MemoKey(o, text, lang) !in c ==> r.calls == 1
    // miss, translator answers: the answer is stored for a day and returned
    ensures lang != BASE && MemoKey(o, text, lang) !in c && o.translate(text, lang).Some? ==>
      && r.text == o.translate(text, lang).value
      && r.cache == c[MemoKey(o, text, lang) := CacheEntry(Translation(r.text), TRANSLATION_CACHE_TIMEOUT)]
    // miss, translator fails: the original text, and nothing is stored
    ensures lang != BASE && MemoKey(o, text, lang) !in c && o.translate(text, lang).None? ==>
      r.text == text && r.cache == c
  {
    if lang == BASE then Translated(text, c, 0)
    else
      var key := MemoKey(o, text, lang);
      if key in c then Translated(c[key].value.text, c, 0)
      else
        match o.translate(text, lang)
        case Some(t) => Translated(t, Set(c, key, Translation(t), TRANSLATION_CACHE_TIMEOUT), 1)
        case None => Translated(text, c, 1)
  }

  /** The only key a translation can write is its own memo key, and that key
      lies in the translation namespace. */
  lemma TranslateTouchesOnlyItsKey(c: Cache, o: Oracle, text: string, lang: string)
    requires WellTyped(c)
    ensures var r := TranslateText(c, o, text, lang);
      forall k :: k != MemoKey(o, text, lang) ==> (k in r.cache <==> k in c) && (k in c ==> r.cache[k] == c[k])
  {
  }

  /** For the base language the result does not depend on the cache or the
      translator at all: nothing is read, nothing is asked. */
  lemma BasePassesThrough(c1: Cache, c2: Cache, o1: Oracle, o2: Oracle, text: string)
    requires WellTyped(c1) && WellTyped(c2)
    ensures TranslateText(c1, o1, text, BASE).text == text == TranslateText(c2, o2, text, BASE).text
    ensures TranslateText(c1, o1, text, BASE).cache == c1
    ensures TranslateText(c1, o1, text, BASE).calls == 0
  {
  }

  /** Asking twice gives the same text, and the second call is served by the
      cache — unless the first call fell back to the original text, in which
      case the second call asks the translator again. */
  lemma TranslateIsMemoised(c: Cache, o: Oracle, text: string, lang: string)
    requires WellTyped(c)
    ensures var r1 := TranslateText(c, o, text, lang);
      var r2 := TranslateText(r1.cache, o, text, lang);
      && r2.text == r1.text
      && (lang == BASE || MemoKey(o, text, lang) in c || o.translate(text, lang).Some? ==> r2.cache == r1.cache && r2.calls == 0)
  {
  }

  /** A failed translation is not remembered: the memo key stays absent, so
      once the translator recovers the next call stores its answer. */
  lemma FailureIsRetried(c: Cache, failing: Oracle, recovered: Oracle, text: string, lang: string)
    requires WellTyped(c)
    requires lang != BASE && MemoKey(failing, text, lang) !in c
    requires failing.translate(text, lang).None? && recovered.translate(text, lang).Some?
    requires recovered.fingerprint == failing.fingerprint
    ensures var r1 := TranslateText(c, failing, text, lang);
      && r1.text == text
      && MemoKey(failing, text, lang) !in r1.cache
      && var r2 := TranslateText(r1.cache, recovered, text, lang);
      r2.text == recovered.translate(text, lang).value && MemoKey(recovered, text, lang) in r2.cache
  {
  }

  /** The memo is content-addressed: two texts with the same fingerprint share
      one entry, so a hit for one serves the other's translation. Equal
      fingerprints of different texts are not excluded by anything. */
  lemma SharedFingerprintSharesEntry(c: Cache, o: Oracle, t1: string, t2: string, lang: string)
    requires WellTyped(c)
    requires lang != BASE && o.fingerprint(t1) == o.fingerprint(t2)
    requires MemoKey(o, t1, lang) in c
    ensures TranslateText(c, o, t1, lang).text == TranslateText(c, o, t2, lang).text
  {
  }
}

=== FILE: wrappers.dfy ===
/** Option, the datatype the rest of the model uses for lookups that may miss,
    form fields that may be absent and translators that may fail. */
module Wrappers {

  datatype Option<+T> = None | Some(value: T) {

    /** The carried value, or `default` when there is none. */
    function GetOr(default: T): (r: T)
      ensures Some? ==> r == value
      ensures None? ==> r == default
    {
      match this
      case Some(v) => v
      case None => default
    }
  }
}

=== FILE: writes.dfy ===
/** Which write paths keep the cache coherent with the table (see `Coherence`),
    and how the ones that do not go wrong. */
module WriteCoherence {
  import opened Wrappers
  import opened Text
  import opened CacheKeys
  import opened Cache
  import opened Settings
  import opened Store
  import opened Translation
  import opened ItemContent
  import opened ReadViews
  import opened Invalidation
  import opened Mutations
  import opened Coherence

  // ---------------------------------------------------------------------------
  // Which entries survive a change of the table

  /** An insert only invalidates the list entries: every id it could affect is new. */
  lemma AddKeepsFresh(s: Store, ser: Serializer, k: string, v: Value, question: string, answer: string, now: int)
    requires Valid(s) && KeyFresh(s, ser, k, v)
    requires forall l :: l in LANGUAGES ==> k != ListKey(l) && k != ListDataKey(l)
    ensures KeyFresh(Add(s, question, answer, now), ser, k, v)
  {
  }

  /** An update invalidates the list entries and the row's own payload and detail entries. */
  lemma UpdateKeepsFresh(s: Store, ser: Serializer, k: string, v: Value, pk: nat, question: string, answer: string, now: int)
    requires Valid(s) && KeyFresh(s, ser, k, v)
    requires forall l :: l in LANGUAGES ==>
      k != ListKey(l) && k != ListDataKey(l) && k != ContentKey(pk, l) && k != DetailKey(pk, l)
    ensures KeyFresh(Update(s, pk, question, answer, now), ser, k, v)
  {
  }

  /** A delete invalidates only the list entries: the row's own entries become unreachable. */
  lemma RemoveKeepsFresh(s: Store, ser: Serializer, k: string, v: Value, pk: nat)
    requires Valid(s) && KeyFresh(s, ser, k, v)
    requires forall l :: l in LANGUAGES ==> k != ListKey(l) && k != ListDataKey(l)
    ensures KeyFresh(Remove(s, pk), ser, k, v)
  {
  }

  lemma DeleteKeepsCoherent(st: State, ser: Serializer, keys: seq<string>)
    requires Coherent(st, ser)
    ensures Coherent(State(st.store, DeleteMany(st.cache, keys)), ser)
  {
  }

  // ---------------------------------------------------------------------------
  // The translation preview of the edit and delete pages

  lemma {:induction false} PreviewKeepsCoherent(st: State, ser: Serializer, o: Oracle, f: Faq, langs: seq<string>)
    requires Coherent(st, ser) && Lookup(st.store, f.id) == Some(f)
    ensures Coherent(State(st.store, TranslationsPreview(st.cache, o, f, langs).cache), ser)
    decreases |langs|
  {
    if langs != [] {
      var l := langs[|langs| - 1];
      var p := TranslationsPreview(st.cache, o, f, langs[..|langs| - 1]);
      PreviewKeepsCoherent(st, ser, o, f, langs[..|langs| - 1]);
      if l != BASE {
        ContentReadKeepsCoherent(State(st.store, p.cache), ser, o, f, l);
      }
    }
  }

  lemma ShowPreviewKeepsCoherent(st: State, ser: Serializer, o: Oracle, pk: nat)
    requires Coherent(st, ser)
    ensures Coherent(Run(st, o, [ShowPreview(pk)]), ser)
  {
    RunOne(st, o, ShowPreview(pk));
    PreviewStepKeepsCoherent(st, ser, o, pk);
  }

  lemma PreviewStepKeepsCoherent(st: State, ser: Serializer, o: Oracle, pk: nat)
    requires Coherent(st, ser)
    ensures Coherent(Apply(st, o, ShowPreview(pk)), ser)
  {
    ApplyPreview(st, o, pk);
    if Lookup(st.store, pk).Some? {
      PreviewKeepsCoherent(st, ser, o, Lookup(st.store, pk).value, LANGUAGES);
    }
  }

  // ---------------------------------------------------------------------------
  // The HTML views

  /** `faq_create` keeps the cache coherent: the new row can only change the lists. */
  lemma FaqCreateKeepsCoherent(st: State, ser: Serializer, o: Oracle, req: Request, now: int)
    requires Coherent(st, ser)
    ensures Coherent(Run(st, o, FaqCreate(req, now).steps), ser)
  {
    if req.Post? && req.form.Some? {
      var sub := req.form.value;
      var clear := ClearTranslationsKeys(None, LANGUAGES);
      var keys := CreateKeys(LANGUAGES);
      assert FaqCreate(req, now).steps == [DeleteKeys(clear), Insert(sub.question, sub.answer, now), DeleteKeys(keys)];
      CreateSetCoversLists(LANGUAGES);
      InsertStepsKeepCoherent(st, ser, o, sub.question, sub.answer, now, clear, keys);
    }
  }

  lemma CreateSetCoversLists(langs: seq<string>)
    ensures forall l :: l in langs ==> ListKey(l) in CreateKeys(langs) && ListDataKey(l) in CreateKeys(langs)
  {
    CreateKeysMembers(langs);
    forall l | l in langs
      ensures ListKey(l) in CreateKeys(langs) && ListDataKey(l) in CreateKeys(langs)
    {
      assert InCreateSet(ListKey(l), langs) && InCreateSet(ListDataKey(l), langs);
    }
  }

  /** Clearing some keys, inserting a row, then deleting every list key keeps coherence. */
  lemma InsertStepsKeepCoherent(st: State, ser: Serializer, o: Oracle, q: string, a: string, now: int,
                                clear: seq<string>, keys: seq<string>)
    requires Coherent(st, ser)
    requires forall l :: l in LANGUAGES ==> ListKey(l) in keys && ListDataKey(l) in keys
    ensures Coherent(Run(st, o, [DeleteKeys(clear), Insert(q, a, now), DeleteKeys(keys)]), ser)
  {
    RunAroundWrite(st, o, clear, Insert(q, a, now), keys);
    ApplyWrite(st, o, Insert(q, a, now));
    DeleteKeepsCoherent(st, ser, clear);
    AddThenDeleteKeepsCoherent(st.store, DeleteMany(st.cache, clear), ser, q, a, now, keys);
  }

  lemma AddThenDeleteKeepsCoherent(s: Store, c: Cache, ser: Serializer, q: string, a: string, now: int, keys: seq<string>)
    requires Coherent(State(s, c), ser)
    requires forall l :: l in LANGUAGES ==> ListKey(l) in keys && ListDataKey(l) in keys
    ensures Coherent(State(Add(s, q, a, now), DeleteMany(c, keys)), ser)
  {
    var r := DeleteMany(c, keys);
    forall k | k in r
      ensures KeyFresh(Add(s, q, a, now), ser, k, r[k].value)
    {
      AddKeepsFresh(s, ser, k, c[k].value, q, a, now);
    }
  }

  /** `faq_delete` keeps the cache coherent. */
  lemma FaqDeleteKeepsCoherent(st: State, ser: Serializer, o: Oracle, pk: nat, post: bool)
    requires Coherent(st, ser)
    ensures Coherent(Run(st, o, FaqDelete(st.store, pk, post).steps), ser)
  {
    if Lookup(st.store, pk).Some? {
      if post {
        DeleteStepsKeepCoherent(st, ser, o, pk);
      } else {
        ShowPreviewKeepsCoherent(st, ser, o, pk);
      }
    }
  }

  lemma DeleteStepsKeepCoherent(st: State, ser: Serializer, o: Oracle, pk: nat)
    requires Coherent(st, ser)
    ensures Coherent(Run(st, o, DeleteIfAny(EditKeys(LANGUAGES, pk)) + ModelDelete(pk)), ser)
  {
    FaqDeleteEffect(st, o, pk);
    DeletionKeepsCoherent(st, ser, pk);
  }

  /** What a confirmed `faq_delete` does: the row is gone, and so are the list,
      list_data and detail keys of every configured language and the row's
      per-field keys. */
  lemma FaqDeleteEffect(st: State, o: Oracle, pk: nat)
    requires Ok(st)
    ensures Run(st, o, DeleteIfAny(EditKeys(LANGUAGES, pk)) + ModelDelete(pk))
      == State(Remove(st.store, pk), DeleteMany(DeleteMany(st.cache, EditKeys(LANGUAGES, pk)), ClearTranslationsKeys(Some(pk), LANGUAGES)))
  {
    DeleteThenDrop(st, o, EditKeys(LANGUAGES, pk), pk);
  }

  lemma DeleteThenDrop(st: State, o: Oracle, keys: seq<string>, pk: nat)
    requires Ok(st) && keys != []
    ensures Run(st, o, DeleteIfAny(keys) + ModelDelete(pk))
      == State(Remove(st.store, pk), DeleteMany(DeleteMany(st.cache, keys), ClearTranslationsKeys(Some(pk), LANGUAGES)))
  {
    var clear := ClearTranslationsKeys(Some(pk), LANGUAGES);
    assert DeleteIfAny(keys) + ModelDelete(pk) == [DeleteKeys(keys), DeleteKeys(clear), Drop(pk)];
    RunThree(st, o, DeleteKeys(keys), DeleteKeys(clear), Drop(pk));
  }

  lemma DeletionKeepsCoherent(st: State, ser: Serializer, pk: nat)
    requires Coherent(st, ser)
    ensures var c := DeleteMany(DeleteMany(st.cache, EditKeys(LANGUAGES, pk)), ClearTranslationsKeys(Some(pk), LANGUAGES));
      Coherent(State(Remove(st.store, pk), c), ser)
  {
    var c := DeleteMany(DeleteMany(st.cache, EditKeys(LANGUAGES, pk)), ClearTranslationsKeys(Some(pk), LANGUAGES));
    EditKeysMembers(LANGUAGES, pk);
    forall k | k in c
      ensures KeyFresh(Remove(st.store, pk), ser, k, c[k].value)
    {
      forall l | l in LANGUAGES
        ensures k != ListKey(l) && k != ListDataKey(l)
      {
        assert InEditSet(ListKey(l), LANGUAGES, pk) && InEditSet(ListDataKey(l), LANGUAGES, pk);
      }
      RemoveKeepsFresh(st.store, ser, k, c[k].value, pk);
    }
  }

  /** The edit with the assembled-content keys of the row added to the set the
      source deletes. */
  function FixedEditKeys(pk: nat): (r: seq<string>)
    ensures forall l :: l in LANGUAGES ==>
      ListKey(l) in r && ListDataKey(l) in r && DetailKey(pk, l) in r && ContentKey(pk, l) in r
  {
    EditKeysMembers(LANGUAGES, pk);
    var r := EditKeys(LANGUAGES, pk) + ContentKeysFor(pk, LANGUAGES);
    assert forall l :: l in LANGUAGES ==>
      (InEditSet(ListKey(l), LANGUAGES, pk) && InEditSet(ListDataKey(l), LANGUAGES, pk) && InEditSet(DetailKey(pk, l), LANGUAGES, pk));
    assert forall i :: 0 <= i < |LANGUAGES| ==> ContentKeysFor(pk, LANGUAGES)[i] in r;
    r
  }

  /** `faq_edit` with the corrected key set: a valid POST saves, then deletes
      the list, list_data, detail and content keys of every configured
      language in one call. */
  function FaqEditFixed(s: Store, pk: nat, req: Request, now: int): (r: Outcome<Page>)
    ensures Lookup(s, pk).None? ==> r == Outcome(NotFound404, [])
    ensures Lookup(s, pk).Some? && req.Post? && req.form.Some? ==>
      r == Outcome(Redirect, ModelSave(Some(pk), req.form.value.question, req.form.value.answer, now)
                             + [DeleteKeys(FixedEditKeys(pk))])
    ensures Lookup(s, pk).Some? && !(req.Post? && req.form.Some?) ==> r == Outcome(RenderForm, [ShowPreview(pk)])
  {
    assert ListKey(BASE) in FixedEditKeys(pk);
    EditWith(s, pk, req, now, FixedEditKeys(pk))
  }

  /** With the row's assembled payloads deleted too, an edit keeps the cache coherent. */
  lemma FaqEditFixedKeepsCoherent(st: State, ser: Serializer, o: Oracle, pk: nat, req: Request, now: int)
    requires Coherent(st, ser)
    ensures Coherent(Run(st, o, FaqEditFixed(st.store, pk, req, now).steps), ser)
  {
    if Lookup(st.store, pk).Some? {
      if req.Post? && req.form.Some? {
        var sub := req.form.value;
        var clear := ClearTranslationsKeys(Some(pk), LANGUAGES);
        var keys := FixedEditKeys(pk);
        assert FaqEditFixed(st.store, pk, req, now).steps == [DeleteKeys(clear), Save(pk, sub.question, sub.answer, now), DeleteKeys(keys)];
        SaveStepsKeepCoherent(st, ser, o, pk, sub.question, sub.answer, now, clear, keys);
      } else {
        ShowPreviewKeepsCoherent(st, ser, o, pk);
      }
    }
  }

  /** Clearing some keys, updating a row, then deleting every list key and the
      row's payload and detail keys keeps coherence. */
  lemma SaveStepsKeepCoherent(st: State, ser: Serializer, o: Oracle, pk: nat, q: string, a: string, now: int,
                              clear: seq<string>, keys: seq<string>)
    requires Coherent(st, ser)
    requires forall l :: l in LANGUAGES ==>
      ListKey(l) in keys && ListDataKey(l) in keys && DetailKey(pk, l) in keys && ContentKey(pk, l) in keys
    ensures Coherent(Run(st, o, [DeleteKeys(clear), Save(pk, q, a, now), DeleteKeys(keys)]), ser)
  {
    RunAroundWrite(st, o, clear, Save(pk, q, a, now), keys);
    ApplyWrite(st, o, Save(pk, q, a, now));
    DeleteKeepsCoherent(st, ser, clear);
    UpdateThenDeleteKeepsCoherent(st.store, DeleteMany(st.cache, clear), ser, pk, q, a, now, keys);
  }

  lemma UpdateThenDeleteKeepsCoherent(s: Store, c: Cache, ser: Serializer, pk: nat, q: string, a: string, now: int,
                                      keys: seq<string>)
    requires Coherent(State(s, c), ser)
    requires forall l :: l in LANGUAGES ==>
      ListKey(l) in keys && ListDataKey(l) in keys && DetailKey(pk, l) in keys && ContentKey(pk, l) in keys
    ensures Coherent(State(Update(s, pk, q, a, now), DeleteMany(c, keys)), ser)
  {
    var r := DeleteMany(c, keys);
    forall k | k in r
      ensures KeyFresh(Update(s, pk, q, a, now), ser, k, r[k].value)
    {
      UpdateKeepsFresh(s, ser, k, c[k].value, pk, q, a, now);
    }
  }

  // ---------------------------------------------------------------------------
  // The API: the sweep leaves nothing to be stale

  /** After a sweep no key under `faq:` is left, so nothing can disagree with the table. */
  lemma SweepMakesCoherent(st: State, ser: Serializer, o: Oracle, steps: seq<Step>)
    requires Ok(st)
    ensures Coherent(Run(st, o, steps + [SweepRoot]), ser)
  {
    RunConcat(st, o, steps, [SweepRoot]);
    var mid := Run(st, o, steps);
    RunOne(mid, o, SweepRoot);
    var r := Run(st, o, steps + [SweepRoot]);
    forall k | k in r.cache
      ensures KeyFresh(r.store, ser, k, r.cache[k].value)
    {
      RootlessKeys(r.store, ser, k, r.cache[k].value);
    }
  }

  /** `clear_faq_cache` hands back the view's response unchanged; once the view
      has returned, whatever its status, the table is as the view left it and
      the cache keeps exactly the view's entries outside `faq:`, untouched. */
  lemma ClearFaqCacheSweeps(st: State, o: Oracle, call: Outcome<Call>)
    requires Ok(st) && call.page.Returned?
    ensures ClearFaqCache(call).page == call.page
    ensures var mid := Run(st, o, call.steps);
      var r := Run(st, o, ClearFaqCache(call).steps);
      && r.store == mid.store
      && (forall k :: k in r.cache <==> k in mid.cache && !StartsWith(k, ROOT))
      && (forall k :: k in r.cache ==> r.cache[k] == mid.cache[k])
  {
    RunConcat(st, o, call.steps, [SweepRoot]);
    RunOne(Run(st, o, call.steps), o, SweepRoot);
  }

  /** A create whose data does not validate answers 400 and still sweeps. */
  lemma RejectedCreateStillSweeps(st: State, o: Oracle, now: int)
    requires Ok(st)
    ensures ClearFaqCache(ApiCreate(None, now)).page == Returned(BadRequest)
    ensures Run(st, o, ClearFaqCache(ApiCreate(None, now)).steps) == State(st.store, Sweep(st.cache))
  {
    assert ClearFaqCache(ApiCreate(None, now)).steps == [SweepRoot];
    RunOne(st, o, SweepRoot);
  }

  /** Under `clear_faq_cache` every API write keeps the cache coherent: a
      returned call ends in the sweep, a raised one has changed nothing. */
  lemma ApiWritesKeepCoherent(st: State, ser: Serializer, o: Oracle, call: Outcome<Call>)
    requires Coherent(st, ser)
    requires call.page.Raised404? ==> call.steps == []
    ensures Coherent(Run(st, o, ClearFaqCache(call).steps), ser)
  {
    if call.page.Returned? {
      SweepMakesCoherent(st, ser, o, call.steps);
    }
  }

  /** Each API write is of that form. */
  lemma ApiCallsRaiseBeforeWriting(s: Store, pk: nat, sub: Option<Submission>, patch: Option<Patch>,
                                   batch: Option<seq<Submission>>, nows: seq<int>, now: int)
    requires batch.Some? ==> |nows| == |batch.value|
    ensures ApiCreate(sub, now).page.Returned?
    ensures ApiBulkCreate(batch, nows).page.Returned?
    ensures ApiUpdate(s, pk, patch, now).page.Raised404? ==> ApiUpdate(s, pk, patch, now).steps == []
    ensures ApiDestroy(s, pk).page.Raised404? ==> ApiDestroy(s, pk).steps == []
  {
  }
}
